=== FILE: README.md ===
# Flow engine of a WhatsApp chat-bot, in Dafny

This project models the conversation-flow core of a Django WhatsApp bot and of
its WhatsApp-Web bridge, and proves properties of that model.

- **Flows.** A flow is a start node plus a map of nodes. A node is a message
  step (text, up to five assets, up to three buttons, a `next`), a redirect
  (`start`/`trigger` with `next`), a keyword or deep-link trigger, or a hand-off
  to a human advisor (`FlowDef`).
- **Trigger matcher.** `_match_trigger` searches the node map in order for the
  first armed trigger that matches the normalised text (`Triggers`). The webhook
  and the preview share it.
- **Webhook.** `whatsapp_webhook` logs the inbound message and loads or creates
  the per-user record. It then routes a button payload or free text to
  `send_flow_node`, which sends messages, stores `flow_node` and the hand-off
  fields, and recurses through `next`.
  - The engine is the class `Engine.Backend`: a map of user records, plus the
    message table of `Services`.
  - Each of its methods is proved equal to a plan of effects (`Plan.NodePlan`,
    `Plan.EventPlan`) run by an interpreter (`Plan.Run`). The properties are
    lemmas about these plans.
- **Preview.** `_build_preview_for_node` and `send_message_preview` are pure
  functions from a flow and a request to a response record (`Preview`). They
  are written both as methods with loops and as specification functions.
- **Operator toggle.** `api_panel_human_toggle` switches the human hand-off of
  one record (`Engine.Backend.HumanToggle`).
- **Outbound messages.** The payloads of the five `send_whatsapp_*` functions,
  the button normalisation, the endpoint URL and the one log row every send
  writes (`Services`). The Graph API's answers are a function from the call
  number to a response.
- **Records.** `WaUser`, `MessageLog` and `AIKey` with their defaults, the
  `(bot, wa_id)` uniqueness and the default orderings (`Models`).
- **Bridge.** `htmlToText`, `pickOptionByUserReply`, and the message handler
  that composes the reply and keeps the options last offered to each chat
  (`Bridge`, class `Relay`). The backend call is a parameter.

Conventions used throughout:

- Time is whole minutes.
- A missing JSON field is `""` or `Absent`.
- Python's recursion limit is a `fuel` parameter. Running out of fuel is the
  `RecursionError` effect, which ends the request as an error.
- Strings are `seq<char>`.
  - Case mapping covers ASCII and the one-to-one Latin-1 letters.
  - Whitespace is Python's `isspace` set or JavaScript's `trim` set, as each
    side uses.

## Model

| member | source | states |
|---|---|---|
| Models.Direction.Code | mi_chatfuel/bots/models.py:35-43 | the stored direction is "in" or "out", fits the 3-character column, and is "in" exactly for inbound rows |
| Models.Listing | mi_chatfuel/bots/models.py:52-53 | the default listing holds the same rows, the last written first |
| Models.ListingIsNewestFirst | mi_chatfuel/bots/models.py:50-53 | a log written in time order lists newest first; appending a row no older than the others keeps it in time order |
| Models.NewWaUser | mi_chatfuel/bots/models.py:63-69 | a new user record has the given name, no hand-off, a 15-minute timeout, and no expiry, flow node or timestamps |
| Models.GetOrCreate | mi_chatfuel/bots/models.py:71-72 | records are keyed by (bot, wa_id): the key is added, an existing record is kept as is, and a missing one is created with the defaults |
| Models.GetOrCreateIdempotent | mi_chatfuel/bots/models.py:72 | a second get-or-create for the same pair changes nothing, so there is at most one record per pair |
| Models.NewAIKey | mi_chatfuel/bots/models.py:87-93 | a new key is an active openrouter key with priority 100, no failures and no last use |
| Models.ListedNoLaterIsTotalPreorder | mi_chatfuel/bots/models.py:97-98 | the key order (priority, then active first, then least recently used) is reflexive, total and transitive, for either placement of unused keys |
| Models.NeighboursOrderedIsOrdered | mi_chatfuel/bots/models.py:97-98 | a listing ordered pair by pair is ordered throughout; its first key has the lowest priority number, and is active if any key with that number is |
| Strings.PyIntOfNumber | mi_chatfuel/bots/views2.py:264 | Python's `int()` reads a decimal numeral back as its value |
| Strings.ParseIntJsOfNumber | bridge/index.js:56 | `parseInt` reads a numeral back even when text not starting with a digit follows it, so "2)" reads as 2 |
| Services.WaUrlSegments | mi_chatfuel/bots/services.py:6-7 | the endpoint's path segments are the Graph host, the API version, the phone number id and `messages` |
| Services.KeepUsable | mi_chatfuel/bots/services.py:59-63 | every button kept has an id and a title of at most 20 characters, and none is added |
| Services.AllUsableKept | mi_chatfuel/bots/services.py:59-63 | when every button has an id and a title, all are kept, in order, with titles cut to 20 characters |
| Services.ReplyButtons | mi_chatfuel/bots/services.py:59-63 | at most 3 buttons and no more than given, each with an id and a non-empty title of at most 20 characters |
| Services.ReplyButtonsKeepsUsable | mi_chatfuel/bots/services.py:59-63 | when the first three buttons are usable, exactly those are sent, in order, with titles cut to 20 |
| Services.EnvelopeAddressed | mi_chatfuel/bots/services.py:16-19 | every message body names WhatsApp, its recipient and its type, and holds its content under that type |
| Services.TextMessage | mi_chatfuel/bots/services.py:16-24 | a text message goes to the recipient with type text, the body verbatim and `preview_url` false |
| Services.ButtonsMessage | mi_chatfuel/bots/services.py:64-73 | an interactive button message carries the body text and the normalised buttons |
| Services.ImageMessage | mi_chatfuel/bots/services.py:100-105 | an image message carries the link, and a caption key exactly when the caption is non-empty |
| Services.DocumentMessage | mi_chatfuel/bots/services.py:132-140 | a document carries its link, or its media id, plus the filename, and a caption key exactly when the caption is non-empty |
| Services.DocumentSource.Field | mi_chatfuel/bots/services.py:170-172 | a document source is named by `link` or by `id` |
| Services.OutLog | mi_chatfuel/bots/services.py:34-43 | the OUT row goes from the bot's number to the recipient with the message type, holds request and response, is 'sent' exactly when the answer is ok, and has an empty error when ok |
| Services.Deliver | mi_chatfuel/bots/services.py:26-46 | an answered request appends exactly one log row, even when it then raises; an unreachable endpoint appends none; the call raises exactly when unreachable or not ok |
| Services.MessageTable.Record | mi_chatfuel/bots/views2.py:499-508 | one row is appended to the message log and nothing is posted |
| Services.MessageTable.Post | mi_chatfuel/bots/services.py:26-45 | one request is made and the log and the outcome are those of `Deliver` for the endpoint's answer |
| Services.MessageTable.SendText | mi_chatfuel/bots/services.py:10-46 | sending a text is one request with the text message, logged as `Deliver` says |
| Services.MessageTable.SendInteractiveButtons | mi_chatfuel/bots/services.py:49-91 | sending buttons is one request with the button message, logged as `Deliver` says |
| Services.MessageTable.SendImage | mi_chatfuel/bots/services.py:94-123 | sending an image is one request with the image message, logged as `Deliver` says |
| Services.MessageTable.SendDocument | mi_chatfuel/bots/services.py:126-158 | sending a document by link is one request with the document message, logged as `Deliver` says |
| Services.MessageTable.SendDocumentId | mi_chatfuel/bots/services.py:161-196 | sending a document by media id is one request with the document message, logged as `Deliver` says |
| FlowDef.FindFirst | mi_chatfuel/bots/views2.py:547-551 | looking a node up finds the first entry stored under the id, and an empty node counts as missing |
| FlowDef.FindAt | mi_chatfuel/bots/views2.py:547-551 | with distinct ids, as in a decoded JSON object, the id of any entry finds that entry |
| FlowDef.FindAbsent | mi_chatfuel/bots/views2.py:547-551 | an id stored nowhere finds no node |
| FlowDef.NodeType | mi_chatfuel/bots/views2.py:552 | a node without a type is an action node |
| FlowDef.ButtonTitle | mi_chatfuel/bots/views2.py:612 | a button's title is its own when it has one and 'Opción' when it has none, so never empty |
| FlowDef.ButtonTarget | mi_chatfuel/bots/views2.py:613-617 | a button with `next` leads to `FLOW:<next>`, otherwise to its id |
| FlowDef.PhoneDigits | mi_chatfuel/bots/views2.py:560-561 | the advisor's stripped phone keeps only digits and plus signs, and every one of them |
| Strings.PhoneCharsAppend | mi_chatfuel/bots/views2.py:561 | the phone characters are kept in their original order |
| FlowDef.WaMeLink | mi_chatfuel/bots/views2.py:573-575 | the chat link is `https://wa.me/` followed by the phone digits with their leading '+' signs removed and nothing else changed |
| FlowDef.AdvisorTimeout | mi_chatfuel/bots/views2.py:578-581 | the timeout is `int()` of the first truthy of `timeout_min` and `human_timeout_min`, 15 when neither is truthy, and 15 when the chosen value does not parse |
| FlowDef.RoutePayload | mi_chatfuel/bots/views2.py:649-658 | a payload goes to a node exactly when it starts with `FLOW:` in any case, and to the main menu exactly when it is `MENU_PRINCIPAL` in any case |
| FlowDef.RouteTakesSuffix | mi_chatfuel/bots/views2.py:650-652 | the node a `FLOW:` payload names is what follows the five-character prefix |
| Triggers.Tokens | mi_chatfuel/bots/views2.py:807 | no token is empty and there are no more tokens than pieces |
| Triggers.TokensMembers | mi_chatfuel/bots/views2.py:807 | a token is exactly the stripped, lower-cased form of some non-blank piece |
| Triggers.TargetOf | mi_chatfuel/bots/views2.py:809 | a fired trigger leads to its `next`, or else to its own id |
| Triggers.FirstTrigger | mi_chatfuel/bots/views2.py:795-816 | nothing is found exactly when no node fires; otherwise the result is the target of the first node in map order that fires |
| Triggers.FirstTriggerStep | mi_chatfuel/bots/views2.py:797-815 | the scan takes the current node's target if it fires and otherwise goes on with the rest |
| Triggers.MatchTrigger | mi_chatfuel/bots/views2.py:795-816 | the search loop returns the first firing trigger's target, or nothing |
| Triggers.NeverFires | mi_chatfuel/bots/views2.py:798-805 | a node that is not a trigger, is disabled, has blank patterns or is an `ai` trigger never fires |
| Triggers.FiresByType | mi_chatfuel/bots/views2.py:806-813 | an armed keyword trigger fires exactly when some keyword occurs in the text; a deep-link trigger fires exactly when the text is one of its lines |
| Triggers.KeywordFires | mi_chatfuel/bots/views2.py:806-809 | a keyword trigger fires exactly when some non-blank comma-separated piece, stripped and lower-cased, occurs in the text |
| Triggers.KeywordsContained | mi_chatfuel/bots/views2.py:807-808 | some token occurs in the text exactly when some non-blank piece's normal form does |
| Triggers.DeeplinkFires | mi_chatfuel/bots/views2.py:810-813 | a deep-link trigger fires exactly when the text equals some non-blank line, stripped and lower-cased |
| Triggers.NonFiringSkipped | mi_chatfuel/bots/views2.py:797-816 | a node that does not fire does not change the result |
| Preview.WithUrl | mi_chatfuel/bots/views2.py:739-744 | the assets shown are those with a url, in order; when all have one, all are shown |
| Preview.AssetPartsRenderWithUrl | mi_chatfuel/bots/views2.py:739-749 | one rendered part per asset with a url, in order: an image inline, anything else as a file link |
| Preview.ButtonChoices | mi_chatfuel/bots/views2.py:774-780 | each option has a title and a payload, and there are no more options than buttons |
| Preview.TextPart | mi_chatfuel/bots/views2.py:735-738 | the text gives one part exactly when it is not blank |
| Preview.MenuOption | mi_chatfuel/bots/views2.py:769-771 | an advisor offers the main-menu option exactly when the flow has a start node |
| Preview.BuildPreviewForNode | mi_chatfuel/bots/views2.py:723-792 | the recursive method builds the preview the specification function defines |
| Preview.RenderSteps | mi_chatfuel/bots/views2.py:735-792 | rendering a non-redirecting node gives its specified reply |
| Preview.RenderParts | mi_chatfuel/bots/views2.py:735-749 | the parts are the text part, then the first five assets rendered |
| Preview.RenderAssets | mi_chatfuel/bots/views2.py:739-749 | the asset loop appends the rendering of each asset with a url |
| Preview.RenderStepReply | mi_chatfuel/bots/views2.py:782-792 | the step reply has the specified body and options |
| Preview.AdvisorReply | mi_chatfuel/bots/views2.py:767-772 | an advisor always answers with HTML and with the main-menu options |
| Preview.RenderAdvisor | mi_chatfuel/bots/views2.py:752-772 | the advisor branch gives the specified advisor reply |
| Preview.RenderAdvisorLines | mi_chatfuel/bots/views2.py:753-766 | the advisor's lines: the default message when there is no text, the shown links, the chat link |
| Preview.RenderLinks | mi_chatfuel/bots/views2.py:759-764 | the link loop appends one line per shown link, in order |
| Preview.RenderButtons | mi_chatfuel/bots/views2.py:774-780 | the button loop builds the specified options |
| Preview.RenderNodeShape | mi_chatfuel/bots/views2.py:752-792 | an advisor gives HTML with the menu options; another node gives `response_html` exactly when some part was rendered, gives `options` exactly when it has a usable button or is an action node with `next`, gives its button options whenever it has any, and never an empty list |
| Preview.PreviewMissing | mi_chatfuel/bots/views2.py:724-727 | a missing node previews as "⚠️ Paso no encontrado en el flujo." |
| Preview.PreviewRedirects | mi_chatfuel/bots/views2.py:730-733 | a start or trigger node with `next` previews as its `next` |
| Preview.PreviewBounds | mi_chatfuel/bots/views2.py:739-780 | at most 5 assets and at most 3 buttons are rendered |
| Preview.ActionOffersNext | mi_chatfuel/bots/views2.py:782-783 | an action node with `next` and no button options offers exactly one '➡️ Siguiente' option; with buttons it offers those |
| Preview.PlainIsBlank | mi_chatfuel/bots/views2.py:785-789 | the plain response is used exactly when no part was rendered, and it is then a single space |
| Preview.ReplaceChanges | mi_chatfuel/bots/views2.py:738 | a text with line breaks is changed by the `<br>` replacement and keeps no line break |
| Preview.PreviewFuelMonotone | mi_chatfuel/bots/views2.py:730-733 | a preview that does not hit the recursion limit is the same with more depth |
| Preview.SendMessagePreview | mi_chatfuel/bots/views2.py:831-860 | the endpoint method answers what the routing function specifies |
| Preview.PreviewNeedsPost | mi_chatfuel/bots/views2.py:832-833 | the answer is 405 exactly for requests other than POST |
| Preview.PayloadRouting | mi_chatfuel/bots/views2.py:839-846 | with a payload the message is ignored; `FLOW:<id>` previews that node, and an unknown payload answers a single space |
| Preview.FreeTextFallbacks | mi_chatfuel/bots/views2.py:848-860 | blank text answers a single space; text with a disabled or empty flow answers the no-match message |
| Plan.HandoffMinutes | mi_chatfuel/bots/views2.py:584 | the hand-off length is `max(1, timeout)`: the timeout when it is positive, one minute otherwise |
| Plan.AdvisorPlan | mi_chatfuel/bots/views2.py:582-587 | an advisor stores the timeout and an expiry `max(1, timeout)` minutes ahead, then sends one message with the single main-menu button |
| Plan.AssetSend | mi_chatfuel/bots/views2.py:597-604 | an asset is sent exactly when it has a url and is an image, file or document |
| Plan.TextSend | mi_chatfuel/bots/views2.py:623-624 | a text is sent exactly when the node has text |
| Plan.NodePlanNoFuel | mi_chatfuel/bots/views2.py:591-593 | a `next` chain deeper than the recursion limit ends in the recursion error |
| Plan.NodePlanEnters | mi_chatfuel/bots/views2.py:555-557 | an existing node is stored as the user's `flow_node` before anything else happens |
| Plan.MissingNodeSendsNotice | mi_chatfuel/bots/views2.py:548-551 | a missing node sends exactly the text "⚠️ Flujo no disponible en este paso." and changes no record |
| Plan.AdvisorHandsOff | mi_chatfuel/bots/views2.py:556-588 | an advisor node is entered, hands off for its timeout and sends its message, and nothing is chained after it |
| Plan.AdvisorStoresHandoff | mi_chatfuel/bots/views2.py:578-585 | after an advisor node the record holds the node, the hand-off flag, the node's timeout and the expiry `now + max(1, timeout)` |
| Plan.RedirectChains | mi_chatfuel/bots/views2.py:590-593 | a start or trigger node with `next` is entered and then runs its `next`, sending nothing itself |
| Plan.AssetSendsBestEffort | mi_chatfuel/bots/views2.py:600-606 | every asset send is best-effort |
| Plan.AtMostFiveAssets | mi_chatfuel/bots/views2.py:596 | at most 5 assets are sent |
| Plan.BestEffortNeverCrashes | mi_chatfuel/bots/views2.py:600-606 | failed asset sends never stop the request, touch no record, and make one request each |
| Plan.ButtonsMatchPreview | mi_chatfuel/bots/views2.py:609-619 | the webhook's buttons are exactly the preview's options, as (payload, title) |
| Plan.NodeButtonsAllSent | mi_chatfuel/bots/views2.py:609-621 | every button a node builds survives the services' normalisation, at most 3 |
| Plan.ButtonsEndTheStep | mi_chatfuel/bots/views2.py:620-621 | with buttons, one interactive message with the text (or a space) ends the step, with no chaining |
| Plan.NoButtonsChainOrLeave | mi_chatfuel/bots/views2.py:622-631 | without buttons, the text is sent, then an action node with `next` chains to it and any other node clears `flow_node` |
| Plan.EntersOnlyExistingNodes | mi_chatfuel/bots/views2.py:546-631 | `flow_node` is only ever set to the id of a node that exists |
| Plan.NodePlanFuelMonotone | mi_chatfuel/bots/views2.py:546-631 | a run that does not hit the recursion limit is the same with more depth |
| Plan.PayloadIgnoresState | mi_chatfuel/bots/views2.py:649-658 | a payload is routed whatever `flow_node` and the text are: `FLOW:<id>` runs that node, the main menu runs the start node if set, and anything else does nothing |
| Plan.MidFlowTextAsksToPick | mi_chatfuel/bots/views2.py:664-667 | free text in the middle of a flow sends exactly "Por favor, elige una opción del menú." and saves nothing |
| Plan.FreeTextRouting | mi_chatfuel/bots/views2.py:660-699 | outside a flow, free text runs the first matching trigger's target, else (no trigger, or an empty target) the start node, else nothing; a disabled or empty flow does nothing |
| Plan.RunLogGrows | mi_chatfuel/bots/views2.py:546-631 | running a node only appends to the log, at most one row per request, and adds or removes no record |
| Plan.RunKeepsOtherRecords | mi_chatfuel/bots/views2.py:555-557 | running a node never changes another user's record |
| Plan.AllAcceptedLogsEverySend | mi_chatfuel/bots/services.py:34-45 | when every request is accepted, nothing fails and each send writes exactly one row |
| Engine.Backend.SendFlowNode | mi_chatfuel/bots/views2.py:546-631 | the state and records after `send_flow_node` are those its plan produces |
| Engine.Backend.SendNodeTail | mi_chatfuel/bots/views2.py:559-631 | after entering, the advisor, redirect or step branch runs as planned |
| Engine.Backend.HandOver | mi_chatfuel/bots/views2.py:577-588 | the hand-off is saved and the advisor message sent as planned |
| Engine.Backend.AdvisorBody | mi_chatfuel/bots/views2.py:560-576 | the advisor's text: its message, the shown links and the chat link |
| Engine.Backend.AppendLinks | mi_chatfuel/bots/views2.py:567-572 | the link loop appends `Label: url` for each shown link |
| Engine.Backend.SendStep | mi_chatfuel/bots/views2.py:595-631 | a step sends its assets and then its reply as planned |
| Engine.Backend.SendAssets | mi_chatfuel/bots/views2.py:595-606 | the asset loop makes the planned best-effort sends |
| Engine.Backend.SendAsset | mi_chatfuel/bots/views2.py:597-606 | one asset is sent as an image or a document, or skipped |
| Engine.Backend.CollectButtons | mi_chatfuel/bots/views2.py:609-619 | the button loop builds the planned buttons |
| Engine.Backend.SendReply | mi_chatfuel/bots/views2.py:608-631 | the buttons or text, then the chaining or leaving, run as planned |
| Engine.Backend.Answer | mi_chatfuel/bots/views2.py:620-631 | one button message, or the text followed by the chaining or leaving |
| Engine.Backend.Say | mi_chatfuel/bots/views2.py:623-624 | a text is sent when there is one |
| Engine.Backend.Continue | mi_chatfuel/bots/views2.py:625-631 | chain to `next`, or clear `flow_node` |
| Engine.Backend.Webhook | mi_chatfuel/bots/views2.py:471-699 | a POSTed message leaves the records and the log as the webhook specification says |
| Engine.Backend.React | mi_chatfuel/bots/views2.py:648-699 | payload or free-text routing runs the planned node |
| Engine.Backend.FollowPayload | mi_chatfuel/bots/views2.py:649-658 | a payload runs its node, the start node, or nothing |
| Engine.Backend.FreeText | mi_chatfuel/bots/views2.py:660-699 | free text asks to pick from the menu, or runs the matched trigger or the start node |
| Engine.Backend.HumanToggle | mi_chatfuel/bots/views2.py:255-275 | the status is 405, 404, 500 or ok as the form says; on success exactly one owned record is switched and nothing else changes; otherwise nothing changes |
| Engine.Backend.Switch | mi_chatfuel/bots/views2.py:270-275 | the chosen record is switched and saved, every other record untouched |
| Engine.InboundLog | mi_chatfuel/bots/views2.py:496-508 | the IN row records the sender, the type, the whole body, status 'received', and the metadata number or else the bot's |
| Engine.Refreshed | mi_chatfuel/bots/views2.py:511-516 | a non-empty new name replaces the stored one, both timestamps become now, and nothing else changes |
| Engine.ReceiveLogsAndKeepsOthers | mi_chatfuel/bots/views2.py:471-699 | the inbound row is logged before anything else, at most one more row per request follows, the user's record exists afterwards, and other records are untouched |
| Engine.MidFlowTextSavesNothing | mi_chatfuel/bots/views2.py:664-667 | free text mid-flow saves no record and makes one request |
| Engine.IgnoredPayloadOnlyLogs | mi_chatfuel/bots/views2.py:649-658 | an unknown payload only logs the message and creates the record if it is new |
| Engine.FormTimeout | mi_chatfuel/bots/views2.py:264 | a missing timeout is 15 minutes |
| Engine.Switched | mi_chatfuel/bots/views2.py:270-274 | on sets the flag, the timeout `max(1, t)` (the advisor's `Plan.HandoffMinutes`) and the expiry that far ahead; off clears the flag and the expiry and keeps the timeout; nothing else changes |
| Engine.ToggleStatus | mi_chatfuel/bots/views2.py:259-269 | the toggle succeeds exactly for a POST with a readable timeout and a `wa_id` of a record the operator owns; other methods get 405, an unreadable timeout a server error, and a missing or foreign record 404 |
| Engine.SwitchIdempotent | mi_chatfuel/bots/views2.py:270-274 | switching twice the same way is switching once |
| Engine.SwitchOffThenOn | mi_chatfuel/bots/views2.py:270-274 | switching off and then on is the same as switching on |
| Bridge.BrTagLen | bridge/index.js:31 | what is recognised as a line-break tag is `<`, `b`, `r` in either case, whitespace, perhaps `/`, then `>` |
| Bridge.BrTagRecognised | bridge/index.js:31 | every `<br>`, `<br/>` and `<br />`, in any case and with any run of whitespace, is recognised with its whole length |
| Bridge.StripTagsKeeps | bridge/index.js:32 | tag removal introduces no character |
| Bridge.StripTagsTagless | bridge/index.js:32 | no tag survives tag removal |
| Bridge.HtmlToText | bridge/index.js:28-34 | empty HTML gives the empty text; the text has no tag and no surrounding whitespace |
| Bridge.FindTitle | bridge/index.js:61 | the index found is the first option whose lower-cased title is the key; nothing is found when no title is |
| Bridge.PickOption | bridge/index.js:52-63 | no stored options pick nothing, and a pick is one of the options |
| Bridge.PickByNumber | bridge/index.js:55-59 | a reply read as a number n from 1 to the count picks option n |
| Bridge.NumberedReplyPicks | bridge/index.js:55-59 | a reply spelling n, possibly followed by non-digits such as ")", picks option n |
| Bridge.TitleReplyPicksFirst | bridge/index.js:60-62 | when no number applies, the first option whose title matches case-insensitively is picked |
| Bridge.UnmatchedReplyPicksNothing | bridge/index.js:60-62 | with no number and no matching title, nothing is picked |
| Bridge.ReplyBody | bridge/index.js:82-85 | the reply is the HTML as text, else the plain response, else '🤖 (Sin contenido)' |
| Bridge.OptionLine | bridge/index.js:90 | option i's line starts with its number counted from 1 |
| Bridge.OptionLines | bridge/index.js:89-90 | one line per option, in order |
| Bridge.ReplyListsOptions | bridge/index.js:88-91 | with options the reply is the body, a blank line, the header and then exactly one `i) title` line per option; without options it is the body |
| Bridge.ReplyLayout | bridge/index.js:88-91 | for any titles, the reply with options is the body, a blank line, the header and the option lines joined by line breaks; without options it is the body alone |
| Bridge.TitleReplyForwardsPayload | bridge/index.js:59-62 | answering with an option's title (any case, any surrounding blanks), when the reply is no usable number and no earlier option has that title, forwards that option's non-empty payload |
| Strings.TrimIdempotent | bridge/index.js:54 | trimming the already trimmed body again (as `pickOptionByUserReply` does) changes nothing |
| Bridge.RequestFor | bridge/index.js:71-79 | a picked option (by number or by title) with a non-empty payload is forwarded as that payload, and in every other case the trimmed text is sent; so with no stored options the text is always sent, and a forwarded payload is always the non-empty payload of a stored option |
| Bridge.Relayed | bridge/index.js:65-101 | own messages are ignored; a failed backend call answers the error notice; otherwise the composed reply is sent and the chat's options are stored exactly when some were offered, with other chats untouched |
| Bridge.ShownNumberForwardsPayload | bridge/index.js:71-95 | replying with the number shown in front of an option forwards that option's payload |
| Bridge.Relay.constructor | bridge/index.js:16 | no chat starts with stored options |
| Bridge.Relay.OnMessage | bridge/index.js:65-102 | the reply and the new options map are those `Relayed` specifies |
| Bridge.Relay.Respond | bridge/index.js:81-101 | an answer stores or deletes the chat's options and replies with the composed text; a failure replies with the error notice |
| Bridge.Relay.ListOptions | bridge/index.js:89-90 | the listing is a blank line, the header and one line per option |

## Left out

- HTTP, the Graph API and the database are not modelled as such.
  - Answers come from a `provider` function indexed by the request count.
  - The access token, headers and timeout are not modelled.
  - A response body that is not JSON is not modelled.
  - The `str(data)` of a failed answer is approximated by a Python-style rendering of the JSON value.
- Reading the POSTed webhook body is not modelled. This covers the JSON decoding, the `entry`/`changes`/`messages` walk, the acknowledgement when there is no message, and the payload extraction by message type (mi_chatfuel/bots/views2.py:478-492, 633-646). `Engine.Inbound` carries the already extracted sender, name, type, metadata number, payload id and text.
- Webhook verification on GET (`verify_webhook`) and the 405 for other methods are not modelled.
- Loading the active flow, or the legacy `flow.json`, is not modelled: the flow is a parameter of the webhook and of the preview.
- Login, ownership and CSRF are not modelled. The toggle receives the set of bot ids the operator owns.
- Engine.Backend.HumanToggle: when several owned bots have a record for the same `wa_id`, `.first()` on the query (which has no ordering of its own) orders by primary key, so the source switches the oldest such record. The model stores no record ids and over-approximates: it switches some switchable record and names it in `picked`.
- An unreadable `timeout_min` makes the toggle raise. The model answers `ServerError` for it, the 500 the framework turns the exception into.
- Python's recursion limit is the `fuel` parameter, not the interpreter's actual depth.
- Time is whole minutes. Timestamps are the request's `now`, and the date-time range overflow of very large timeouts is not modelled.
- Case mapping covers ASCII and one-to-one Latin-1 letters only. Python's and JavaScript's full Unicode tables are not modelled.
- `int()` accepts ASCII digits with an optional sign. Underscores and non-ASCII digits are not modelled.
- Strings.PhoneChars: `str.isdigit()` is read as the ASCII digits. Python also keeps other Unicode digits in a phone number ('٣', '²'), which the model drops, so `FlowDef.PhoneDigits` and the wa.me link differ from the source for such numbers.
- Concurrency is not modelled. Webhook POSTs and bridge messages are handled one at a time. In the bridge the handler reads a chat's stored options before awaiting the backend and writes them after it (bridge/index.js:71-94), so two messages of one chat can interleave and overwrite each other's options; `Bridge.Relayed` and `Bridge.Relay.OnMessage` treat each message atomically. Concurrent saves of one record by the webhook are likewise not modelled.
- JSON fields of an unexpected type are not modelled (a non-string title, a non-dict `links`).
- The webhook never reads `human_requested` or `human_expires_at`. The model keeps them as stored data only.
- `ai` triggers never fire, as in the source.
- Asset failures are caught as a whole. Any exception in the asset branch counts as a failed send.
- `Bridge.HtmlToText`: its contract states that the text holds no tag and no surrounding whitespace. Which prefixes are line-break tags is stated by `Bridge.BrTagLen` and `Bridge.BrTagRecognised`; that each of them becomes a newline is stated by the definition of `Bridge.BreaksToNewlines` only.
- `Bridge.PickOption`: its contract states only the empty case and membership. The number and title rules are the lemmas `Bridge.PickByNumber`, `Bridge.NumberedReplyPicks`, `Bridge.TitleReplyPicksFirst` and `Bridge.UnmatchedReplyPicksNothing`.
- The WhatsApp-Web client, QR login and axios are not modelled. The backend call is the `ask` parameter, `None` standing for a failed call. A failure of `msg.reply` itself is not modelled.
- AI keys are only declared in the source. No key rotation or AI call is modelled, and `services/ai_service.py` is not part of this model.
- The position of keys never used in the `AIKey` order depends on the database. It is the parameter `NullPlacement`.

=== FILE: bridge.dfy ===
/**
 * The WhatsApp-Web bridge: every chat message is relayed to the bot backend
 * and answered with the backend's reply. When the backend offers options,
 * the reply lists them numbered from 1 and the bridge remembers them for
 * that chat, so that the next message can pick one by number or by title
 * and be forwarded as that option's payload.
 */
module Bridge {
  import opened Wrappers
  import opened Strings

  // ---------------------------------------------------------------------
  // htmlToText: `<br>` tags become line breaks, other tags are dropped and
  // the result is trimmed. The two regular-expression replacements scan
  // left to right and replace leftmost matches, as `String.replace` with a
  // global pattern does.

  /** The number of JavaScript whitespace characters `s` starts with
      (what `\s*` matches). */
  function SpaceRun(s: string): (n: nat)
    ensures n <= |s|
    ensures forall k :: 0 <= k < n ==> IsSpace(Js, s[k])
    ensures n < |s| ==> !IsSpace(Js, s[n])
  {
    TrimStartDropsSpace(Js, s);
    |s| - |TrimStart(Js, s)|
  }

  /** The length of the `<br\s*\/?>` match (case-insensitive) that `s`
      starts with, if any: what it measures is `<`, `b` and `r` in either
      case, whitespace, perhaps a `/`, and `>`. */
  function BrTagLen(s: string): (r: Option<nat>)
    ensures r.Some? ==> 4 <= r.value <= |s| && s[0] == '<' && s[r.value - 1] == '>'
    ensures r.Some? ==> LowerChar(s[1]) == 'b' && LowerChar(s[2]) == 'r'
    ensures r.Some? ==> forall k :: 3 <= k < r.value - 1 ==> IsSpace(Js, s[k]) || (k == r.value - 2 && s[k] == '/')
  {
    if |s| >= 3 && s[0] == '<' && LowerChar(s[1]) == 'b' && LowerChar(s[2]) == 'r' then
      var n := 3 + SpaceRun(s[3..]);
      if n < |s| && s[n] == '>' then Some(n + 1)
      else if n + 1 < |s| && s[n] == '/' && s[n + 1] == '>' then Some(n + 2)
      else None
    else None
  }

  /** Every `<br>`, `<br/>` or `<br />` in any case and with any run of
      whitespace is recognised, with its whole length: `s` starts with `<br`,
      whitespace up to index `n`, then `>` or `/>`. */
  lemma BrTagRecognised(s: string, n: nat, slash: bool)
    requires 3 <= n && |s| >= 3 && s[0] == '<' && LowerChar(s[1]) == 'b' && LowerChar(s[2]) == 'r'
    requires forall k :: 3 <= k < n && k < |s| ==> IsSpace(Js, s[k])
    requires slash ==> n + 1 < |s| && s[n] == '/' && s[n + 1] == '>'
    requires !slash ==> n < |s| && s[n] == '>'
    ensures BrTagLen(s) == Some(if slash then n + 2 else n + 1)
  {
    CloseNotSpace();
    SpaceRunExact(s[3..], n - 3);
  }

  /** Neither `/` nor `>` is whitespace. */
  lemma CloseNotSpace()
    ensures !IsSpace(Js, '/') && !IsSpace(Js, '>')
  {
  }

  /** A run of whitespace ended by something else is measured exactly. */
  lemma SpaceRunExact(t: string, m: nat)
    requires m < |t| && !IsSpace(Js, t[m])
    requires forall k :: 0 <= k < m ==> IsSpace(Js, t[k])
    ensures SpaceRun(t) == m
  {
  }

  /** `s.replace(/<br\s*\/?>/gi, '\n')`. */
  function BreaksToNewlines(s: string): string
    decreases |s|
  {
    if s == [] then []
    else
      match BrTagLen(s)
      case Some(n) => "\n" + BreaksToNewlines(s[n..])
      case None => [s[0]] + BreaksToNewlines(s[1..])
  }

  /** The index of the first `>` in `s`. */
  function FirstClose(s: string): (j: nat)
    requires '>' in s
    ensures j < |s| && s[j] == '>'
    ensures forall k :: 0 <= k < j ==> s[k] != '>'
    decreases |s|
  {
    if s[0] == '>' then 0 else 1 + FirstClose(s[1..])
  }

  /** `s.replace(/<[^>]+>/g, '')`: a `<` followed by at least one character
      other than `>` and then a `>` is removed, up to the first `>`. */
  function StripTags(s: string): string
    decreases |s|
  {
    if s == [] then []
    else if s[0] == '<' && |s| >= 2 && s[1] != '>' && '>' in s then
      StripTags(s[FirstClose(s) + 1..])
    else [s[0]] + StripTags(s[1..])
  }

  /** A tag (`<[^>]+>`) starts at index `i` of `t`. */
  predicate OpensTag(t: string, i: int) {
    0 <= i && i + 1 < |t| && t[i] == '<' && t[i + 1] != '>' && '>' in t[i + 1..]
  }

  /** No tag is left anywhere in `t`. */
  predicate Tagless(t: string) {
    forall i :: 0 <= i < |t| ==> !OpensTag(t, i)
  }

  /** `htmlToText`: empty input gives "", and the result holds no tag and
      neither starts nor ends with whitespace. */
  function HtmlToText(html: string): (r: string)
    ensures html == "" ==> r == ""
    ensures Tagless(r)
    ensures r != [] ==> !IsSpace(Js, r[0]) && !IsSpace(Js, r[|r| - 1])
  {
    if html == "" then ""
    else
      var t := StripTags(BreaksToNewlines(html));
      StripTagsTagless(BreaksToNewlines(html));
      TrimmedTagless(t);
      Trim(t)
  }

  /** Whatever `StripTags` keeps was in its input. */
  lemma {:induction false} StripTagsKeeps(s: string, c: char)
    requires c in StripTags(s)
    ensures c in s
    decreases |s|
  {
    if s[0] == '<' && |s| >= 2 && s[1] != '>' && '>' in s {
      StripTagsKeeps(s[FirstClose(s) + 1..], c);
    } else if c != s[0] {
      StripTagsKeeps(s[1..], c);
    }
  }

  /** Removing tags leaves no tag behind, not even one formed by the
      pieces around a removed tag. */
  lemma {:induction false} StripTagsTagless(s: string)
    ensures Tagless(StripTags(s))
    decreases |s|
  {
    if s == [] {
    } else if s[0] == '<' && |s| >= 2 && s[1] != '>' && '>' in s {
      StripTagsTagless(s[FirstClose(s) + 1..]);
    } else {
      var rest := StripTags(s[1..]);
      StripTagsTagless(s[1..]);
      var t := StripTags(s);
      assert t == [s[0]] + rest;
      forall i | 0 <= i < |t|
        ensures !OpensTag(t, i)
      {
        if i == 0 {
          if s[0] == '<' && |s| >= 2 {
            if s[1] == '>' {
              assert s[1..][0] == '>';
              assert rest[0] == '>';
            } else {
              assert '>' !in s;
              if '>' in rest {
                StripTagsKeeps(s[1..], '>');
              }
              assert t[1..] == rest;
            }
          }
        } else {
          assert t[i + 1..] == rest[i..];
          assert !OpensTag(rest, i - 1);
        }
      }
    }
  }

  /** A slice of a tagless string is tagless. */
  lemma TaglessSlice(t: string, a: int, b: int)
    requires 0 <= a <= b <= |t| && Tagless(t)
    ensures Tagless(t[a..b])
  {
    var u := t[a..b];
    forall i | 0 <= i < |u|
      ensures OpensTag(u, i) ==> OpensTag(t, a + i)
    {
      if i + 1 < |u| {
        assert u[i + 1..] == t[a + i + 1..b];
        assert t[a + i + 1..] == t[a + i + 1..b] + t[b..];
      }
    }
  }

  /** Trimming keeps a tagless string tagless, and the result is trimmed. */
  lemma TrimmedTagless(t: string)
    requires Tagless(t)
    ensures Tagless(Trim(t))
    ensures Trim(t) != [] ==> !IsSpace(Js, Trim(t)[0]) && !IsSpace(Js, Trim(t)[|Trim(t)| - 1])
  {
    var s := TrimStart(Js, t);
    TrimStartTagless(t);
    TrimEndTagless(s);
    var r := TrimEnd(Js, s);
    if r != [] {
      assert r[0] == s[0];
    }
  }

  lemma TrimStartTagless(t: string)
    requires Tagless(t)
    ensures Tagless(TrimStart(Js, t))
  {
    var s := TrimStart(Js, t);
    TaglessSlice(t, |t| - |s|, |t|);
    assert t[|t| - |s|..|t|] == s;
  }

  lemma TrimEndTagless(s: string)
    requires Tagless(s)
    ensures Tagless(TrimEnd(Js, s))
  {
    TaglessSlice(s, 0, |TrimEnd(Js, s)|);
  }

  // ---------------------------------------------------------------------
  // pickOptionByUserReply

  /** An option the backend offers: its title (`None` when missing) and its
      payload ("" when missing). */
  datatype Choice = Choice(title: Option<string>, payload: string)

  /** `(o.title || '').toLowerCase()`: what a reply is compared with. */
  function TitleKey(c: Choice): string {
    Lower(c.title.GetOr(""))
  }

  /** The first option whose title is `key`, by index. */
  function FindTitle(options: seq<Choice>, key: string): (r: Option<nat>)
    ensures r.Some? ==> r.value < |options| && TitleKey(options[r.value]) == key
    ensures r.Some? ==> forall j :: 0 <= j < r.value ==> TitleKey(options[j]) != key
    ensures r.None? ==> forall j :: 0 <= j < |options| ==> TitleKey(options[j]) != key
    decreases |options|
  {
    if options == [] then None
    else if TitleKey(options[0]) == key then Some(0)
    else
      match FindTitle(options[1..], key)
      case None => None
      case Some(k) => Some(k + 1)
  }

  /** `pickOptionByUserReply`: nothing without options; a number from 1 to
      the number of options (read as `parseInt` reads it) picks that
      option; otherwise the first option whose title equals the trimmed
      reply, ignoring case; otherwise nothing. */
  function PickOption(options: seq<Choice>, userText: string): (r: Option<Choice>)
    ensures options == [] ==> r.None?
    ensures r.Some? ==> r.value in options
  {
    if options == [] then None
    else
      var txt := Trim(userText);
      PickBy(options, ParseIntJs(txt), Lower(txt))
  }

  /** The option a reply picks once read as a number (if it is one) and as a
      lower-cased title. */
  function PickBy(options: seq<Choice>, num: Option<int>, key: string): (r: Option<Choice>)
    ensures r.Some? ==> r.value in options
  {
    if num.Some? && 1 <= num.value <= |options| then Some(options[num.value - 1])
    else
      match FindTitle(options, key)
      case None => None
      case Some(k) => Some(options[k])
  }

  /** A reply starting with the number n, where 1 <= n <= the number of
      options, picks the n-th option, whatever follows the number ("2)"
      picks the second). */
  lemma NumberedReplyPicks(options: seq<Choice>, n: nat, reply: string, rest: string)
    requires 1 <= n <= |options|
    requires Trim(reply) == NatToString(n) + rest
    requires rest == [] || !IsDigit(rest[0])
    ensures PickOption(options, reply) == Some(options[n - 1])
  {
    ParseIntJsOfNumber(n, rest);
    PickByNumber(options, reply, n);
  }

  lemma PickByNumber(options: seq<Choice>, reply: string, n: int)
    requires 1 <= n <= |options| && ParseIntJs(Trim(reply)) == Some(n)
    ensures PickOption(options, reply) == Some(options[n - 1])
  {
    var txt := Trim(reply);
    assert PickOption(options, reply) == PickBy(options, Some(n), Lower(txt));
    PickByIndex(options, n, Lower(txt));
  }

  lemma PickByIndex(options: seq<Choice>, n: int, key: string)
    requires 1 <= n <= |options|
    ensures PickBy(options, Some(n), key) == Some(options[n - 1])
  {
  }

  /** A reply that is no usable number picks the first option with that
      title; one that matches no title picks nothing. */
  lemma TitleReplyPicksFirst(options: seq<Choice>, reply: string, k: nat)
    requires k < |options| && TitleKey(options[k]) == Lower(Trim(reply))
    requires forall j :: 0 <= j < k ==> TitleKey(options[j]) != Lower(Trim(reply))
    requires var n := ParseIntJs(Trim(reply)); !(n.Some? && 1 <= n.value <= |options|)
    ensures PickOption(options, reply) == Some(options[k])
  {
    var r := FindTitle(options, Lower(Trim(reply)));
    assert r == Some(k);
  }

  /** A reply that is no usable number and matches no title picks nothing. */
  lemma UnmatchedReplyPicksNothing(options: seq<Choice>, reply: string)
    requires forall j :: 0 <= j < |options| ==> TitleKey(options[j]) != Lower(Trim(reply))
    requires var n := ParseIntJs(Trim(reply)); !(n.Some? && 1 <= n.value <= |options|)
    ensures PickOption(options, reply).None?
  {
    var r := FindTitle(options, Lower(Trim(reply)));
    assert r.None?;
  }

  // ---------------------------------------------------------------------
  // Composing the reply.

  /** What the backend answers: `response_html` and `response` ("" when
      missing or empty) and `options` (`None` when it is not an array). */
  datatype BackendReply = BackendReply(responseHtml: string, response: string, options: Option<seq<Choice>>)

  const NoContent: string := "\U{1F916} (Sin contenido)"
  const ChooseHeader: string := "Elige una opci\U{F3}n respondiendo con el n\U{FA}mero o el texto exacto:"
  const TemporaryError: string := "\U{26A0}\U{FE0F} Error temporal procesando tu mensaje."

  /** The options offered, when there are any. */
  function Offered(data: BackendReply): seq<Choice> {
    if data.options.Some? then data.options.value else []
  }

  /** The text part of the reply: the HTML converted, else the plain
      response, else the "no content" notice. */
  function ReplyBody(data: BackendReply): (r: string)
    ensures data.responseHtml != "" ==> r == HtmlToText(data.responseHtml)
    ensures data.responseHtml == "" && data.response != "" ==> r == data.response
    ensures data.responseHtml == "" && data.response == "" ==> r == NoContent
  {
    if data.responseHtml != "" then HtmlToText(data.responseHtml)
    else if data.response != "" then data.response
    else NoContent
  }

  /** How an option is listed: a missing title prints as `undefined`. */
  function ShownTitle(c: Choice): string {
    match c.title
    case None => "undefined"
    case Some(t) => t
  }

  /** The line listing option `i` (counting from 0): its number from 1, a
      parenthesis and its title. */
  function OptionLine(i: nat, c: Choice): (line: string)
    ensures NatToString(i + 1) <= line
  {
    NatToString(i + 1) + ") " + ShownTitle(c)
  }

  /** One line per option, in order. */
  function OptionLines(options: seq<Choice>): (lines: seq<string>)
    ensures |lines| == |options|
    ensures forall i :: 0 <= i < |options| ==> lines[i] == OptionLine(i, options[i])
  {
    seq(|options|, i requires 0 <= i < |options| => OptionLine(i, options[i]))
  }

  /** The reply sent to the chat. */
  function ComposeReply(data: BackendReply): string {
    if Offered(data) != [] then
      ReplyBody(data) + "\n" + Join(["", ChooseHeader] + OptionLines(Offered(data)), "\n")
    else ReplyBody(data)
  }

  /** Whatever the titles, the reply with options is the body, a blank
      line, the header and the option lines joined by line breaks; without
      options it is the body alone. */
  lemma ReplyLayout(data: BackendReply)
    ensures Offered(data) != [] ==>
      ComposeReply(data) == ReplyBody(data) + "\n\n" + ChooseHeader + "\n" + Join(OptionLines(Offered(data)), "\n")
    ensures Offered(data) == [] ==> ComposeReply(data) == ReplyBody(data)
  {
    var opts := Offered(data);
    if opts != [] {
      ListingLayout(ReplyBody(data), ChooseHeader, OptionLines(opts));
    }
  }

  /** With options, the reply is the body, a blank line and the header,
      and, when no title holds a line break, its last lines are exactly one
      line "i) title" per option, in order; without options, the reply is
      the body alone. */
  lemma ReplyListsOptions(data: BackendReply)
    requires forall c :: c in Offered(data) ==> '\n' !in ShownTitle(c)
    ensures Offered(data) != [] ==>
      && ComposeReply(data) == ReplyBody(data) + "\n\n" + ChooseHeader + "\n" + Join(OptionLines(Offered(data)), "\n")
      && Split(ComposeReply(data), '\n') == Split(ReplyBody(data) + "\n\n" + ChooseHeader, '\n') + OptionLines(Offered(data))
    ensures Offered(data) == [] ==> ComposeReply(data) == ReplyBody(data)
  {
    ReplyLayout(data);
    var opts := Offered(data);
    if opts != [] {
      OptionLinesSingle(opts);
      ListingLines(ReplyBody(data), ChooseHeader, OptionLines(opts));
    }
  }

  /** No option line breaks in two, when no title does. */
  lemma OptionLinesSingle(opts: seq<Choice>)
    requires forall c :: c in opts ==> '\n' !in ShownTitle(c)
    ensures forall k :: 0 <= k < |opts| ==> '\n' !in OptionLines(opts)[k]
  {
    var lines := OptionLines(opts);
    forall k | 0 <= k < |lines|
      ensures '\n' !in lines[k]
    {
      var num := NatToString(k + 1);
      assert lines[k] == num + ") " + ShownTitle(opts[k]);
      assert opts[k] in opts;
      DigitsHaveNoNewline(num);
      assert '\n' !in ") ";
      assert '\n' !in num + ") ";
    }
  }

  lemma ListingLayout(body: string, header: string, lines: seq<string>)
    requires |lines| >= 1
    ensures body + "\n" + Join(["", header] + lines, "\n") == body + "\n\n" + header + "\n" + Join(lines, "\n")
  {
    var j := Join(lines, "\n");
    var hj := Join([header] + lines, "\n");
    assert (["", header] + lines)[1..] == [header] + lines;
    assert ([header] + lines)[1..] == lines;
    assert Join(["", header] + lines, "\n") == "" + "\n" + hj;
    assert hj == header + "\n" + j;
    Regroup(body, header, j);
  }

  lemma ListingLines(body: string, header: string, lines: seq<string>)
    requires |lines| >= 1
    requires forall k :: 0 <= k < |lines| ==> '\n' !in lines[k]
    ensures Split(body + "\n\n" + header + "\n" + Join(lines, "\n"), '\n') == Split(body + "\n\n" + header, '\n') + lines
  {
    SplitJoin(lines, '\n');
    var j := Join(lines, "\n");
    Regroup(body, header, j);
    SplitConcat(body + "\n\n" + header, '\n', j);
  }

  lemma Regroup(body: string, header: string, j: string)
    ensures body + "\n" + ("" + "\n" + (header + "\n" + j)) == body + "\n\n" + header + "\n" + j
    ensures body + "\n\n" + header + "\n" + j == (body + "\n\n" + header) + ['\n'] + j
  {
    assert "\n\n" == "\n" + "\n";
  }

  lemma DigitsHaveNoNewline(s: string)
    requires AllDigits(s)
    ensures '\n' !in s
  {
    forall k | 0 <= k < |s|
      ensures s[k] != '\n'
    {
      assert IsDigit(s[k]);
    }
  }

  /** Splitting pieces free of the separator joined by it gives the pieces. */
  lemma {:induction false} SplitJoin(parts: seq<string>, sep: char)
    requires |parts| >= 1
    requires forall k :: 0 <= k < |parts| ==> sep !in parts[k]
    ensures Split(Join(parts, [sep]), sep) == parts
    decreases |parts|
  {
    if |parts| == 1 {
      SplitWhole(parts[0], sep);
    } else {
      SplitJoin(parts[1..], sep);
      SplitAfter(parts[0], sep, Join(parts[1..], [sep]));
      assert [parts[0]] + parts[1..] == parts;
    }
  }

  /** Splitting a string one character longer: a separator opens a new
      piece, any other character joins the first one. */
  lemma SplitCons(c: char, t: string, sep: char)
    ensures Split([c] + t, sep) ==
      if c == sep then [""] + Split(t, sep) else [[c] + Split(t, sep)[0]] + Split(t, sep)[1..]
  {
    assert ([c] + t)[1..] == t;
  }

  /** Splitting at a separator splits the two sides independently. */
  lemma {:induction false} SplitConcat(a: string, sep: char, b: string)
    ensures Split(a + [sep] + b, sep) == Split(a, sep) + Split(b, sep)
    decreases |a|
  {
    if a == [] {
      assert a + [sep] + b == [sep] + b;
      assert ([sep] + b)[1..] == b;
    } else {
      var t := a[1..] + [sep] + b;
      assert a + [sep] + b == [a[0]] + t;
      assert a == [a[0]] + a[1..];
      SplitConcat(a[1..], sep, b);
      SplitCons(a[0], t, sep);
      SplitCons(a[0], a[1..], sep);
    }
  }

  // ---------------------------------------------------------------------
  // The message handler.

  /** An incoming chat message: whether the bridge's own account sent it,
      the chat it came from and its body ("" when missing). */
  datatype Incoming = Incoming(fromMe: bool, chat: string, body: string)

  /** What is posted to the backend: a picked option's payload, or the
      message text. */
  datatype Request = WithPayload(payload: string) | WithMessage(message: string)

  /** The options last offered in `chat`, none when nothing is stored. */
  function Stored(last: map<string, seq<Choice>>, chat: string): seq<Choice> {
    if chat in last then last[chat] else []
  }

  /** The request a message makes: a picked option that has a payload sends
      the payload, anything else sends the trimmed text. With no options
      stored the text is always sent, and a payload sent is always that of
      one of the stored options. */
  function RequestFor(prev: seq<Choice>, body: string): (req: Request)
    ensures prev == [] ==> req == WithMessage(Trim(body))
    ensures req.WithMessage? ==> req.message == Trim(body)
    ensures req.WithPayload? ==> req.payload != "" && exists c :: c in prev && c.payload == req.payload
    ensures var c := PickOption(prev, Trim(body));
      c.Some? && c.value.payload != "" ==> req == WithPayload(c.value.payload)
    ensures var c := PickOption(prev, Trim(body));
      !(c.Some? && c.value.payload != "") ==> req == WithMessage(Trim(body))
  {
    var txt := Trim(body);
    var chosen := PickOption(prev, txt);
    if chosen.Some? && chosen.value.payload != "" then WithPayload(chosen.value.payload) else WithMessage(txt)
  }

  /** The reply to a message (`None`: no reply) and the options map
      afterwards. `ask` is the backend: `None` when the request fails. */
  function Relayed(last: map<string, seq<Choice>>, msg: Incoming,
                   ask: Request -> Option<BackendReply>): (r: (Option<string>, map<string, seq<Choice>>))
    ensures msg.fromMe ==> r == (None, last)
    ensures !msg.fromMe && ask(RequestFor(Stored(last, msg.chat), msg.body)).None? ==> r == (Some(TemporaryError), last)
    ensures !msg.fromMe && ask(RequestFor(Stored(last, msg.chat), msg.body)).Some? ==>
      var data := ask(RequestFor(Stored(last, msg.chat), msg.body)).value;
      && r.0 == Some(ComposeReply(data))
      && (msg.chat in r.1 <==> Offered(data) != [])
      && (Offered(data) != [] ==> r.1[msg.chat] == Offered(data))
    ensures r.1.Keys <= last.Keys + {msg.chat}
    ensures forall c :: c in last && c != msg.chat ==> c in r.1 && r.1[c] == last[c]
  {
    if msg.fromMe then (None, last)
    else
      match ask(RequestFor(Stored(last, msg.chat), msg.body))
      case None => (Some(TemporaryError), last)
      case Some(data) =>
        (Some(ComposeReply(data)),
         if Offered(data) != [] then last[msg.chat := Offered(data)] else last - {msg.chat})
  }

  /** After a reply listing options, answering with the number shown before
      an option that has a payload forwards that payload. */
  lemma ShownNumberForwardsPayload(last: map<string, seq<Choice>>, msg: Incoming,
                                   ask: Request -> Option<BackendReply>, k: nat)
    requires !msg.fromMe
    requires ask(RequestFor(Stored(last, msg.chat), msg.body)).Some?
    requires var data := ask(RequestFor(Stored(last, msg.chat), msg.body)).value;
      k < |Offered(data)| && Offered(data)[k].payload != ""
    ensures var data := ask(RequestFor(Stored(last, msg.chat), msg.body)).value;
      var after := Relayed(last, msg, ask).1;
      && OptionLines(Offered(data))[k] == NatToString(k + 1) + ") " + ShownTitle(Offered(data)[k])
      && RequestFor(Stored(after, msg.chat), NatToString(k + 1)) == WithPayload(Offered(data)[k].payload)
  {
    var data := ask(RequestFor(Stored(last, msg.chat), msg.body)).value;
    var after := Relayed(last, msg, ask).1;
    assert Stored(after, msg.chat) == Offered(data);
    NumberRequest(Offered(data), k);
  }

  /** Answering with an option's number forwards its payload. */
  lemma NumberRequest(opts: seq<Choice>, k: nat)
    requires k < |opts| && opts[k].payload != ""
    ensures RequestFor(opts, NatToString(k + 1)) == WithPayload(opts[k].payload)
  {
    var s := NatToString(k + 1);
    TrimDigits(s);
    assert s + "" == s;
    NumberedReplyPicks(opts, k + 1, s, "");
  }

  /** Answering with the exact title of an option (in any case, with any
      surrounding blanks), when the reply is no usable number and no earlier
      option has that title, forwards that option's payload. */
  lemma TitleReplyForwardsPayload(opts: seq<Choice>, reply: string, k: nat)
    requires k < |opts| && TitleKey(opts[k]) == Lower(Trim(reply))
    requires forall j :: 0 <= j < k ==> TitleKey(opts[j]) != Lower(Trim(reply))
    requires var n := ParseIntJs(Trim(reply)); !(n.Some? && 1 <= n.value <= |opts|)
    requires opts[k].payload != ""
    ensures RequestFor(opts, reply) == WithPayload(opts[k].payload)
  {
    TrimIdempotent(reply);
    TitleReplyPicksFirst(opts, Trim(reply), k);
  }

  /** A string of digits is already trimmed. */
  lemma TrimDigits(s: string)
    requires s != [] && AllDigits(s)
    ensures Trim(s) == s
  {
    assert IsDigit(s[0]) && !IsSpace(Js, s[0]);
    assert TrimStart(Js, s) == s;
    assert IsDigit(s[|s| - 1]) && !IsSpace(Js, s[|s| - 1]);
  }

  /** The bridge's state: the options last offered in each chat. */
  class Relay {
    var lastOptions: map<string, seq<Choice>>

    constructor ()
      ensures lastOptions == map[]
    {
      lastOptions := map[];
    }

    /** The `message` handler. */
    method OnMessage(msg: Incoming, ask: Request -> Option<BackendReply>) returns (reply: Option<string>)
      modifies this
      ensures (reply, lastOptions) == Relayed(old(lastOptions), msg, ask)
    {
      if msg.fromMe {
        return None;
      }
      var chat := msg.chat;
      var body := Trim(msg.body);
      var prev := if chat in lastOptions then lastOptions[chat] else [];
      var chosen := PickOption(prev, body);
      var answer;
      if chosen.Some? && chosen.value.payload != "" {
        answer := ask(WithPayload(chosen.value.payload));
      } else {
        answer := ask(WithMessage(body));
      }
      assert answer == ask(RequestFor(Stored(lastOptions, chat), msg.body));
      reply := Respond(msg.chat, answer);
    }

    /** The reply to the backend's answer, and the chat's stored options
        replaced by the ones offered, or dropped when none are. */
    method Respond(chat: string, answer: Option<BackendReply>) returns (reply: Option<string>)
      modifies this
      ensures answer.None? ==> reply == Some(TemporaryError) && lastOptions == old(lastOptions)
      ensures answer.Some? ==>
        && reply == Some(ComposeReply(answer.value))
        && lastOptions == if Offered(answer.value) != [] then old(lastOptions)[chat := Offered(answer.value)]
                          else old(lastOptions) - {chat}
    {
      if answer.None? {
        return Some(TemporaryError);
      }
      var data := answer.value;
      var text := ReplyBody(data);
      if data.options.Some? && |data.options.value| > 0 {
        var lines := ListOptions(data.options.value);
        text := text + "\n" + Join(lines, "\n");
        lastOptions := lastOptions[chat := data.options.value];
      } else {
        lastOptions := lastOptions - {chat};
      }
      return Some(text);
    }

    /** The option listing: a blank line, the header, then one numbered
        line per option. */
    static method ListOptions(options: seq<Choice>) returns (lines: seq<string>)
      ensures lines == ["", ChooseHeader] + OptionLines(options)
    {
      lines := ["", ChooseHeader];
      var i := 0;
      while i < |options|
        invariant 0 <= i <= |options|
        invariant lines == ["", ChooseHeader] + OptionLines(options[..i])
      {
        lines := lines + [NatToString(i + 1) + ") " + ShownTitle(options[i])];
        i := i + 1;
        assert OptionLines(options[..i]) == OptionLines(options[..i - 1]) + [OptionLine(i - 1, options[i - 1])];
      }
      assert options[..i] == options;
    }
  }
}

=== FILE: engine.dfy ===
/**
 * The webhook as the server runs it: one `Backend` holds the conversation
 * records and the message table, and its methods change them step by step
 * in the order the handler does. Each method is proved to leave exactly the
 * state that running the corresponding plan (module `Plan`) leaves, so the
 * properties proved about plans hold of the server.
 */
module Engine {
  import opened Wrappers
  import opened Strings
  import opened Json
  import opened Models
  import opened Services
  import opened FlowDef
  import opened Triggers
  import opened Plan

  // ---------------------------------------------------------------------
  // Generic facts about running plans, kept free of the plan functions so
  // that the solver never has to unfold those while reasoning about `Run`.

  lemma ApplySend(w: World, mem: WaUser, e: Effect, ctx: Ctx, provider: nat -> Response)
    requires e.Send?
    ensures Apply(w, mem, e, ctx, provider) == SendEffect(w, mem, e.msg, e.bestEffort, ctx, provider)
  {
  }

  /** A world the services left as `Deliver` says is the one the `Send` effect gives. */
  lemma SendDone(w0: World, w1: World, mem: WaUser, msg: Msg, bestEffort: bool, raised: bool,
                 ctx: Ctx, provider: nat -> Response)
    requires var d := Deliver(w0.rows, ctx.bot, Outgoing(ctx.key.waId, msg), provider(w0.calls), ctx.now);
      w1.users == w0.users && w1.rows == d.0 && w1.calls == w0.calls + 1 && raised == d.1.Raised?
    ensures Outcome(w1, mem, raised && !bestEffort) == Apply(w0, mem, Send(msg, bestEffort), ctx, provider)
  {
    ApplySend(w0, mem, Send(msg, bestEffort), ctx, provider);
    assert w1 == World(w0.users, w1.rows, w1.calls);
  }

  /** The world after the record is saved without its position is the one the `Leave` effect gives. */
  lemma LeaveDone(w0: World, w1: World, mem: WaUser, ctx: Ctx, provider: nat -> Response)
    requires w1 == w0.(users := Store(w0.users, ctx.key, row => SaveFlowNode(row, mem.(flowNode := None))))
    ensures Outcome(w1, mem.(flowNode := None), false) == Apply(w0, mem, Leave, ctx, provider)
  {
  }

  lemma RunOnly(w: World, mem: WaUser, plan: seq<Effect>, e: Effect, ctx: Ctx, provider: nat -> Response)
    requires plan == [e]
    ensures Run(w, mem, plan, ctx, provider) == Apply(w, mem, e, ctx, provider)
  {
    RunCons(w, mem, e, [], ctx, provider);
  }

  lemma RunEnterThen(w: World, mem: WaUser, plan: seq<Effect>, id: string, tail: seq<Effect>,
                     ctx: Ctx, provider: nat -> Response)
    requires plan == [Enter(id)] + tail
    ensures var o := Apply(w, mem, Enter(id), ctx, provider);
      Run(w, mem, plan, ctx, provider) == Run(o.world, o.mem, tail, ctx, provider)
  {
    RunCons(w, mem, Enter(id), tail, ctx, provider);
  }

  lemma RunThen(w: World, mem: WaUser, plan: seq<Effect>, p: seq<Effect>, q: seq<Effect>,
                ctx: Ctx, provider: nat -> Response)
    requires plan == p + q
    ensures Run(w, mem, plan, ctx, provider)
         == var o := Run(w, mem, p, ctx, provider);
            if o.crashed then o else Run(o.world, o.mem, q, ctx, provider)
  {
    RunAppend(w, mem, p, q, ctx, provider);
  }

  lemma RunHandoff(w: World, mem: WaUser, plan: seq<Effect>, minutes: int, text: string,
                   ctx: Ctx, provider: nat -> Response)
    requires plan == AdvisorPlan(ctx.now, minutes, text)
    ensures var o := Apply(w, mem, Handoff(minutes, ctx.now + HandoffMinutes(minutes)), ctx, provider);
      Run(w, mem, plan, ctx, provider)
        == Apply(o.world, o.mem, Send(ButtonsMsg(text, [MainMenuButton]), false), ctx, provider)
  {
    var h := Handoff(minutes, ctx.now + HandoffMinutes(minutes));
    var s := Send(ButtonsMsg(text, [MainMenuButton]), false);
    assert plan == [h] + [s];
    RunCons(w, mem, h, [s], ctx, provider);
    var o := Apply(w, mem, h, ctx, provider);
    RunOnly(o.world, o.mem, [s], s, ctx, provider);
  }

  /** The shape of a reply: one interactive message when there are
      buttons, else the text (if any) followed by `rest`. */
  ghost function ReplyShape(buttons: seq<ButtonSpec>, text: string, rest: seq<Effect>): seq<Effect> {
    if buttons != [] then [Send(ButtonsMsg(if text != "" then text else " ", buttons), false)]
    else TextSend(text) + rest
  }

  lemma ReplyPlanShape(flow: Flow, now: int, node: Node, fuel: nat)
    requires node.Node? && fuel >= 1
    ensures ReplyPlan(flow, now, node, fuel)
         == ReplyShape(NodeButtons(Take(node.buttons, 3)), node.text,
                       if IsAction(node) && node.next != "" then NodePlan(flow, now, node.next, fuel - 1) else [Leave])
  {
  }

  /** The database and the message table, as the webhook changes them. */
  class Backend {
    var users: Users
    const messages: MessageTable

    constructor (messages: MessageTable)
      ensures users == map[] && this.messages == messages
    {
      users := map[];
      this.messages := messages;
    }

    /** What a plan can change. */
    function Snapshot(): World
      reads this, messages
    {
      World(users, messages.rows, messages.calls)
    }

    /** One message to the user being answered, through the services:
        exactly the `Send` effect, whatever record is in memory. */
    method Emit(ctx: Ctx, msg: Msg, ghost mem: WaUser, ghost bestEffort: bool) returns (raised: bool)
      modifies messages
      ensures Outcome(Snapshot(), mem, raised && !bestEffort)
           == Apply(old(Snapshot()), mem, Send(msg, bestEffort), ctx, messages.provider)
    {
      ghost var w0 := Snapshot();
      raised := Dispatch(ctx, msg);
      SendDone(w0, Snapshot(), mem, msg, bestEffort, raised, ctx, messages.provider);
    }

    /** The service call a message goes out through. */
    method Dispatch(ctx: Ctx, msg: Msg) returns (raised: bool)
      modifies messages
      ensures messages.calls == old(messages.calls) + 1
      ensures var d := Deliver(old(messages.rows), ctx.bot, Outgoing(ctx.key.waId, msg),
                               messages.provider(old(messages.calls)), ctx.now);
        messages.rows == d.0 && raised == d.1.Raised?
    {
      var outcome;
      match msg {
        case TextMsg(text) =>
          outcome := messages.SendText(ctx.bot, ctx.key.waId, text, ctx.now);
        case ButtonsMsg(body, buttons) =>
          outcome := messages.SendInteractiveButtons(ctx.bot, ctx.key.waId, body, buttons, ctx.now);
        case ImageMsg(link) =>
          outcome := messages.SendImage(ctx.bot, ctx.key.waId, link, "", ctx.now);
        case DocumentMsg(link, filename) =>
          outcome := messages.SendDocument(ctx.bot, ctx.key.waId, link, filename, "", ctx.now);
      }
      raised := outcome.Raised?;
    }

    /** `send_flow_node(id)`: runs the node, chaining through `next` while
        `fuel` lasts; `crashed` is an exception escaping the handler. */
    method SendFlowNode(flow: Flow, ctx: Ctx, mem: WaUser, id: string, fuel: nat) returns (m: WaUser, crashed: bool)
      modifies this, messages
      ensures Outcome(Snapshot(), m, crashed)
           == Run(old(Snapshot()), mem, NodePlan(flow, ctx.now, id, fuel), ctx, messages.provider)
      decreases fuel, 5
    {
      ghost var w0 := Snapshot();
      if fuel == 0 {
        NodePlanNoFuel(flow, ctx.now, id);
        RunOnly(w0, mem, NodePlan(flow, ctx.now, id, fuel), RecursionError, ctx, messages.provider);
        return mem, true;
      }
      var found := Find(flow, id);
      if found.None? {
        crashed := Emit(ctx, TextMsg(FlowUnavailable), mem, false);
        m := mem;
        MissingNodeSendsNotice(flow, ctx.now, id, fuel, w0, mem, ctx, messages.provider);
        RunOnly(w0, mem, NodePlan(flow, ctx.now, id, fuel), Send(TextMsg(FlowUnavailable), false), ctx, messages.provider);
        return;
      }
      var node := found.value;
      m := mem.(flowNode := Some(id));
      users := Store(users, ctx.key, row => SaveEntered(row, m));
      ghost var w1 := Snapshot();
      ghost var m1 := m;
      assert Outcome(w1, m1, false) == Apply(w0, mem, Enter(id), ctx, messages.provider);
      NodePlanEnters(flow, ctx.now, id, node, fuel);
      RunEnterThen(w0, mem, NodePlan(flow, ctx.now, id, fuel), id, NodeTail(flow, ctx.now, node, fuel), ctx, messages.provider);
      m, crashed := SendNodeTail(flow, ctx, m, node, fuel);
      assert Outcome(Snapshot(), m, crashed) == Run(w1, m1, NodeTail(flow, ctx.now, node, fuel), ctx, messages.provider);
    }

    /** The rest of `send_flow_node` once the node is entered. */
    method SendNodeTail(flow: Flow, ctx: Ctx, mem: WaUser, node: Node, fuel: nat) returns (m: WaUser, crashed: bool)
      requires node.Node? && fuel >= 1
      modifies this, messages
      ensures Outcome(Snapshot(), m, crashed)
           == Run(old(Snapshot()), mem, NodeTail(flow, ctx.now, node, fuel), ctx, messages.provider)
      decreases fuel, 4
    {
      if IsAdvisor(node) {
        var body := AdvisorBody(node);
        var tmin := AdvisorTimeout(node);
        assert NodeTail(flow, ctx.now, node, fuel) == AdvisorPlan(ctx.now, tmin, body);
        m, crashed := HandOver(ctx, mem, tmin, body);
      } else if Redirects(node) {
        assert NodeTail(flow, ctx.now, node, fuel) == NodePlan(flow, ctx.now, node.next, fuel - 1);
        m, crashed := SendFlowNode(flow, ctx, mem, node.next, fuel - 1);
      } else {
        assert NodeTail(flow, ctx.now, node, fuel) == StepPlan(flow, ctx.now, node, fuel);
        m, crashed := SendStep(flow, ctx, mem, node, fuel);
      }
    }

    /** The advisor branch: ask for a human for `minutes` (at least a
        minute), save, then send `body` with the main-menu button. */
    method HandOver(ctx: Ctx, mem: WaUser, minutes: int, body: string) returns (m: WaUser, crashed: bool)
      modifies this, messages
      ensures Outcome(Snapshot(), m, crashed)
           == Run(old(Snapshot()), mem, AdvisorPlan(ctx.now, minutes, body), ctx, messages.provider)
    {
      ghost var w0 := Snapshot();
      m := mem.(humanRequested := true, humanTimeoutMin := minutes, humanExpiresAt := Some(ctx.now + HandoffMinutes(minutes)));
      users := Store(users, ctx.key, row => SaveHuman(row, m));
      ghost var w1 := Snapshot();
      assert Outcome(w1, m, false) == Apply(w0, mem, Handoff(minutes, ctx.now + HandoffMinutes(minutes)), ctx, messages.provider);
      crashed := Emit(ctx, ButtonsMsg(body, [MainMenuButton]), m, false);
      RunHandoff(w0, mem, AdvisorPlan(ctx.now, minutes, body), minutes, body, ctx, messages.provider);
    }

    /** The advisor's message: its text (or the default), each shown link,
        and the chat link when the phone has digits, one per line. */
    static method AdvisorBody(node: Node) returns (body: string)
      requires node.Node?
      ensures body == AdvisorText(node)
    {
      var raw := Strip(node.phone);
      var digits := PhoneChars(raw);
      var lines := [if node.text != "" then node.text else AdvisorDefault];
      ghost var head := lines;
      var slots := LinkSlots(node.links);
      lines := AppendLinks(lines, slots);
      ghost var tail: seq<string> := [];
      if digits != "" {
        lines := lines + ["\nChatear: " + WaMeLink(digits)];
        tail := ["\nChatear: " + WaMeLink(digits)];
      }
      assert digits == PhoneDigits(node);
      assert lines == head + PlainLinkLines(slots) + tail;
      body := Join(lines, "\n");
    }

    /** Each shown link as `Label: url`, in order. */
    static method AppendLinks(lines0: seq<string>, slots: seq<(string, LinkEntry)>) returns (lines: seq<string>)
      ensures lines == lines0 + PlainLinkLines(slots)
    {
      lines := lines0;
      var j := 0;
      while j < |slots|
        invariant 0 <= j <= |slots|
        invariant lines == lines0 + PlainLinkLines(slots[..j])
      {
        assert slots[..j + 1][..j] == slots[..j];
        var (title, entry) := slots[j];
        if entry.enabled && Strip(entry.url) != "" {
          lines := lines + [title + ": " + entry.url];
        }
        j := j + 1;
      }
      assert slots[..|slots|] == slots;
    }

    /** A message step: the assets first, then the buttons or the text. */
    method SendStep(flow: Flow, ctx: Ctx, mem: WaUser, node: Node, fuel: nat) returns (m: WaUser, crashed: bool)
      requires node.Node? && fuel >= 1
      modifies this, messages
      ensures Outcome(Snapshot(), m, crashed)
           == Run(old(Snapshot()), mem, StepPlan(flow, ctx.now, node, fuel), ctx, messages.provider)
      decreases fuel, 3
    {
      ghost var w0 := Snapshot();
      var assets := Take(node.assets, 5);
      SendAssets(ctx, mem, assets);
      AssetSendsBestEffort(assets);
      BestEffortNeverCrashes(w0, mem, AssetSends(assets), ctx, messages.provider);
      RunThen(w0, mem, StepPlan(flow, ctx.now, node, fuel), AssetSends(assets), ReplyPlan(flow, ctx.now, node, fuel),
              ctx, messages.provider);
      m, crashed := SendReply(flow, ctx, mem, node, fuel);
    }

    /** Up to five assets, each sent as an image or a document when it has a
        url; a failed send is swallowed and the next asset still goes. */
    method SendAssets(ctx: Ctx, mem: WaUser, assets: seq<Asset>)
      modifies messages
      ensures Snapshot() == Run(old(Snapshot()), mem, AssetSends(assets), ctx, messages.provider).world
    {
      ghost var w0 := Snapshot();
      var i := 0;
      while i < |assets|
        invariant 0 <= i <= |assets|
        invariant users == w0.users
        invariant Snapshot() == Run(w0, mem, AssetSends(assets[..i]), ctx, messages.provider).world
      {
        ghost var wi := Snapshot();
        var a := assets[i];
        SendAsset(ctx, mem, a);
        assert assets[..i + 1][..i] == assets[..i];
        AssetSendsBestEffort(assets[..i]);
        BestEffortNeverCrashes(w0, mem, AssetSends(assets[..i]), ctx, messages.provider);
        RunThen(w0, mem, AssetSends(assets[..i + 1]), AssetSends(assets[..i]), AssetSend(a), ctx, messages.provider);
        i := i + 1;
      }
      assert assets[..|assets|] == assets;
    }

    /** One asset: an image, or a file or document (named `archivo.pdf` when
        it has no name), without a caption; anything else is skipped. */
    method SendAsset(ctx: Ctx, mem: WaUser, a: Asset)
      modifies messages
      ensures Snapshot() == Run(old(Snapshot()), mem, AssetSend(a), ctx, messages.provider).world
    {
      ghost var w0 := Snapshot();
      var link := a.url;
      var name := if a.name != "" then a.name else DefaultFileName;
      if IsImage(a) && link != "" {
        var _ := Emit(ctx, ImageMsg(link), mem, true);
        RunOnly(w0, mem, [Send(ImageMsg(link), true)], Send(ImageMsg(link), true), ctx, messages.provider);
      } else if IsDocument(a) && link != "" {
        var _ := Emit(ctx, DocumentMsg(link, name), mem, true);
        RunOnly(w0, mem, [Send(DocumentMsg(link, name), true)], Send(DocumentMsg(link, name), true), ctx, messages.provider);
      }
    }

    /** The buttons of a node's first three: `FLOW:<next>` or the id, with
        the title or 'Opción'; those with neither are dropped. */
    static method CollectButtons(raw: seq<Button>) returns (buttons: seq<ButtonSpec>)
      ensures buttons == NodeButtons(raw)
    {
      buttons := [];
      var k := 0;
      while k < |raw|
        invariant 0 <= k <= |raw|
        invariant buttons == NodeButtons(raw[..k])
      {
        assert raw[..k + 1][..k] == raw[..k];
        var b := raw[k];
        var title := if b.title != "" then b.title else "Opci\U{F3}n";
        var target := "";
        if b.next != "" {
          target := "FLOW:" + b.next;
        } else if b.id != "" {
          target := b.id;
        }
        if target != "" {
          buttons := buttons + [ButtonSpec(target, title)];
        }
        k := k + 1;
      }
      assert raw[..|raw|] == raw;
    }

    /** After the assets: one interactive message when there are buttons;
        otherwise the text, then the `next` of an action node, or leaving
        the flow. */
    method SendReply(flow: Flow, ctx: Ctx, mem: WaUser, node: Node, fuel: nat) returns (m: WaUser, crashed: bool)
      requires node.Node? && fuel >= 1
      modifies this, messages
      ensures Outcome(Snapshot(), m, crashed)
           == Run(old(Snapshot()), mem, ReplyPlan(flow, ctx.now, node, fuel), ctx, messages.provider)
      decreases fuel, 2
    {
      var buttons := CollectButtons(Take(node.buttons, 3));
      var chain := IsAction(node) && node.next != "";
      ReplyPlanShape(flow, ctx.now, node, fuel);
      m, crashed := Answer(flow, ctx, mem, buttons, node.text, chain, node.next, fuel,
                           if chain then NodePlan(flow, ctx.now, node.next, fuel - 1) else [Leave]);
    }

    method Answer(flow: Flow, ctx: Ctx, mem: WaUser, buttons: seq<ButtonSpec>, text: string, chain: bool, next: string,
                  fuel: nat, ghost rest: seq<Effect>)
      returns (m: WaUser, crashed: bool)
      requires fuel >= 1
      requires chain ==> rest == NodePlan(flow, ctx.now, next, fuel - 1)
      requires !chain ==> rest == [Leave]
      modifies this, messages
      ensures Outcome(Snapshot(), m, crashed) == Run(old(Snapshot()), mem, ReplyShape(buttons, text, rest), ctx, messages.provider)
      decreases fuel, 1
    {
      ghost var w0 := Snapshot();
      if buttons != [] {
        var body := if text != "" then text else " ";
        crashed := Emit(ctx, ButtonsMsg(body, buttons), mem, false);
        m := mem;
        RunOnly(w0, mem, ReplyShape(buttons, text, rest), Send(ButtonsMsg(body, buttons), false), ctx, messages.provider);
        return;
      }
      crashed := Say(ctx, mem, text);
      m := mem;
      RunThen(w0, mem, ReplyShape(buttons, text, rest), TextSend(text), rest, ctx, messages.provider);
      if !crashed {
        m, crashed := Continue(flow, ctx, mem, chain, next, fuel, rest);
      }
    }

    /** The node's text, when it has one. */
    method Say(ctx: Ctx, mem: WaUser, text: string) returns (crashed: bool)
      modifies messages
      ensures Outcome(Snapshot(), mem, crashed) == Run(old(Snapshot()), mem, TextSend(text), ctx, messages.provider)
    {
      ghost var w0 := Snapshot();
      crashed := false;
      if text != "" {
        crashed := Emit(ctx, TextMsg(text), mem, false);
        RunOnly(w0, mem, TextSend(text), Send(TextMsg(text), false), ctx, messages.provider);
      } else {
        assert TextSend(text) == [];
      }
    }

    /** Chaining to `next`, or leaving the flow. */
    method Continue(flow: Flow, ctx: Ctx, mem: WaUser, chain: bool, next: string, fuel: nat, ghost rest: seq<Effect>)
      returns (m: WaUser, crashed: bool)
      requires fuel >= 1
      requires chain ==> rest == NodePlan(flow, ctx.now, next, fuel - 1)
      requires !chain ==> rest == [Leave]
      modifies this, messages
      ensures Outcome(Snapshot(), m, crashed) == Run(old(Snapshot()), mem, rest, ctx, messages.provider)
      decreases fuel, 0
    {
      if chain {
        m, crashed := SendFlowNode(flow, ctx, mem, next, fuel - 1);
      } else {
        ghost var w0 := Snapshot();
        m := mem.(flowNode := None);
        users := Store(users, ctx.key, row => SaveFlowNode(row, m));
        crashed := false;
        RunOnly(w0, mem, rest, Leave, ctx, messages.provider);
        LeaveDone(w0, Snapshot(), mem, ctx, messages.provider);
      }
    }

    // -------------------------------------------------------------------
    // The webhook's POST handler.

    /** `whatsapp_webhook` for one delivered message: logs it, loads or
        creates the sender's record, refreshes it in memory and routes the
        message. `crashed` is an exception escaping the handler (a 500). */
    method Webhook(bot: Bot, flow: Flow, msg: Inbound, now: int, fuel: nat) returns (crashed: bool)
      modifies this, messages
      ensures var o := Receive(old(Snapshot()), bot, flow, msg, now, fuel, messages.provider);
        Snapshot() == o.world && crashed == o.crashed
    {
      messages.Record(InboundLog(bot, msg, now));
      var key := UserKey(bot.id, msg.from);
      users := GetOrCreate(users, key, msg.name);
      var mem := users[key];
      if msg.name != "" && mem.name != msg.name {
        mem := mem.(name := msg.name);
      }
      mem := mem.(lastMessageAt := Some(now), lastInAt := Some(now));
      crashed := React(flow, Ctx(bot, key, now), mem, Event(msg.payloadId, msg.text), fuel);
    }

    /** What the handler does with the message once the record is loaded. */
    method React(flow: Flow, ctx: Ctx, mem: WaUser, ev: Event, fuel: nat) returns (crashed: bool)
      modifies this, messages
      ensures var o := Run(old(Snapshot()), mem, EventPlan(flow, mem, ev, ctx.now, fuel), ctx, messages.provider);
        Snapshot() == o.world && crashed == o.crashed
    {
      if ev.payloadId != "" {
        crashed := FollowPayload(flow, ctx, mem, ev, fuel);
      } else if flow.enabled && flow.nodes != [] {
        crashed := FreeText(flow, ctx, mem, ev, fuel);
      } else {
        crashed := false;
      }
    }

    /** A button or list reply: a `FLOW:` payload runs its node, the
        main-menu payload runs the start node, anything else is ignored. */
    method FollowPayload(flow: Flow, ctx: Ctx, mem: WaUser, ev: Event, fuel: nat) returns (crashed: bool)
      requires ev.payloadId != ""
      modifies this, messages
      ensures var o := Run(old(Snapshot()), mem, EventPlan(flow, mem, ev, ctx.now, fuel), ctx, messages.provider);
        Snapshot() == o.world && crashed == o.crashed
    {
      var m;
      var route := RoutePayload(ev.payloadId);
      match route {
        case GoTo(id) =>
          m, crashed := SendFlowNode(flow, ctx, mem, id, fuel);
        case MainMenu =>
          if flow.startNode != "" {
            m, crashed := SendFlowNode(flow, ctx, mem, flow.startNode, fuel);
          } else {
            crashed := false;
          }
        case Ignore =>
          crashed := false;
      }
    }

    /** Free text while the flow is live: inside a flow it asks the user to
        pick an option; otherwise the first trigger that fires, or else the
        start node, is run. */
    method FreeText(flow: Flow, ctx: Ctx, mem: WaUser, ev: Event, fuel: nat) returns (crashed: bool)
      requires ev.payloadId == "" && flow.enabled && flow.nodes != []
      modifies this, messages
      ensures var o := Run(old(Snapshot()), mem, EventPlan(flow, mem, ev, ctx.now, fuel), ctx, messages.provider);
        Snapshot() == o.world && crashed == o.crashed
    {
      ghost var w0 := Snapshot();
      var m;
      if mem.flowNode.Some? && mem.flowNode.value != "" {
        crashed := Emit(ctx, TextMsg(PickFromMenu), mem, false);
        RunOnly(w0, mem, EventPlan(flow, mem, ev, ctx.now, fuel), Send(TextMsg(PickFromMenu), false), ctx, messages.provider);
        return;
      }
      var target := MatchTrigger(flow, Normalize(ev.text));
      if target.Some? && target.value != "" {
        m, crashed := SendFlowNode(flow, ctx, mem, target.value, fuel);
      } else if flow.startNode != "" {
        m, crashed := SendFlowNode(flow, ctx, mem, flow.startNode, fuel);
      } else {
        crashed := false;
      }
    }

    // -------------------------------------------------------------------
    // The panel's human-chat switch.

    /** `api_panel_human_toggle`: switches the human chat of one of the
        signed-in owner's conversations on or off. When several of the
        owner's bots talk to the same number the source switches the oldest
        record (`.first()` orders by primary key); records carry no ids
        here, so any switchable record may be chosen, and `picked` names it. */
    method HumanToggle(owned: set<nat>, form: ToggleForm, now: int) returns (status: Status, picked: Option<UserKey>)
      modifies this
      ensures status == ToggleStatus(old(users), owned, form)
      ensures status != Ok ==> users == old(users) && picked.None?
      ensures status == Ok ==>
        && picked.Some? && form.waId.Some? && FormTimeout(form).Some?
        && Switchable(old(users), owned, form.waId.value, picked.value)
        && users == old(users)[picked.value := Switched(old(users)[picked.value], form.on == "1", FormTimeout(form).value, now)]
    {
      picked := None;
      if !form.isPost {
        return NotAllowed, picked;
      }
      var on := form.on == "1";
      var timeout := FormTimeout(form);
      if timeout.None? {
        return ServerError, picked;
      }
      if form.waId.None? || !HasSwitchable(users, owned, form.waId.value) {
        return NotFound, picked;
      }
      var k :| k in users && Switchable(users, owned, form.waId.value, k);
      Switch(k, on, timeout.value, now);
      return Ok, Some(k);
    }

    /** The found record switched and saved. */
    method Switch(k: UserKey, on: bool, timeout: int, now: int)
      requires k in users
      modifies this
      ensures users == old(users)[k := Switched(old(users)[k], on, timeout, now)]
    {
      var u := users[k];
      if on {
        u := u.(humanRequested := true, humanTimeoutMin := HandoffMinutes(timeout));
        u := u.(humanExpiresAt := Some(now + u.humanTimeoutMin));
      } else {
        u := u.(humanRequested := false, humanExpiresAt := None);
      }
      users := users[k := SaveHuman(users[k], u)];
    }
  }

  // ---------------------------------------------------------------------
  // The webhook's POST handler, as a function of the state it starts in.

  /** The parts of a delivery the handler reads: the first message's sender,
      type and profile name, the metadata's `phone_number_id` ("" when
      absent), the whole decoded body, and the reply id (`""` when none) and
      text the message carries. */
  datatype Inbound = Inbound(
    from: string,
    name: string,
    messageType: string,
    phoneNumberId: string,
    body: Json,
    payloadId: string,
    text: string)

  /** The row an inbound message is logged as, before anything else happens. */
  function InboundLog(bot: Bot, msg: Inbound, now: int): (row: MessageLog)
    ensures row.bot == bot.id && row.direction == In && row.status == "received"
    ensures row.waFrom == msg.from && row.messageType == msg.messageType && row.payload == msg.body
    ensures row.waTo == (if msg.phoneNumberId != "" then msg.phoneNumberId else bot.phoneNumberId)
    ensures row.error == "" && row.createdAt == now
  {
    MessageLog(bot.id, In, msg.from, if msg.phoneNumberId != "" then msg.phoneNumberId else bot.phoneNumberId,
               msg.messageType, msg.body, "received", "", now)
  }

  /** The record in memory once the message is in: the profile name when one
      came, both timestamps at `now`, and nothing else changed. */
  function Refreshed(u: WaUser, name: string, now: int): (r: WaUser)
    ensures r.name == (if name != "" then name else u.name)
    ensures r.lastMessageAt == Some(now) && r.lastInAt == Some(now)
    ensures r.(name := u.name, lastMessageAt := u.lastMessageAt, lastInAt := u.lastInAt) == u
  {
    var v := if name != "" && u.name != name then u.(name := name) else u;
    v.(lastMessageAt := Some(now), lastInAt := Some(now))
  }

  /** Everything the handler does with one message. */
  function Receive(w: World, bot: Bot, flow: Flow, msg: Inbound, now: int, fuel: nat,
                   provider: nat -> Response): Outcome
  {
    var key := UserKey(bot.id, msg.from);
    var users := GetOrCreate(w.users, key, msg.name);
    var mem := Refreshed(users[key], msg.name, now);
    Run(World(users, w.rows + [InboundLog(bot, msg, now)], w.calls), mem,
        EventPlan(flow, mem, Event(msg.payloadId, msg.text), now, fuel), Ctx(bot, key, now), provider)
  }

  /** The inbound row is written first and stays; afterwards the log only
      grows, by at most one row per request; the sender has a record, and
      no other conversation's record changes. */
  lemma ReceiveLogsAndKeepsOthers(w: World, bot: Bot, flow: Flow, msg: Inbound, now: int, fuel: nat,
                                  provider: nat -> Response)
    ensures var o := Receive(w, bot, flow, msg, now, fuel, provider);
      && w.rows + [InboundLog(bot, msg, now)] <= o.world.rows
      && |o.world.rows| - |w.rows| - 1 <= o.world.calls - w.calls
      && o.world.users.Keys == w.users.Keys + {UserKey(bot.id, msg.from)}
      && forall k :: k in w.users && k != UserKey(bot.id, msg.from) ==> o.world.users[k] == w.users[k]
  {
    var key := UserKey(bot.id, msg.from);
    var users := GetOrCreate(w.users, key, msg.name);
    var mem := Refreshed(users[key], msg.name, now);
    var w1 := World(users, w.rows + [InboundLog(bot, msg, now)], w.calls);
    var plan := EventPlan(flow, mem, Event(msg.payloadId, msg.text), now, fuel);
    var ctx := Ctx(bot, key, now);
    RunLogGrows(w1, mem, plan, ctx, provider);
    forall k | k in w.users && k != key
      ensures Run(w1, mem, plan, ctx, provider).world.users[k] == w.users[k]
    {
      RunKeepsOtherRecords(w1, mem, plan, ctx, provider, k);
    }
  }

  /** Free text in the middle of a flow changes no stored record: the
      refreshed name and timestamps are not saved, and a first-time sender
      keeps the defaults it was created with. Only the inbound row and the
      "pick an option" send reach the log. */
  lemma MidFlowTextSavesNothing(w: World, bot: Bot, flow: Flow, msg: Inbound, now: int, fuel: nat,
                                provider: nat -> Response)
    requires msg.payloadId == "" && flow.enabled && flow.nodes != []
    requires UserKey(bot.id, msg.from) in w.users && InFlow(w.users[UserKey(bot.id, msg.from)])
    ensures var o := Receive(w, bot, flow, msg, now, fuel, provider);
      o.world.users == w.users && o.world.calls == w.calls + 1
  {
    var key := UserKey(bot.id, msg.from);
    var users := GetOrCreate(w.users, key, msg.name);
    var mem := Refreshed(users[key], msg.name, now);
    var w1 := World(users, w.rows + [InboundLog(bot, msg, now)], w.calls);
    MidFlowTextAsksToPick(flow, mem, Event(msg.payloadId, msg.text), now, fuel, w1, Ctx(bot, key, now), provider);
  }

  /** A reply whose payload leads nowhere sends nothing and saves nothing
      but the record `get_or_create` made. */
  lemma IgnoredPayloadOnlyLogs(w: World, bot: Bot, flow: Flow, msg: Inbound, now: int, fuel: nat,
                               provider: nat -> Response)
    requires msg.payloadId != "" && RoutePayload(msg.payloadId).Ignore?
    ensures var o := Receive(w, bot, flow, msg, now, fuel, provider);
      && o.world.users == GetOrCreate(w.users, UserKey(bot.id, msg.from), msg.name)
      && o.world.rows == w.rows + [InboundLog(bot, msg, now)]
      && o.world.calls == w.calls && !o.crashed
  {
  }

  // ---------------------------------------------------------------------
  // The panel's human-chat switch.

  /** The switch's form: whether it came as a POST, `wa_id` (`None` when
      missing), and `on` and `timeout_min` ("" when missing). */
  datatype ToggleForm = ToggleForm(isPost: bool, waId: Option<string>, on: string, timeoutMin: string)

  /** The switch's answers: 200, 404, 405, and the 500 of an exception. */
  datatype Status = Ok | NotFound | NotAllowed | ServerError

  /** `int(timeout_min or '15')`, or `None` where that raises. */
  function FormTimeout(form: ToggleForm): (t: Option<int>)
    ensures form.timeoutMin == "" ==> t == Some(15)
  {
    if form.timeoutMin != "" then PyInt(form.timeoutMin)
    else
      PyIntOfNumber(15);
      PyInt(NatToString(15))
  }

  /** A record the owner of the bots `owned` may switch for `waId`. */
  predicate Switchable(users: Users, owned: set<nat>, waId: string, k: UserKey) {
    k in users && k.bot in owned && k.waId == waId
  }

  /** Some record may be switched. */
  predicate HasSwitchable(users: Users, owned: set<nat>, waId: string) {
    exists k :: k in users && Switchable(users, owned, waId, k)
  }

  /** The switch applied to one record, with the saved fields written out:
      on asks for a human for at least a minute from now, off clears the
      request and its expiry but keeps the timeout; nothing else changes. */
  function Switched(u: WaUser, on: bool, t: int, now: int): (r: WaUser)
    ensures r.humanRequested == on
    ensures on ==> r.humanTimeoutMin == (if t >= 1 then t else 1) && r.humanExpiresAt == Some(now + r.humanTimeoutMin)
    ensures !on ==> r.humanTimeoutMin == u.humanTimeoutMin && r.humanExpiresAt.None?
    ensures r.(humanRequested := u.humanRequested, humanTimeoutMin := u.humanTimeoutMin, humanExpiresAt := u.humanExpiresAt) == u
  {
    if on then
      var m := HandoffMinutes(t);
      u.(humanRequested := true, humanTimeoutMin := m, humanExpiresAt := Some(now + m))
    else u.(humanRequested := false, humanExpiresAt := None)
  }

  /** The answer the switch gives, checked in the handler's order. */
  function ToggleStatus(users: Users, owned: set<nat>, form: ToggleForm): (s: Status)
    ensures s == Ok <==> (form.isPost && FormTimeout(form).Some? && form.waId.Some?
                          && exists k :: Switchable(users, owned, form.waId.value, k))
    ensures s == NotAllowed <==> !form.isPost
    ensures s == ServerError <==> form.isPost && FormTimeout(form).None?
    ensures s == NotFound <==> (form.isPost && FormTimeout(form).Some?
                                && (form.waId.None? || !HasSwitchable(users, owned, form.waId.value)))
  {
    if !form.isPost then NotAllowed
    else if FormTimeout(form).None? then ServerError
    else if form.waId.None? || !HasSwitchable(users, owned, form.waId.value) then NotFound
    else Ok
  }

  /** Switching twice the same way is switching once. */
  lemma SwitchIdempotent(u: WaUser, on: bool, t: int, now: int)
    ensures Switched(Switched(u, on, t, now), on, t, now) == Switched(u, on, t, now)
  {
  }

  /** Switching off and on again gives what switching on gives. */
  lemma SwitchOffThenOn(u: WaUser, t: int, now: int, later: int)
    ensures Switched(Switched(u, false, t, now), true, t, later) == Switched(u, true, t, later)
  {
  }
}

=== FILE: flowdef.dfy ===
/**
 * A conversation flow as the builder stores it: a start node and a map of
 * nodes, each a message step, a redirect, a keyword or deep-link trigger, or
 * a hand-off to a human advisor. Missing or empty JSON fields are written
 * here as "" (or `Absent`), which is what `node.get(key) or ''` turns them
 * into; the helpers below are the readings both the webhook and the preview
 * make of a node.
 */
module FlowDef {
  import opened Wrappers
  import opened Strings

  /** An attached file: `{'type', 'url', 'name'}`. */
  datatype Asset = Asset(kind: string, url: string, name: string)

  /** A button: `{'title', 'next', 'id'}`. */
  datatype Button = Button(title: string, next: string, id: string)

  /** One social link of an advisor node: `{'enabled', 'url'}`. A missing
      entry is `LinkEntry(false, "")`. */
  datatype LinkEntry = LinkEntry(enabled: bool, url: string)

  /** The advisor's links under `web`, `fb`, `ig` and `tiktok`. */
  datatype Links = Links(web: LinkEntry, fb: LinkEntry, ig: LinkEntry, tiktok: LinkEntry)

  /** A JSON value read with `int(...)`: missing/null, a number or a string. */
  datatype Scalar = Absent | Num(n: int) | Text(s: string) {
    /** Python truthiness. */
    predicate Truthy() {
      match this
      case Absent => false
      case Num(n) => n != 0
      case Text(s) => s != ""
    }

    /** `int(value)`, or `None` where Python raises. */
    function ToInt(): (r: Option<int>)
      ensures this.Num? ==> r == Some(this.n)
      ensures this.Absent? ==> r.None?
    {
      match this
      case Absent => None
      case Num(n) => Some(n)
      case Text(s) => PyInt(s)
    }
  }

  /** A node. `Blank` is the empty dictionary `{}`, which Python treats as
      false and therefore as a missing node. `enabled` is `None` when the key
      is absent. */
  datatype Node =
    | Blank
    | Node(
        kind: string,
        text: string,
        next: string,
        enabled: Option<bool>,
        triggerType: string,
        patterns: string,
        assets: seq<Asset>,
        buttons: seq<Button>,
        phone: string,
        links: Links,
        timeoutMin: Scalar,
        humanTimeoutMin: Scalar)

  /** A flow definition. `nodes` lists the node map in insertion order, which
      is the order Python iterates it in. A decoded JSON object holds each
      key once (`DistinctIds`); the sequence itself could repeat an id, and
      the lookups below then read the first entry, which `FindAt` shows is
      the only one whenever the ids are distinct. */
  datatype Flow = Flow(enabled: bool, startNode: string, nodes: seq<(string, Node)>)

  /** `nodes.get(node_id)`, with an empty node counting as missing. */
  function Find(flow: Flow, id: string): (r: Option<Node>)
    ensures r.Some? ==> r.value.Node?
  {
    FindIn(flow.nodes, id)
  }

  function FindIn(nodes: seq<(string, Node)>, id: string): (r: Option<Node>)
    ensures r.Some? ==> r.value.Node?
    decreases |nodes|
  {
    if nodes == [] then None
    else if nodes[0].0 == id then (if nodes[0].1.Node? then Some(nodes[0].1) else None)
    else FindIn(nodes[1..], id)
  }

  /** The entry at `k` is the first one stored under `id`. */
  predicate FirstKeyAt(nodes: seq<(string, Node)>, id: string, k: int) {
    0 <= k < |nodes| && nodes[k].0 == id && forall j :: 0 <= j < k ==> nodes[j].0 != id
  }

  /** Looking a node up finds the first entry stored under the id, unless
      that entry is empty; an id stored nowhere finds nothing. */
  lemma {:induction false} FindFirst(nodes: seq<(string, Node)>, id: string, k: int)
    requires FirstKeyAt(nodes, id, k)
    ensures FindIn(nodes, id) == if nodes[k].1.Node? then Some(nodes[k].1) else None
    decreases |nodes|
  {
    if k > 0 {
      assert nodes[0].0 != id;
      assert FirstKeyAt(nodes[1..], id, k - 1) by {
        forall j | 0 <= j < k - 1
          ensures nodes[1..][j].0 != id
        {
          assert nodes[1..][j] == nodes[j + 1];
        }
      }
      FindFirst(nodes[1..], id, k - 1);
    }
  }

  /** No id is stored twice, as in the dictionary the flow is decoded into. */
  predicate DistinctIds(nodes: seq<(string, Node)>) {
    forall i, j :: 0 <= i < j < |nodes| ==> nodes[i].0 != nodes[j].0
  }

  /** With distinct ids, looking up the id of any entry finds that entry
      (or nothing, when it is empty). */
  lemma FindAt(nodes: seq<(string, Node)>, k: int)
    requires DistinctIds(nodes) && 0 <= k < |nodes|
    ensures FindIn(nodes, nodes[k].0) == if nodes[k].1.Node? then Some(nodes[k].1) else None
  {
    FindFirst(nodes, nodes[k].0, k);
  }

  lemma {:induction false} FindAbsent(nodes: seq<(string, Node)>, id: string)
    requires forall j :: 0 <= j < |nodes| ==> nodes[j].0 != id
    ensures FindIn(nodes, id).None?
    decreases |nodes|
  {
    if nodes != [] {
      assert forall j :: 0 <= j < |nodes| - 1 ==> nodes[1..][j] == nodes[j + 1];
      FindAbsent(nodes[1..], id);
    }
  }

  /** `(node.get('type') or 'action').lower()`. */
  function NodeType(node: Node): (t: string)
    requires node.Node?
    ensures node.kind == "" ==> t == "action"
  {
    Lower(if node.kind != "" then node.kind else "action")
  }

  /** A hand-off to a human advisor. */
  predicate IsAdvisor(node: Node)
    requires node.Node?
  {
    NodeType(node) == "advisor"
  }

  /** A plain message step (also what a node without a type is). */
  predicate IsAction(node: Node)
    requires node.Node?
  {
    NodeType(node) == "action"
  }

  /** A node that only forwards to its `next`: a start or trigger node with one. */
  predicate Redirects(node: Node)
    requires node.Node?
  {
    (NodeType(node) == "start" || NodeType(node) == "trigger") && node.next != ""
  }

  /** A button's title, or 'Opción' when it has none. */
  function ButtonTitle(b: Button): (t: string)
    ensures t != ""
    ensures b.title != "" ==> t == b.title
    ensures b.title == "" ==> t == "Opci\U{F3}n"
  {
    if b.title != "" then b.title else "Opci\U{F3}n"
  }

  /** Where a button leads: `FLOW:<next>` when it has a `next`, else its own
      `id`, else nowhere (""). */
  function ButtonTarget(b: Button): (t: string)
    ensures b.next != "" ==> t == "FLOW:" + b.next
    ensures b.next == "" ==> t == b.id
  {
    if b.next != "" then "FLOW:" + b.next else b.id
  }

  /** `(asset.get('type') or '').lower()`. */
  function AssetType(a: Asset): string {
    Lower(a.kind)
  }

  /** An asset shown or sent as an image. */
  predicate IsImage(a: Asset) {
    AssetType(a) == "image"
  }

  /** An asset the webhook sends as a document. */
  predicate IsDocument(a: Asset) {
    AssetType(a) == "file" || AssetType(a) == "document"
  }

  /** The label and entry of each advisor link, in the order they are listed. */
  function LinkSlots(links: Links): (r: seq<(string, LinkEntry)>)
    ensures |r| == 4
  {
    [("Web", links.web), ("Facebook", links.fb), ("Instagram", links.ig), ("TikTok", links.tiktok)]
  }

  /** An advisor link is shown when it is enabled and its url is not blank. */
  predicate LinkShown(e: LinkEntry) {
    e.enabled && Strip(e.url) != ""
  }

  /** The digits (and plus signs) of the advisor's stripped phone number. */
  function PhoneDigits(node: Node): (r: string)
    requires node.Node?
    ensures forall k :: 0 <= k < |r| ==> IsDigit(r[k]) || r[k] == '+'
    ensures forall c :: IsDigit(c) || c == '+' ==> multiset(r)[c] == multiset(Strip(node.phone))[c]
  {
    PhoneChars(Strip(node.phone))
  }

  /** `https://wa.me/` followed by the phone digits without leading plus
      signs: what follows the prefix is a suffix of the digits that does not
      start with '+', and everything dropped before it is '+'. */
  function WaMeLink(digits: string): (r: string)
    ensures "https://wa.me/" <= r
    ensures |r| >= 14 && var n := r[14..];
      && (n == [] || n[0] != '+')
      && |n| <= |digits| && n == digits[|digits| - |n|..]
      && forall k :: 0 <= k < |digits| - |n| ==> digits[k] == '+'
  {
    "https://wa.me/" + LStripChar(digits, '+')
  }

  /** How long a hand-off lasts: `int(timeout_min or human_timeout_min or 15)`,
      or 15 when that raises. */
  function AdvisorTimeout(node: Node): (t: int)
    requires node.Node?
    ensures node.timeoutMin.Num? && node.timeoutMin.n != 0 ==> t == node.timeoutMin.n
    ensures node.timeoutMin.Truthy() ==> t == node.timeoutMin.ToInt().GetOr(15)
    ensures !node.timeoutMin.Truthy() && node.humanTimeoutMin.Truthy() ==> t == node.humanTimeoutMin.ToInt().GetOr(15)
    ensures !node.timeoutMin.Truthy() && !node.humanTimeoutMin.Truthy() ==> t == 15
  {
    var v := if node.timeoutMin.Truthy() then node.timeoutMin
             else if node.humanTimeoutMin.Truthy() then node.humanTimeoutMin
             else Num(15);
    match v.ToInt()
    case Some(n) => n
    case None => 15
  }

  /** The title of the button or option that leads back to the main menu. */
  const MainMenuTitle: string := "\U{1F519} Men\U{FA} principal"

  /** The message the advisor node shows when it has no text of its own. */
  const AdvisorDefault: string := "Te estamos transfiriendo con una asesora humana. Un momento por favor."

  /** `(text or '').strip().lower()`: free text as triggers compare it. */
  function Normalize(text: string): (r: string)
    ensures |r| <= |text|
  {
    Lower(Strip(text))
  }

  /** What a button or menu payload asks for. */
  datatype Route = GoTo(node: string) | MainMenu | Ignore

  /** `s.split(':', 1)[1]` for a string holding a colon: what follows the first colon. */
  function AfterColon(s: string): (r: string)
    ensures |r| <= |s|
    decreases |s|
  {
    if s == [] then ""
    else if s[0] == ':' then s[1..]
    else AfterColon(s[1..])
  }

  /** How a payload is routed: `FLOW:<id>` (the prefix in any case) goes to
      the node after the first colon; `MENU_PRINCIPAL` (in any case) is the
      main menu; anything else is ignored. */
  function RoutePayload(payload: string): (r: Route)
    ensures r.GoTo? <==> "FLOW:" <= Upper(Strip(payload))
    ensures r.MainMenu? <==> Upper(Strip(payload)) == "MENU_PRINCIPAL"
  {
    var pid := Strip(payload);
    if "FLOW:" <= Upper(pid) then
      assert Upper(pid)[0] == 'F' != "MENU_PRINCIPAL"[0];
      GoTo(AfterColon(pid))
    else if Upper(pid) == "MENU_PRINCIPAL" then MainMenu
    else Ignore
  }

  /** The node a `FLOW:` payload names is exactly what follows the five
      characters of the prefix, whatever their case. */
  lemma RouteTakesSuffix(payload: string)
    requires "FLOW:" <= Upper(Strip(payload))
    ensures RoutePayload(payload) == GoTo(Strip(payload)[5..])
  {
    var pid := Strip(payload);
    assert Upper(pid)[4] == ':' && UpperChar(pid[4]) == ':';
    assert pid[4] == ':';
    assert forall k :: 0 <= k < 4 ==> UpperChar(pid[k]) == "FLOW:"[k];
    assert pid[0] != ':' && pid[1] != ':' && pid[2] != ':' && pid[3] != ':';
    assert pid[1..][1..][1..][1..] == pid[4..];
    assert AfterColon(pid) == AfterColon(pid[1..]) == AfterColon(pid[1..][1..]) == AfterColon(pid[1..][1..][1..]);
    assert AfterColon(pid[4..]) == pid[5..];
  }
}

=== FILE: json.dfy ===
/**
 * JSON documents as the Python side builds them: dictionaries keep their
 * insertion order, so an object is a sequence of (key, value) pairs.
 */
module Json {
  import opened Wrappers

  datatype Json =
    | JNull
    | JBool(b: bool)
    | JInt(i: int)
    | JStr(s: string)
    | JArr(items: seq<Json>)
    | JObj(fields: seq<(string, Json)>)

  /** `dict.get(key)` on a list of fields: the value stored under `key`, if any. */
  function Lookup(fields: seq<(string, Json)>, key: string): (r: Option<Json>)
    ensures r.Some? <==> exists k :: 0 <= k < |fields| && fields[k].0 == key
    ensures r.Some? ==> exists k :: 0 <= k < |fields| && fields[k] == (key, r.value)
  {
    if fields == [] then None
    else if fields[0].0 == key then Some(fields[0].1)
    else
      var r := Lookup(fields[1..], key);
      assert forall k :: 0 < k < |fields| ==> fields[k] == fields[1..][k - 1];
      r
  }

  /** The first field stored under `key` is the one `Lookup` finds. */
  lemma {:induction false} LookupAt(fields: seq<(string, Json)>, key: string, k: nat)
    requires k < |fields| && fields[k].0 == key
    requires forall i :: 0 <= i < k ==> fields[i].0 != key
    ensures Lookup(fields, key) == Some(fields[k].1)
    decreases k
  {
    if k > 0 {
      assert fields[0].0 != key;
      assert fields[1..][k - 1] == fields[k];
      LookupAt(fields[1..], key, k - 1);
    }
  }

  /** `value.get(key)` when `value` is a dictionary, otherwise nothing. */
  function Get(j: Json, key: string): Option<Json> {
    if j.JObj? then Lookup(j.fields, key) else None
  }

  /** Whether `key in value` for a dictionary `value`. */
  predicate Has(j: Json, key: string) {
    Get(j, key).Some?
  }

  /** Follows a path of keys through nested dictionaries. */
  function At(j: Json, path: seq<string>): Option<Json>
    decreases |path|
  {
    if path == [] then Some(j)
    else match Get(j, path[0])
      case None => None
      case Some(v) => At(v, path[1..])
  }

  /** Reading a value one dictionary deep. */
  lemma AtOne(j: Json, a: string, v: Json)
    requires Get(j, a) == Some(v)
    ensures At(j, [a]) == Some(v)
  {
    assert [a][1..] == [];
  }

  /** Reading a value two dictionaries deep. */
  lemma AtTwo(j: Json, a: string, b: string, x: Json, v: Json)
    requires Get(j, a) == Some(x) && Get(x, b) == Some(v)
    ensures At(j, [a, b]) == Some(v)
  {
    assert [a, b][1..] == [b];
    assert [b][1..] == [];
    assert At(x, [b]) == At(v, []);
    assert At(j, [a, b]) == At(x, [b]);
  }

  /** Reading a value three dictionaries deep. */
  lemma AtThree(j: Json, a: string, b: string, c: string, x: Json, y: Json, v: Json)
    requires Get(j, a) == Some(x) && Get(x, b) == Some(y) && Get(y, c) == Some(v)
    ensures At(j, [a, b, c]) == Some(v)
  {
    assert [a, b, c][1..] == [b, c];
    AtTwo(x, b, c, y, v);
  }
}

=== FILE: models.dfy ===
/**
 * The stored records: bots, the message log, the per-user conversation state
 * and the AI provider keys, with their defaults, uniqueness and orderings.
 * Timestamps are whole minutes.
 */
module Models {
  import opened Wrappers
  import opened Json

  /** A bot: the WhatsApp Cloud API phone number it sends from. */
  datatype Bot = Bot(id: nat, phoneNumberId: string, accessToken: string)

  /** `MessageLog.direction`, stored as 'in' or 'out'. */
  datatype Direction = In | Out {
    function Code(): (c: string)
      ensures c == "in" || c == "out"
      ensures |c| <= 3
      ensures (c == "in") == In?
    {
      if In? then "in" else "out"
    }
  }

  /** One row of the message log. `payload` is the JSON document kept with it. */
  datatype MessageLog = MessageLog(
    bot: nat,
    direction: Direction,
    waFrom: string,
    waTo: string,
    messageType: string,
    payload: Json,
    status: string,
    error: string,
    createdAt: int)

  /** The log's rows in the order they were written are chronological. */
  predicate Chronological(rows: seq<MessageLog>) {
    forall i, j :: 0 <= i < j < |rows| ==> rows[i].createdAt <= rows[j].createdAt
  }

  /** The default listing order: newest first. */
  predicate NewestFirst(listing: seq<MessageLog>) {
    forall i, j :: 0 <= i < j < |listing| ==> listing[i].createdAt >= listing[j].createdAt
  }

  /** The rows as the default ordering lists them: the last written first. */
  function Listing(rows: seq<MessageLog>): (listing: seq<MessageLog>)
    ensures |listing| == |rows|
    ensures forall k :: 0 <= k < |rows| ==> listing[k] == rows[|rows| - 1 - k]
  {
    seq(|rows|, k requires 0 <= k < |rows| => rows[|rows| - 1 - k])
  }

  /** Listing a chronological log newest first really is newest first, and
      writing a row stamped no earlier than the rest keeps the log chronological. */
  lemma ListingIsNewestFirst(rows: seq<MessageLog>, row: MessageLog)
    requires Chronological(rows)
    ensures NewestFirst(Listing(rows))
    ensures (forall k :: 0 <= k < |rows| ==> rows[k].createdAt <= row.createdAt) ==> Chronological(rows + [row])
  {
    var listing := Listing(rows);
    forall i, j | 0 <= i < j < |listing|
      ensures listing[i].createdAt >= listing[j].createdAt
    {
      assert listing[i] == rows[|rows| - 1 - i] && listing[j] == rows[|rows| - 1 - j];
    }
  }

  /** The (bot, wa_id) pair a conversation is stored under. */
  datatype UserKey = UserKey(bot: nat, waId: string)

  /** Per-user state for flow execution and human handoff. */
  datatype WaUser = WaUser(
    name: string,
    humanRequested: bool,
    humanTimeoutMin: int,
    humanExpiresAt: Option<int>,
    lastMessageAt: Option<int>,
    lastInAt: Option<int>,
    flowNode: Option<string>)

  /** All conversation records. A map: at most one record per (bot, wa_id). */
  type Users = map<UserKey, WaUser>

  /** A record as first created, with the model's defaults. */
  function NewWaUser(name: string): (u: WaUser)
    ensures u.name == name
    ensures !u.humanRequested && u.humanTimeoutMin == 15
    ensures u.humanExpiresAt.None? && u.flowNode.None?
    ensures u.lastMessageAt.None? && u.lastInAt.None?
  {
    WaUser(name, false, 15, None, None, None, None)
  }

  /** `get_or_create(bot, wa_id, defaults={'name': name})`: the existing record
      is left alone, a missing one is created with the defaults. */
  function GetOrCreate(users: Users, key: UserKey, name: string): (r: Users)
    ensures r.Keys == users.Keys + {key}
    ensures forall k :: k in users ==> r[k] == users[k]
    ensures key !in users ==> r[key] == NewWaUser(name)
  {
    if key in users then users else users[key := NewWaUser(name)]
  }

  /** Creating a record twice is creating it once. */
  lemma GetOrCreateIdempotent(users: Users, key: UserKey, name: string, name2: string)
    ensures GetOrCreate(GetOrCreate(users, key, name), key, name2) == GetOrCreate(users, key, name)
  {
  }

  /** An AI provider key, used for failover and rotation. */
  datatype AIKey = AIKey(
    provider: string,
    name: string,
    apiKey: string,
    isActive: bool,
    priority: int,
    lastUsedAt: Option<int>,
    failureCount: int)

  /** A key as first stored: active, priority 100, no failures, never used. */
  function NewAIKey(name: string, apiKey: string): (k: AIKey)
    ensures k.provider == "openrouter" && k.name == name && k.apiKey == apiKey
    ensures k.isActive && k.priority == 100 && k.failureCount == 0 && k.lastUsedAt.None?
  {
    AIKey("openrouter", name, apiKey, true, 100, None, 0)
  }

  /** Where the database puts keys that were never used when it sorts
      `last_used_at` ascending: this differs between database back ends. */
  datatype NullPlacement = NullsFirst | NullsLast

  /** `a` may be listed before `b` by `last_used_at` ascending. */
  predicate UsedNoLater(a: Option<int>, b: Option<int>, nulls: NullPlacement) {
    match (a, b)
    case (Some(x), Some(y)) => x <= y
    case (None, Some(_)) => nulls == NullsFirst
    case (Some(_), None) => nulls == NullsLast
    case (None, None) => true
  }

  /** `a` may be listed before `b` in the default order: priority ascending
      (a lower number is a higher priority), then active keys before inactive
      ones, then least recently used first. */
  predicate ListedNoLater(a: AIKey, b: AIKey, nulls: NullPlacement) {
    || a.priority < b.priority
    || (a.priority == b.priority && a.isActive && !b.isActive)
    || (a.priority == b.priority && a.isActive == b.isActive && UsedNoLater(a.lastUsedAt, b.lastUsedAt, nulls))
  }

  /** A listing of keys in the default order. */
  predicate DefaultOrdered(keys: seq<AIKey>, nulls: NullPlacement) {
    forall i, j :: 0 <= i < j < |keys| ==> ListedNoLater(keys[i], keys[j], nulls)
  }

  /** The default order is a total preorder. */
  lemma ListedNoLaterIsTotalPreorder(a: AIKey, b: AIKey, c: AIKey, nulls: NullPlacement)
    ensures ListedNoLater(a, a, nulls)
    ensures ListedNoLater(a, b, nulls) || ListedNoLater(b, a, nulls)
    ensures ListedNoLater(a, b, nulls) && ListedNoLater(b, c, nulls) ==> ListedNoLater(a, c, nulls)
  {
  }

  /** A listing whose neighbours are in order is in order throughout; its first
      key then has the highest priority, and an active one if any of that
      priority is active. */
  lemma {:induction false} NeighboursOrderedIsOrdered(keys: seq<AIKey>, nulls: NullPlacement)
    requires forall i :: 0 <= i < |keys| - 1 ==> ListedNoLater(keys[i], keys[i + 1], nulls)
    ensures DefaultOrdered(keys, nulls)
    ensures keys != [] ==> forall j :: 0 <= j < |keys| ==> keys[0].priority <= keys[j].priority
    ensures keys != [] ==> forall j :: 0 <= j < |keys| && keys[j].priority == keys[0].priority && keys[j].isActive ==> keys[0].isActive
    decreases |keys|
  {
    if |keys| > 1 {
      NeighboursOrderedIsOrdered(keys[1..], nulls);
      forall j | 1 <= j < |keys|
        ensures ListedNoLater(keys[0], keys[j], nulls)
      {
        assert keys[1..][j - 1] == keys[j];
        if j > 1 {
          assert keys[1..][0] == keys[1];
          ListedNoLaterIsTotalPreorder(keys[0], keys[1], keys[j], nulls);
        }
      }
      forall i, j | 0 <= i < j < |keys|
        ensures ListedNoLater(keys[i], keys[j], nulls)
      {
        if i > 0 {
          assert keys[1..][i - 1] == keys[i] && keys[1..][j - 1] == keys[j];
        }
      }
    }
  }
}

=== FILE: plan.dfy ===
/**
 * What the webhook does for one incoming message, as a list of effects:
 * entering a node (which stores the conversation record), handing the
 * conversation to a human, leaving the flow, and sending a message. `Run`
 * carries a list of effects out against the stored records, the message log
 * and the provider's answers. The imperative webhook is proved to do exactly
 * what `Run` of the plan does; the properties of the flow engine are stated
 * here, about the plans, whatever the provider answers.
 */
module Plan {
  import opened Wrappers
  import opened Strings
  import opened Models
  import opened Services
  import opened FlowDef
  import opened Triggers
  import opened Preview

  const FlowUnavailable: string := "\U{26A0}\U{FE0F} Flujo no disponible en este paso."
  const PickFromMenu: string := "Por favor, elige una opci\U{F3}n del men\U{FA}."
  const DefaultFileName: string := "archivo.pdf"

  /** The single button an advisor message carries. */
  const MainMenuButton: ButtonSpec := ButtonSpec("MENU_PRINCIPAL", MainMenuTitle)

  /** A message the webhook sends to the user it is answering. */
  datatype Msg =
    | TextMsg(text: string)
    | ButtonsMsg(body: string, buttons: seq<ButtonSpec>)
    | ImageMsg(link: string)
    | DocumentMsg(link: string, filename: string)

  /** The request a message becomes: images and documents go without a caption. */
  function Outgoing(to: string, msg: Msg): (m: Outbound)
    ensures m.to == to
  {
    match msg
    case TextMsg(text) => TextMessage(to, text)
    case ButtonsMsg(body, buttons) => ButtonsMessage(to, body, buttons)
    case ImageMsg(link) => ImageMessage(to, link, "")
    case DocumentMsg(link, filename) => DocumentMessage(to, ByLink(link), filename, "")
  }

  /** One step of the webhook's work. */
  datatype Effect =
    | Enter(node: string)                          // flow_node := node, saved with name and timestamps
    | Handoff(minutes: int, expiresAt: int)        // human_* fields set and saved
    | Leave                                        // flow_node := None, saved
    | Send(msg: Msg, bestEffort: bool)             // a send; a best-effort one swallows its exception
    | RecursionError                               // the recursion error of a chain that is too long

  /** Who the webhook is talking to, and the minute it received the message. */
  datatype Ctx = Ctx(bot: Bot, key: UserKey, now: int)

  /** What the webhook can change: the conversation records, the message log
      and the number of requests made to the provider so far. */
  datatype World = World(users: Users, rows: seq<MessageLog>, calls: nat)

  /** Where a run ends: the world, the in-memory record, and whether an
      exception escaped. */
  datatype Outcome = Outcome(world: World, mem: WaUser, crashed: bool)

  /** `save(update_fields=['name', 'last_message_at', 'last_in_at', 'flow_node'])` */
  function SaveEntered(row: WaUser, mem: WaUser): WaUser {
    row.(name := mem.name, lastMessageAt := mem.lastMessageAt, lastInAt := mem.lastInAt, flowNode := mem.flowNode)
  }

  /** `save(update_fields=['human_requested', 'human_timeout_min', 'human_expires_at'])` */
  function SaveHuman(row: WaUser, mem: WaUser): WaUser {
    row.(humanRequested := mem.humanRequested, humanTimeoutMin := mem.humanTimeoutMin, humanExpiresAt := mem.humanExpiresAt)
  }

  /** `save(update_fields=['flow_node'])` */
  function SaveFlowNode(row: WaUser, mem: WaUser): WaUser {
    row.(flowNode := mem.flowNode)
  }

  /** The record stored under `key`, updated by `save` (left alone if absent). */
  function Store(users: Users, key: UserKey, f: WaUser -> WaUser): (r: Users)
    ensures r.Keys == users.Keys
    ensures forall k :: k in users && k != key ==> r[k] == users[k]
    ensures key in users ==> r[key] == f(users[key])
  {
    if key in users then users[key := f(users[key])] else users
  }

  /** One effect. */
  function Apply(w: World, mem: WaUser, e: Effect, ctx: Ctx, provider: nat -> Response): Outcome {
    match e
    case Enter(id) => EnterEffect(w, mem, id, ctx)
    case Handoff(minutes, expiresAt) => HandoffEffect(w, mem, minutes, expiresAt, ctx)
    case Leave => LeaveEffect(w, mem, ctx)
    case Send(msg, bestEffort) =>
      SendEffect(w, mem, msg, bestEffort, ctx, provider)
    case RecursionError =>
      Outcome(w, mem, true)
  }

  /** The user moves to node `id`, saved with the name and the timestamps. */
  function EnterEffect(w: World, mem: WaUser, id: string, ctx: Ctx): Outcome {
    var m := mem.(flowNode := Some(id));
    Outcome(w.(users := Store(w.users, ctx.key, row => SaveEntered(row, m))), m, false)
  }

  /** The hand-over to a human is requested until `expiresAt`, and saved. */
  function HandoffEffect(w: World, mem: WaUser, minutes: int, expiresAt: int, ctx: Ctx): Outcome {
    var m := mem.(humanRequested := true, humanTimeoutMin := minutes, humanExpiresAt := Some(expiresAt));
    Outcome(w.(users := Store(w.users, ctx.key, row => SaveHuman(row, m))), m, false)
  }

  /** The user leaves the flow, and only the position is saved. */
  function LeaveEffect(w: World, mem: WaUser, ctx: Ctx): Outcome {
    var m := mem.(flowNode := None);
    Outcome(w.(users := Store(w.users, ctx.key, row => SaveFlowNode(row, m))), m, false)
  }

  /** One message through the services: the table and the request count
      change, and the exception escapes unless the send was best-effort. */
  function SendEffect(w: World, mem: WaUser, msg: Msg, bestEffort: bool, ctx: Ctx, provider: nat -> Response): Outcome {
    var d := Deliver(w.rows, ctx.bot, Outgoing(ctx.key.waId, msg), provider(w.calls), ctx.now);
    Outcome(World(w.users, d.0, w.calls + 1), mem, d.1.Raised? && !bestEffort)
  }

  /** The effects in order, stopping at the first exception that escapes. */
  function Run(w: World, mem: WaUser, plan: seq<Effect>, ctx: Ctx, provider: nat -> Response): Outcome
    decreases |plan|
  {
    if plan == [] then Outcome(w, mem, false)
    else
      var o := Apply(w, mem, plan[0], ctx, provider);
      if o.crashed then o else Run(o.world, o.mem, plan[1..], ctx, provider)
  }

  /** Running one effect and then a plan. */
  lemma RunCons(w: World, mem: WaUser, e: Effect, rest: seq<Effect>, ctx: Ctx, provider: nat -> Response)
    ensures Run(w, mem, [e] + rest, ctx, provider)
         == var o := Apply(w, mem, e, ctx, provider);
            if o.crashed then o else Run(o.world, o.mem, rest, ctx, provider)
  {
    assert ([e] + rest)[0] == e && ([e] + rest)[1..] == rest;
  }

  /** A plan that only sends one message saves nothing and makes one request. */
  lemma RunSingleSend(w: World, mem: WaUser, plan: seq<Effect>, ctx: Ctx, provider: nat -> Response)
    requires |plan| == 1 && plan[0].Send?
    ensures var o := Run(w, mem, plan, ctx, provider);
      o.world.users == w.users && o.mem == mem && o.world.calls == w.calls + 1
  {
    assert plan == [plan[0]] + [];
    RunCons(w, mem, plan[0], [], ctx, provider);
    var o := Apply(w, mem, plan[0], ctx, provider);
    assert o == SendEffect(w, mem, plan[0].msg, plan[0].bestEffort, ctx, provider);
  }

  /** Running two plans one after the other is running their concatenation,
      unless the first one ends in an exception. */
  lemma {:induction false} RunAppend(w: World, mem: WaUser, p: seq<Effect>, q: seq<Effect>, ctx: Ctx, provider: nat -> Response)
    ensures Run(w, mem, p + q, ctx, provider)
         == var o := Run(w, mem, p, ctx, provider);
            if o.crashed then o else Run(o.world, o.mem, q, ctx, provider)
    decreases |p|
  {
    if p == [] {
      assert p + q == q;
    } else {
      assert (p + q)[0] == p[0] && (p + q)[1..] == p[1..] + q;
      var o := Apply(w, mem, p[0], ctx, provider);
      if !o.crashed {
        RunAppend(o.world, o.mem, p[1..], q, ctx, provider);
      }
    }
  }

  /** The advisor's text: the node's text (or the default message), the
      shown links as `Label: url`, and the chat link after a blank line. */
  function AdvisorText(node: Node): string
    requires node.Node?
  {
    var digits := PhoneDigits(node);
    Join([if node.text != "" then node.text else AdvisorDefault]
         + PlainLinkLines(LinkSlots(node.links))
         + (if digits != "" then ["\nChatear: " + WaMeLink(digits)] else []), "\n")
  }

  /** The shown links as `Label: url`, in order. */
  function PlainLinkLines(slots: seq<(string, LinkEntry)>): (lines: seq<string>)
    ensures |lines| <= |slots|
    decreases |slots|
  {
    if slots == [] then []
    else
      var last := slots[|slots| - 1];
      PlainLinkLines(slots[..|slots| - 1]) + (if LinkShown(last.1) then [last.0 + ": " + last.1.url] else [])
  }

  /** How long a hand-off is set for: at least one minute. */
  function HandoffMinutes(t: int): (m: int)
    ensures m >= 1 && m >= t
    ensures t >= 1 ==> m == t
    ensures t < 1 ==> m == 1
  {
    if t < 1 then 1 else t
  }

  /** The advisor branch: hand the chat to a human for `minutes` (at least
      one), then send `text` with the single main-menu button. */
  function AdvisorPlan(now: int, minutes: int, text: string): (r: seq<Effect>)
    ensures |r| == 2 && r[0].Handoff? && r[0].minutes == minutes
    ensures r[0].expiresAt >= now + 1 && r[0].expiresAt >= now + minutes
    ensures minutes >= 1 ==> r[0].expiresAt == now + minutes
    ensures minutes < 1 ==> r[0].expiresAt == now + 1
    ensures r[1] == Send(ButtonsMsg(text, [MainMenuButton]), false)
  {
    [Handoff(minutes, now + HandoffMinutes(minutes)), Send(ButtonsMsg(text, [MainMenuButton]), false)]
  }

  /** The send an asset gives, if any: an image, or a file or document with
      its name (or `archivo.pdf`), always without a caption. */
  function AssetSend(a: Asset): (r: seq<Effect>)
    ensures |r| <= 1
    ensures r != [] <==> a.url != "" && (IsImage(a) || IsDocument(a))
  {
    if IsImage(a) && a.url != "" then [Send(ImageMsg(a.url), true)]
    else if IsDocument(a) && a.url != "" then
      [Send(DocumentMsg(a.url, if a.name != "" then a.name else DefaultFileName), true)]
    else []
  }

  /** The asset sends, in order. */
  function AssetSends(assets: seq<Asset>): (r: seq<Effect>)
    ensures |r| <= |assets|
    decreases |assets|
  {
    if assets == [] then []
    else AssetSends(assets[..|assets| - 1]) + AssetSend(assets[|assets| - 1])
  }

  /** The buttons a node's buttons become: `FLOW:<next>` or the id as the
      button id, the title or 'Opción'; those without a target are dropped. */
  function NodeButtons(buttons: seq<Button>): (r: seq<ButtonSpec>)
    ensures |r| <= |buttons|
    decreases |buttons|
  {
    if buttons == [] then []
    else
      var last := buttons[|buttons| - 1];
      NodeButtons(buttons[..|buttons| - 1])
        + (if ButtonTarget(last) != "" then [ButtonSpec(ButtonTarget(last), ButtonTitle(last))] else [])
  }

  /** A text send, when there is text. */
  function TextSend(text: string): (r: seq<Effect>)
    ensures r == [] <==> text == ""
  {
    if text != "" then [Send(TextMsg(text), false)] else []
  }

  /** `send_flow_node(id)` as a plan. `fuel` is how deep the chain of `next`
      may go before the recursion error. */
  function NodePlan(flow: Flow, now: int, id: string, fuel: nat): seq<Effect>
    decreases fuel, 3
  {
    if fuel == 0 then [RecursionError]
    else match Find(flow, id)
      case None => [Send(TextMsg(FlowUnavailable), false)]
      case Some(node) => [Enter(id)] + NodeTail(flow, now, node, fuel)
  }

  /** What follows entering a node: the hand-off, the redirect, or the step. */
  function NodeTail(flow: Flow, now: int, node: Node, fuel: nat): seq<Effect>
    requires node.Node? && fuel >= 1
    decreases fuel, 2
  {
    if IsAdvisor(node) then AdvisorPlan(now, AdvisorTimeout(node), AdvisorText(node))
    else if Redirects(node) then NodePlan(flow, now, node.next, fuel - 1)
    else StepPlan(flow, now, node, fuel)
  }

  /** Out of fuel: the recursion error. */
  lemma NodePlanNoFuel(flow: Flow, now: int, id: string)
    ensures NodePlan(flow, now, id, 0) == [RecursionError]
  {
  }

  /** Entering an existing node. */
  lemma NodePlanEnters(flow: Flow, now: int, id: string, node: Node, fuel: nat)
    requires fuel >= 1 && Find(flow, id) == Some(node)
    ensures NodePlan(flow, now, id, fuel) == [Enter(id)] + NodeTail(flow, now, node, fuel)
  {
  }

  /** A node that is neither an advisor nor a redirect: its assets, then its
      buttons, or else its text followed by its `next` (for an action node)
      or by leaving the flow. */
  function StepPlan(flow: Flow, now: int, node: Node, fuel: nat): seq<Effect>
    requires node.Node? && fuel >= 1
    decreases fuel, 1
  {
    AssetSends(Take(node.assets, 5)) + ReplyPlan(flow, now, node, fuel)
  }

  /** The part of `StepPlan` after the assets. */
  function ReplyPlan(flow: Flow, now: int, node: Node, fuel: nat): seq<Effect>
    requires node.Node? && fuel >= 1
    decreases fuel, 0
  {
    var buttons := NodeButtons(Take(node.buttons, 3));
    if buttons != [] then [Send(ButtonsMsg(if node.text != "" then node.text else " ", buttons), false)]
    else
      TextSend(node.text)
        + (if IsAction(node) && node.next != "" then NodePlan(flow, now, node.next, fuel - 1) else [Leave])
  }

  /** A node whose reply chains into its `next`: an action node with a
      `next` and no button to send. */
  predicate ChainsOn(node: Node) {
    node.Node? && NodeButtons(Take(node.buttons, 3)) == [] && IsAction(node) && node.next != ""
  }

  /** A message as the webhook reads it once normalised: the payload id of a
      button or list reply ("" when there is none) and the text body. */
  datatype Event = Event(payloadId: string, text: string)

  /** A stored `flow_node` that Python treats as set. */
  predicate InFlow(mem: WaUser) {
    mem.flowNode.Some? && mem.flowNode.value != ""
  }

  /** A button or list reply: the payload alone picks the node. */
  function PayloadPlan(flow: Flow, payloadId: string, now: int, fuel: nat): seq<Effect> {
    match RoutePayload(payloadId)
    case GoTo(id) => NodePlan(flow, now, id, fuel)
    case MainMenu => if flow.startNode != "" then NodePlan(flow, now, flow.startNode, fuel) else []
    case Ignore => []
  }

  /** The routing part of the webhook, after the record is loaded. */
  function EventPlan(flow: Flow, mem: WaUser, ev: Event, now: int, fuel: nat): seq<Effect> {
    if ev.payloadId != "" then PayloadPlan(flow, ev.payloadId, now, fuel)
    else if flow.enabled && flow.nodes != [] then
      if InFlow(mem) then [Send(TextMsg(PickFromMenu), false)]
      else
        var target := FirstTrigger(flow.nodes, Normalize(ev.text));
        if target.Some? && target.value != "" then NodePlan(flow, now, target.value, fuel)
        else if flow.startNode != "" then NodePlan(flow, now, flow.startNode, fuel)
        else []
    else []
  }

  // ---------------------------------------------------------------------
  // Properties of the engine.

  /** An id that names no node gets exactly one text, "⚠️ Flujo no disponible
      en este paso.", and no record is touched. */
  lemma MissingNodeSendsNotice(flow: Flow, now: int, id: string, fuel: nat,
                               w: World, mem: WaUser, ctx: Ctx, provider: nat -> Response)
    requires fuel >= 1 && Find(flow, id).None?
    ensures NodePlan(flow, now, id, fuel) == [Send(TextMsg(FlowUnavailable), false)]
    ensures var o := Run(w, mem, NodePlan(flow, now, id, fuel), ctx, provider);
      o.world.users == w.users && o.mem == mem && o.world.calls == w.calls + 1
  {
    assert NodePlan(flow, now, id, fuel) == [Send(TextMsg(FlowUnavailable), false)];
    RunSingleSend(w, mem, NodePlan(flow, now, id, fuel), ctx, provider);
  }

  /** An advisor node enters the node, hands the chat over for the node's
      timeout and sends its text with the main-menu button; nothing is
      chained after it. */
  lemma AdvisorHandsOff(flow: Flow, now: int, id: string, node: Node, fuel: nat)
    requires fuel >= 1 && Find(flow, id) == Some(node) && IsAdvisor(node)
    ensures NodePlan(flow, now, id, fuel) == [Enter(id)] + AdvisorPlan(now, AdvisorTimeout(node), AdvisorText(node))
  {
    NodePlanEnters(flow, now, id, node, fuel);
  }

  /** After an advisor node the stored record points at the node, asks for a
      human for the node's timeout `t` and expires `max(1, t)` minutes from
      now, whatever the provider answers: both saves happen before the send. */
  lemma AdvisorStoresHandoff(flow: Flow, id: string, node: Node, fuel: nat, t: int,
                             w: World, mem: WaUser, ctx: Ctx, provider: nat -> Response)
    requires fuel >= 1 && Find(flow, id) == Some(node) && IsAdvisor(node) && ctx.key in w.users
    requires t == AdvisorTimeout(node)
    ensures var o := Run(w, mem, NodePlan(flow, ctx.now, id, fuel), ctx, provider);
      && ctx.key in o.world.users
      && var u := o.world.users[ctx.key];
      && u.flowNode == Some(id) && u.humanRequested
      && u.humanTimeoutMin == t
      && u.humanExpiresAt == Some(ctx.now + HandoffMinutes(t))
  {
    AdvisorHandsOff(flow, ctx.now, id, node, fuel);
    AdvisorRun(w, mem, NodePlan(flow, ctx.now, id, fuel), id, t, AdvisorText(node), ctx, provider);
  }

  lemma AdvisorRun(w: World, mem: WaUser, plan: seq<Effect>, id: string, minutes: int, text: string,
                   ctx: Ctx, provider: nat -> Response)
    requires ctx.key in w.users
    requires plan == [Enter(id)] + AdvisorPlan(ctx.now, minutes, text)
    ensures var o := Run(w, mem, plan, ctx, provider);
      && ctx.key in o.world.users
      && var u := o.world.users[ctx.key];
      && u.flowNode == Some(id) && u.humanRequested
      && u.humanTimeoutMin == minutes
      && u.humanExpiresAt == Some(ctx.now + HandoffMinutes(minutes))
  {
    HandoffRun(w, mem, plan, AdvisorPlan(ctx.now, minutes, text), id, minutes, ctx.now + HandoffMinutes(minutes),
               ButtonsMsg(text, [MainMenuButton]), ctx, provider);
  }

  /** Entering, handing off and sending: the record keeps both saves. */
  lemma HandoffRun(w: World, mem: WaUser, plan: seq<Effect>, rest: seq<Effect>, id: string, t: int, expiresAt: int, msg: Msg,
                   ctx: Ctx, provider: nat -> Response)
    requires ctx.key in w.users
    requires rest == [Handoff(t, expiresAt), Send(msg, false)]
    requires plan == [Enter(id)] + rest
    ensures var o := Run(w, mem, plan, ctx, provider);
      && ctx.key in o.world.users
      && o.world.users[ctx.key].flowNode == Some(id)
      && o.world.users[ctx.key].humanRequested
      && o.world.users[ctx.key].humanTimeoutMin == t
      && o.world.users[ctx.key].humanExpiresAt == Some(expiresAt)
  {
    var h := Handoff(t, expiresAt);
    var s := Send(msg, false);
    assert [h, s] == [h] + [s];
    RunCons(w, mem, Enter(id), [h, s], ctx, provider);
    var o1 := Apply(w, mem, Enter(id), ctx, provider);
    assert ctx.key in o1.world.users && o1.world.users[ctx.key].flowNode == Some(id);
    RunCons(o1.world, o1.mem, h, [s], ctx, provider);
    var o2 := Apply(o1.world, o1.mem, h, ctx, provider);
    assert ctx.key in o2.world.users && o2.world.users[ctx.key].flowNode == Some(id);
    RunCons(o2.world, o2.mem, s, [], ctx, provider);
    var o3 := Apply(o2.world, o2.mem, s, ctx, provider);
    assert o3.world.users == o2.world.users;
  }

  /** A start or trigger node with a `next` enters itself and then runs its
      target, sending nothing of its own. */
  lemma RedirectChains(flow: Flow, now: int, id: string, node: Node, fuel: nat)
    requires fuel >= 1 && Find(flow, id) == Some(node) && !IsAdvisor(node) && Redirects(node)
    ensures NodePlan(flow, now, id, fuel) == [Enter(id)] + NodePlan(flow, now, node.next, fuel - 1)
  {
    NodePlanEnters(flow, now, id, node, fuel);
  }

  /** Asset sends are best effort: they are all sends marked so. */
  lemma {:induction false} AssetSendsBestEffort(assets: seq<Asset>)
    ensures forall k :: 0 <= k < |AssetSends(assets)| ==>
      AssetSends(assets)[k].Send? && AssetSends(assets)[k].bestEffort
    decreases |assets|
  {
    if assets != [] {
      AssetSendsBestEffort(assets[..|assets| - 1]);
    }
  }

  /** Only the first five assets are ever sent. */
  lemma AtMostFiveAssets(node: Node)
    requires node.Node?
    ensures |AssetSends(Take(node.assets, 5))| <= 5
  {
  }

  /** A plan of best-effort sends never raises, leaves the records and the
      in-memory record alone, and makes one request per send. */
  lemma {:induction false} BestEffortNeverCrashes(w: World, mem: WaUser, plan: seq<Effect>, ctx: Ctx, provider: nat -> Response)
    requires forall k :: 0 <= k < |plan| ==> plan[k].Send? && plan[k].bestEffort
    ensures var o := Run(w, mem, plan, ctx, provider);
      !o.crashed && o.mem == mem && o.world.users == w.users && o.world.calls == w.calls + |plan|
    decreases |plan|
  {
    if plan != [] {
      var o := Apply(w, mem, plan[0], ctx, provider);
      assert !o.crashed && o.mem == mem && o.world.users == w.users;
      BestEffortNeverCrashes(o.world, o.mem, plan[1..], ctx, provider);
    }
  }

  /** The webhook sends as buttons exactly the options the preview shows:
      same number, same order, each option's payload as the button id and
      its title as the button title. */
  lemma {:induction false} ButtonsMatchPreview(buttons: seq<Button>)
    ensures |NodeButtons(buttons)| == |ButtonChoices(buttons)|
    ensures forall k :: 0 <= k < |NodeButtons(buttons)| ==>
      NodeButtons(buttons)[k] == ButtonSpec(ButtonChoices(buttons)[k].payload, ButtonChoices(buttons)[k].title)
    decreases |buttons|
  {
    if buttons != [] {
      ButtonsMatchPreview(buttons[..|buttons| - 1]);
    }
  }

  /** Every button the webhook builds has an id and a title, so the message
      carries all of them (at most three), titles cut to 20 characters. */
  lemma NodeButtonsAllSent(node: Node)
    requires node.Node?
    ensures |ReplyButtons(NodeButtons(Take(node.buttons, 3)))| == |NodeButtons(Take(node.buttons, 3))| <= 3
  {
    var bs := NodeButtons(Take(node.buttons, 3));
    ButtonsMatchPreview(Take(node.buttons, 3));
    forall k | 0 <= k < |bs| && k < 3
      ensures Usable(bs[k])
    {
    }
    ReplyButtonsKeepsUsable(bs);
  }

  /** A node with buttons ends with one interactive message: no text of its
      own, no chaining and no leaving the flow. */
  lemma ButtonsEndTheStep(flow: Flow, now: int, node: Node, fuel: nat)
    requires node.Node? && fuel >= 1 && NodeButtons(Take(node.buttons, 3)) != []
    ensures ReplyPlan(flow, now, node, fuel)
         == [Send(ButtonsMsg(if node.text != "" then node.text else " ", NodeButtons(Take(node.buttons, 3))), false)]
  {
  }

  /** Without buttons, an action node with a `next` chains to it, and any
      other node leaves the flow after its text. */
  lemma NoButtonsChainOrLeave(flow: Flow, now: int, node: Node, fuel: nat)
    requires node.Node? && fuel >= 1 && NodeButtons(Take(node.buttons, 3)) == []
    ensures IsAction(node) && node.next != "" ==>
      ReplyPlan(flow, now, node, fuel) == TextSend(node.text) + NodePlan(flow, now, node.next, fuel - 1)
    ensures !(IsAction(node) && node.next != "") ==>
      ReplyPlan(flow, now, node, fuel) == TextSend(node.text) + [Leave]
  {
  }

  /** Every node the plan enters exists. */
  predicate EntersExisting(flow: Flow, plan: seq<Effect>) {
    forall k :: 0 <= k < |plan| && plan[k].Enter? ==> Find(flow, plan[k].node).Some?
  }

  lemma EntersExistingAppend(flow: Flow, a: seq<Effect>, b: seq<Effect>)
    requires EntersExisting(flow, a) && EntersExisting(flow, b)
    ensures EntersExisting(flow, a + b)
  {
    forall k | 0 <= k < |a + b| && (a + b)[k].Enter?
      ensures Find(flow, (a + b)[k].node).Some?
    {
      if k >= |a| {
        assert (a + b)[k] == b[k - |a|];
      }
    }
  }

  /** `flow_node` is only ever set to a node that exists. */
  lemma {:induction false} EntersOnlyExistingNodes(flow: Flow, now: int, id: string, fuel: nat)
    ensures EntersExisting(flow, NodePlan(flow, now, id, fuel))
    decreases fuel, 4
  {
    if fuel >= 1 && Find(flow, id).Some? {
      var node := Find(flow, id).value;
      NodePlanEnters(flow, now, id, node, fuel);
      TailEntersOnlyExistingNodes(flow, now, node, fuel);
      EntersExistingAppend(flow, [Enter(id)], NodeTail(flow, now, node, fuel));
    }
  }

  lemma {:induction false} TailEntersOnlyExistingNodes(flow: Flow, now: int, node: Node, fuel: nat)
    requires node.Node? && fuel >= 1
    ensures EntersExisting(flow, NodeTail(flow, now, node, fuel))
    decreases fuel, 3
  {
    if IsAdvisor(node) {
      AdvisorEntersNothing(flow, now, node, fuel);
    } else if Redirects(node) {
      EntersOnlyExistingNodes(flow, now, node.next, fuel - 1);
    } else {
      StepEntersOnlyExistingNodes(flow, now, node, fuel);
    }
  }

  lemma AdvisorEntersNothing(flow: Flow, now: int, node: Node, fuel: nat)
    requires node.Node? && fuel >= 1 && IsAdvisor(node)
    ensures EntersExisting(flow, NodeTail(flow, now, node, fuel))
  {
    AdvisorPlanEntersNothing(flow, now, AdvisorTimeout(node), AdvisorText(node));
  }

  lemma AdvisorPlanEntersNothing(flow: Flow, now: int, minutes: int, text: string)
    ensures EntersExisting(flow, AdvisorPlan(now, minutes, text))
  {
    var tail := AdvisorPlan(now, minutes, text);
    assert !tail[0].Enter? && !tail[1].Enter?;
  }

  lemma {:induction false} StepEntersOnlyExistingNodes(flow: Flow, now: int, node: Node, fuel: nat)
    requires node.Node? && fuel >= 1
    ensures EntersExisting(flow, StepPlan(flow, now, node, fuel))
    decreases fuel, 2
  {
    AssetSendsBestEffort(Take(node.assets, 5));
    ReplyEntersOnlyExistingNodes(flow, now, node, fuel);
    EntersExistingAppend(flow, AssetSends(Take(node.assets, 5)), ReplyPlan(flow, now, node, fuel));
  }

  lemma {:induction false} ReplyEntersOnlyExistingNodes(flow: Flow, now: int, node: Node, fuel: nat)
    requires node.Node? && fuel >= 1
    ensures EntersExisting(flow, ReplyPlan(flow, now, node, fuel))
    decreases fuel, 1
  {
    if NodeButtons(Take(node.buttons, 3)) == [] && IsAction(node) && node.next != "" {
      ChainEntersOnlyExistingNodes(flow, now, node, fuel);
    } else if NodeButtons(Take(node.buttons, 3)) == [] {
      assert ReplyPlan(flow, now, node, fuel) == TextSend(node.text) + [Leave];
      TextEntersNothing(flow, node.text);
    }
  }

  lemma {:induction false} ChainEntersOnlyExistingNodes(flow: Flow, now: int, node: Node, fuel: nat)
    requires fuel >= 1 && ChainsOn(node)
    ensures EntersExisting(flow, ReplyPlan(flow, now, node, fuel))
    decreases fuel, 0
  {
    EntersOnlyExistingNodes(flow, now, node.next, fuel - 1);
    ChainEntersStep(flow, now, node, fuel);
  }

  lemma ChainEntersStep(flow: Flow, now: int, node: Node, fuel: nat)
    requires fuel >= 1 && ChainsOn(node)
    requires EntersExisting(flow, NodePlan(flow, now, node.next, fuel - 1))
    ensures EntersExisting(flow, ReplyPlan(flow, now, node, fuel))
  {
    ReplyChains(flow, now, node, fuel);
    TextThenEnters(flow, ReplyPlan(flow, now, node, fuel), node.text, NodePlan(flow, now, node.next, fuel - 1));
  }

  lemma TextThenEnters(flow: Flow, plan: seq<Effect>, text: string, rest: seq<Effect>)
    requires plan == TextSend(text) + rest && EntersExisting(flow, rest)
    ensures EntersExisting(flow, plan)
  {
    TextEntersNothing(flow, text);
    EntersExistingAppend(flow, TextSend(text), rest);
  }

  /** Without buttons, an action node with a `next` sends its text and chains. */
  lemma ReplyChains(flow: Flow, now: int, node: Node, fuel: nat)
    requires fuel >= 1 && ChainsOn(node)
    ensures ReplyPlan(flow, now, node, fuel) == TextSend(node.text) + NodePlan(flow, now, node.next, fuel - 1)
  {
  }

  lemma TextEntersNothing(flow: Flow, text: string)
    ensures EntersExisting(flow, TextSend(text))
    ensures EntersExisting(flow, TextSend(text) + [Leave])
  {
    var plan := TextSend(text) + [Leave];
    assert forall k :: 0 <= k < |plan| ==> !plan[k].Enter?;
  }

  /** A chain that completes within some fuel plans the same with more: the
      fuel bound only decides when the recursion error happens. */
  lemma {:induction false} NodePlanFuelMonotone(flow: Flow, now: int, id: string, fuel: nat)
    requires RecursionError !in NodePlan(flow, now, id, fuel)
    ensures NodePlan(flow, now, id, fuel + 1) == NodePlan(flow, now, id, fuel)
    decreases fuel, 4
  {
    if fuel >= 1 && Find(flow, id).Some? {
      var node := Find(flow, id).value;
      NodePlanEnters(flow, now, id, node, fuel);
      NodePlanEnters(flow, now, id, node, fuel + 1);
      assert RecursionError !in NodeTail(flow, now, node, fuel);
      TailFuelMonotone(flow, now, node, fuel);
    }
  }

  lemma {:induction false} TailFuelMonotone(flow: Flow, now: int, node: Node, fuel: nat)
    requires node.Node? && fuel >= 1
    requires RecursionError !in NodeTail(flow, now, node, fuel)
    ensures NodeTail(flow, now, node, fuel + 1) == NodeTail(flow, now, node, fuel)
    decreases fuel, 3
  {
    if IsAdvisor(node) {
    } else if Redirects(node) {
      NodePlanFuelMonotone(flow, now, node.next, fuel - 1);
    } else {
      StepPlanFuelMonotone(flow, now, node, fuel);
    }
  }

  lemma {:induction false} StepPlanFuelMonotone(flow: Flow, now: int, node: Node, fuel: nat)
    requires node.Node? && fuel >= 1
    requires RecursionError !in StepPlan(flow, now, node, fuel)
    ensures StepPlan(flow, now, node, fuel + 1) == StepPlan(flow, now, node, fuel)
    decreases fuel, 2
  {
    var assets := AssetSends(Take(node.assets, 5));
    assert StepPlan(flow, now, node, fuel) == assets + ReplyPlan(flow, now, node, fuel);
    assert RecursionError !in ReplyPlan(flow, now, node, fuel);
    ReplyPlanFuelMonotone(flow, now, node, fuel);
  }

  lemma {:induction false} ReplyPlanFuelMonotone(flow: Flow, now: int, node: Node, fuel: nat)
    requires node.Node? && fuel >= 1
    requires RecursionError !in ReplyPlan(flow, now, node, fuel)
    ensures ReplyPlan(flow, now, node, fuel + 1) == ReplyPlan(flow, now, node, fuel)
    decreases fuel, 1
  {
    if NodeButtons(Take(node.buttons, 3)) == [] && IsAction(node) && node.next != "" {
      ChainFuelMonotone(flow, now, node, fuel);
    } else if NodeButtons(Take(node.buttons, 3)) == [] {
      assert ReplyPlan(flow, now, node, fuel + 1) == TextSend(node.text) + [Leave];
      assert ReplyPlan(flow, now, node, fuel) == TextSend(node.text) + [Leave];
    }
  }

  lemma {:induction false} ChainFuelMonotone(flow: Flow, now: int, node: Node, fuel: nat)
    requires fuel >= 1 && ChainsOn(node)
    requires RecursionError !in ReplyPlan(flow, now, node, fuel)
    ensures ReplyPlan(flow, now, node, fuel + 1) == ReplyPlan(flow, now, node, fuel)
    decreases fuel, 0
  {
    ChainNoError(flow, now, node, fuel);
    NodePlanFuelMonotone(flow, now, node.next, fuel - 1);
    ChainFuelStep(flow, now, node, fuel);
  }

  /** A chained reply without the recursion error leaves none in its `next`. */
  lemma ChainNoError(flow: Flow, now: int, node: Node, fuel: nat)
    requires fuel >= 1 && ChainsOn(node)
    requires RecursionError !in ReplyPlan(flow, now, node, fuel)
    ensures RecursionError !in NodePlan(flow, now, node.next, fuel - 1)
  {
    var next := NodePlan(flow, now, node.next, fuel - 1);
    assert ReplyPlan(flow, now, node, fuel) == TextSend(node.text) + next;
  }

  /** A chained reply is as fuel-independent as its `next`. */
  lemma ChainFuelStep(flow: Flow, now: int, node: Node, fuel: nat)
    requires fuel >= 1 && ChainsOn(node)
    requires NodePlan(flow, now, node.next, fuel) == NodePlan(flow, now, node.next, fuel - 1)
    ensures ReplyPlan(flow, now, node, fuel + 1) == ReplyPlan(flow, now, node, fuel)
  {
    assert ReplyPlan(flow, now, node, fuel) == TextSend(node.text) + NodePlan(flow, now, node.next, fuel - 1);
    assert ReplyPlan(flow, now, node, fuel + 1) == TextSend(node.text) + NodePlan(flow, now, node.next, fuel);
  }

  /** A payload decides the plan on its own: neither the stored `flow_node`
      nor the text is looked at, a `FLOW:<id>` payload runs the node after the
      prefix, and a payload that is neither that nor the main menu does nothing. */
  lemma PayloadIgnoresState(flow: Flow, mem: WaUser, mem2: WaUser, ev: Event, text: string, now: int, fuel: nat)
    requires ev.payloadId != ""
    ensures EventPlan(flow, mem, ev, now, fuel) == EventPlan(flow, mem2, ev.(text := text), now, fuel)
    ensures "FLOW:" <= Upper(Strip(ev.payloadId)) ==>
      EventPlan(flow, mem, ev, now, fuel) == NodePlan(flow, now, Strip(ev.payloadId)[5..], fuel)
    ensures !("FLOW:" <= Upper(Strip(ev.payloadId))) && Upper(Strip(ev.payloadId)) != "MENU_PRINCIPAL" ==>
      EventPlan(flow, mem, ev, now, fuel) == []
    ensures Upper(Strip(ev.payloadId)) == "MENU_PRINCIPAL" ==>
      EventPlan(flow, mem, ev, now, fuel) == (if flow.startNode != "" then NodePlan(flow, now, flow.startNode, fuel) else [])
  {
    if "FLOW:" <= Upper(Strip(ev.payloadId)) {
      RouteTakesSuffix(ev.payloadId);
    }
  }

  /** Free text in the middle of a flow gets exactly one "pick an option"
      text: no trigger is matched and no record is saved. */
  lemma MidFlowTextAsksToPick(flow: Flow, mem: WaUser, ev: Event, now: int, fuel: nat,
                              w: World, ctx: Ctx, provider: nat -> Response)
    requires ev.payloadId == "" && flow.enabled && flow.nodes != [] && InFlow(mem)
    ensures EventPlan(flow, mem, ev, now, fuel) == [Send(TextMsg(PickFromMenu), false)]
    ensures var o := Run(w, mem, EventPlan(flow, mem, ev, now, fuel), ctx, provider);
      o.world.users == w.users && o.mem == mem
  {
    assert EventPlan(flow, mem, ev, now, fuel) == [Send(TextMsg(PickFromMenu), false)];
    RunSingleSend(w, mem, EventPlan(flow, mem, ev, now, fuel), ctx, provider);
  }

  /** Free text outside a flow runs the first trigger that fires, else (no
      trigger fires, or the first one leads to an empty id) the start node,
      else nothing; a disabled or empty flow does nothing. */
  lemma FreeTextRouting(flow: Flow, mem: WaUser, ev: Event, now: int, fuel: nat, target: string)
    requires ev.payloadId == "" && !InFlow(mem)
    ensures !flow.enabled || flow.nodes == [] ==> EventPlan(flow, mem, ev, now, fuel) == []
    ensures flow.enabled && flow.nodes != [] && FirstTrigger(flow.nodes, Normalize(ev.text)) == Some(target) && target != "" ==>
      EventPlan(flow, mem, ev, now, fuel) == NodePlan(flow, now, target, fuel)
    ensures flow.enabled && flow.nodes != [] && FirstTrigger(flow.nodes, Normalize(ev.text)) in {None, Some("")} ==>
      EventPlan(flow, mem, ev, now, fuel)
        == (if flow.startNode != "" then NodePlan(flow, now, flow.startNode, fuel) else [])
  {
  }

  /** One effect adds at most one row, and only with a request. */
  lemma ApplyLogGrows(w: World, mem: WaUser, e: Effect, ctx: Ctx, provider: nat -> Response)
    ensures var o := Apply(w, mem, e, ctx, provider);
      && w.rows <= o.world.rows
      && w.calls <= o.world.calls
      && |o.world.rows| - |w.rows| <= o.world.calls - w.calls
      && o.world.users.Keys == w.users.Keys
  {
    if e.Send? {
      var d := Deliver(w.rows, ctx.bot, Outgoing(ctx.key.waId, e.msg), provider(w.calls), ctx.now);
      assert Apply(w, mem, e, ctx, provider).world == World(w.users, d.0, w.calls + 1);
    }
  }

  /** The log only grows, and by at most one row per request. */
  lemma {:induction false} RunLogGrows(w: World, mem: WaUser, plan: seq<Effect>, ctx: Ctx, provider: nat -> Response)
    ensures var o := Run(w, mem, plan, ctx, provider);
      && w.rows <= o.world.rows
      && w.calls <= o.world.calls
      && |o.world.rows| - |w.rows| <= o.world.calls - w.calls
      && o.world.users.Keys == w.users.Keys
    decreases |plan|
  {
    if plan != [] {
      var o := Apply(w, mem, plan[0], ctx, provider);
      ApplyLogGrows(w, mem, plan[0], ctx, provider);
      if !o.crashed {
        RunLogGrows(o.world, o.mem, plan[1..], ctx, provider);
      }
    }
  }

  /** A plan only ever touches the record of the user it answers. */
  lemma {:induction false} RunKeepsOtherRecords(w: World, mem: WaUser, plan: seq<Effect>, ctx: Ctx,
                                                provider: nat -> Response, k: UserKey)
    requires k != ctx.key && k in w.users
    ensures var o := Run(w, mem, plan, ctx, provider);
      k in o.world.users && o.world.users[k] == w.users[k]
    decreases |plan|
  {
    if plan != [] {
      var o := Apply(w, mem, plan[0], ctx, provider);
      if !o.crashed {
        RunKeepsOtherRecords(o.world, o.mem, plan[1..], ctx, provider, k);
      }
    }
  }

  /** When the provider accepts every request, nothing raises short of the
      recursion error, and every send of the plan logs exactly one row. */
  lemma {:induction false} AllAcceptedLogsEverySend(w: World, mem: WaUser, plan: seq<Effect>, ctx: Ctx, provider: nat -> Response)
    requires forall n: nat :: provider(n).Answered? && provider(n).ok
    requires RecursionError !in plan
    ensures var o := Run(w, mem, plan, ctx, provider);
      && !o.crashed
      && |o.world.rows| == |w.rows| + Sends(plan)
      && o.world.calls == w.calls + Sends(plan)
    decreases |plan|
  {
    if plan != [] {
      assert plan == [plan[0]] + plan[1..];
      assert RecursionError !in plan[1..];
      AllAcceptedLogsEverySend(Apply(w, mem, plan[0], ctx, provider).world, Apply(w, mem, plan[0], ctx, provider).mem,
                               plan[1..], ctx, provider);
    }
  }

  /** The number of sends in a plan. */
  function Sends(plan: seq<Effect>): (n: nat)
    ensures n <= |plan|
    decreases |plan|
  {
    if plan == [] then 0 else (if plan[0].Send? then 1 else 0) + Sends(plan[1..])
  }
}

=== FILE: preview.dfy ===
/**
 * The flow preview: what the builder's chat simulator (and the WhatsApp-Web
 * bridge) is shown for a node, as a response record holding either a plain
 * `response` or an HTML `response_html`, and possibly a list of `options`
 * (title and payload) to pick from. Nothing is sent and no state changes.
 */
module Preview {
  import opened Wrappers
  import opened Strings
  import opened FlowDef
  import opened Triggers

  /** An option offered to the user: `{'title', 'payload'}`. */
  datatype Choice = Choice(title: string, payload: string)

  /** The text of a response record: `response` or `response_html`. */
  datatype Body = Plain(response: string) | Html(responseHtml: string)

  /** A response record; `options` is `None` when the key is absent. */
  datatype Reply = Reply(body: Body, options: Option<seq<Choice>>)

  /** A preview, or the recursion error a `next` chain that is too long (or
      cyclic) ends in. */
  datatype Preview = Built(reply: Reply) | Overflow

  const NodeNotFound: string := "\U{26A0}\U{FE0F} Paso no encontrado en el flujo."
  const NextTitle: string := "\U{27A1}\U{FE0F} Siguiente"
  const AdvisorFallback: string := "Asesor humano"
  const NoMatch: string := "\U{1F916} No hay un match en el flujo para tu mensaje."

  /** A reply holding only a plain text. */
  function PlainReply(text: string): (r: Reply)
    ensures r.body == Plain(text) && r.options.None?
  {
    Reply(Plain(text), None)
  }

  /** An image shown inline. */
  function ImageTag(a: Asset): string {
    "<img src=\"" + a.url + "\" alt=\"" + a.name + "\" style=\"max-width:100%; border-radius:8px;\"/>"
  }

  /** A file shown as a link labelled with its name, or else with the last
      segment of its url. */
  function FileLink(a: Asset): string {
    var shown := if a.name != "" then a.name else Basename(a.url);
    "\U{1F4C4} <a href=\"" + a.url + "\" target=\"_blank\" rel=\"noopener\">" + shown + "</a>"
  }

  /** How an asset is rendered: an image inline, anything else as a link. */
  function AssetHtml(a: Asset): string {
    if IsImage(a) then ImageTag(a) else FileLink(a)
  }

  /** The rendered assets, in order, skipping those without a url. */
  function AssetParts(assets: seq<Asset>): (parts: seq<string>)
    ensures |parts| <= |assets|
    decreases |assets|
  {
    if assets == [] then []
    else
      var last := assets[|assets| - 1];
      AssetParts(assets[..|assets| - 1]) + (if last.url != "" then [AssetHtml(last)] else [])
  }

  /** The assets that have a url, in order. */
  function WithUrl(assets: seq<Asset>): (r: seq<Asset>)
    ensures |r| <= |assets|
    ensures forall k :: 0 <= k < |r| ==> r[k].url != "" && r[k] in assets
    ensures (forall k :: 0 <= k < |assets| ==> assets[k].url != "") ==> r == assets
    decreases |assets|
  {
    if assets == [] then []
    else (if assets[0].url != "" then [assets[0]] else []) + WithUrl(assets[1..])
  }

  lemma {:induction false} WithUrlAppend(a: seq<Asset>, b: seq<Asset>)
    ensures WithUrl(a + b) == WithUrl(a) + WithUrl(b)
    decreases |a|
  {
    if a == [] {
      assert a + b == b;
    } else {
      assert (a + b)[1..] == a[1..] + b;
      WithUrlAppend(a[1..], b);
    }
  }

  /** The preview renders exactly the assets that have a url, one part each,
      in their order. */
  lemma {:induction false} AssetPartsRenderWithUrl(assets: seq<Asset>)
    ensures |AssetParts(assets)| == |WithUrl(assets)|
    ensures forall k :: 0 <= k < |WithUrl(assets)| ==> AssetParts(assets)[k] == AssetHtml(WithUrl(assets)[k])
    decreases |assets|
  {
    if assets != [] {
      var init := assets[..|assets| - 1];
      var last := assets[|assets| - 1];
      AssetPartsRenderWithUrl(init);
      LastAsset(assets);
      RenderOneMore(AssetParts(init), WithUrl(init), last);
    }
  }

  /** Both the parts and the assets with a url grow by at most the last asset. */
  lemma LastAsset(assets: seq<Asset>)
    requires assets != []
    ensures var init, last := assets[..|assets| - 1], assets[|assets| - 1];
      && AssetParts(assets) == AssetParts(init) + (if last.url != "" then [AssetHtml(last)] else [])
      && WithUrl(assets) == WithUrl(init) + (if last.url != "" then [last] else [])
  {
    var init, last := assets[..|assets| - 1], assets[|assets| - 1];
    assert assets == init + [last];
    WithUrlAppend(init, [last]);
    assert WithUrl([last]) == (if last.url != "" then [last] else []) + WithUrl([]);
  }

  /** One more asset keeps the parts and the assets with a url in step. */
  lemma RenderOneMore(parts: seq<string>, kept: seq<Asset>, last: Asset)
    requires |parts| == |kept|
    requires forall k :: 0 <= k < |kept| ==> parts[k] == AssetHtml(kept[k])
    ensures var parts' := parts + (if last.url != "" then [AssetHtml(last)] else []);
      var kept' := kept + (if last.url != "" then [last] else []);
      |parts'| == |kept'| && forall k :: 0 <= k < |kept'| ==> parts'[k] == AssetHtml(kept'[k])
  {
  }

  /** A line listing one of the advisor's links. */
  function LinkLine(caption: string, e: LinkEntry): string {
    caption + ": <a href=\"" + e.url + "\" target=\"_blank\">" + e.url + "</a>"
  }

  /** The lines for the links that are shown, in order. */
  function LinkLines(slots: seq<(string, LinkEntry)>): (lines: seq<string>)
    ensures |lines| <= |slots|
    decreases |slots|
  {
    if slots == [] then []
    else
      var last := slots[|slots| - 1];
      LinkLines(slots[..|slots| - 1]) + (if LinkShown(last.1) then [LinkLine(last.0, last.1)] else [])
  }

  /** The line offering a chat with the advisor. */
  function ChatLine(link: string): string {
    "Chatear: <a href=\"" + link + "\" target=\"_blank\">" + link + "</a>"
  }

  /** The option a button becomes: its title (or 'Opción') and its target;
      a button without target is dropped. */
  function ButtonChoices(buttons: seq<Button>): (options: seq<Choice>)
    ensures |options| <= |buttons|
    ensures forall k :: 0 <= k < |options| ==> options[k].title != "" && options[k].payload != ""
    decreases |buttons|
  {
    if buttons == [] then []
    else
      var last := buttons[|buttons| - 1];
      ButtonChoices(buttons[..|buttons| - 1])
        + (if ButtonTarget(last) != "" then [Choice(ButtonTitle(last), ButtonTarget(last))] else [])
  }

  /** The advisor's lines: the default message when the node has no text,
      the shown links, and the chat link when a phone number is given. */
  function AdvisorLines(node: Node, text: string): seq<string>
    requires node.Node?
  {
    var digits := PhoneDigits(node);
    (if text == "" then [AdvisorDefault] else [])
      + LinkLines(LinkSlots(node.links))
      + (if digits != "" then [ChatLine(WaMeLink(digits))] else [])
  }

  /** The node's stripped text with its line breaks as `<br>`, when there is any. */
  function TextPart(text: string): (parts: seq<string>)
    ensures |parts| <= 1
    ensures parts != [] <==> text != ""
  {
    if text != "" then [Replace(text, '\n', "<br>")] else []
  }

  /** The single option leading back to the start node, when there is one. */
  function MenuOption(flow: Flow): (options: seq<Choice>)
    ensures |options| <= 1
    ensures options != [] <==> flow.startNode != ""
  {
    if flow.startNode != "" then [Choice(MainMenuTitle, "FLOW:" + flow.startNode)] else []
  }

  /** How a node that does not redirect is previewed. */
  function RenderNode(flow: Flow, node: Node): Reply
    requires node.Node?
  {
    var text := Strip(node.text);
    var parts := TextPart(text) + AssetParts(Take(node.assets, 5));
    if IsAdvisor(node) then
      AdvisorReply(flow, parts, AdvisorLines(node, text))
    else StepReply(node, text, parts, ButtonChoices(Take(node.buttons, 3)))
  }

  /** The reply of any other node: the parts joined as HTML (or the text, or
      a single space), with the button options, or else the '➡️ Siguiente'
      option of an action node with a `next`. */
  function StepReply(node: Node, text: string, parts: seq<string>, choices: seq<Choice>): Reply
    requires node.Node?
  {
    var options := if choices == [] && IsAction(node) && node.next != "" then [Choice(NextTitle, "FLOW:" + node.next)] else choices;
    Reply(if parts != [] then Html(Join(parts, "<br>")) else Plain(if text != "" then text else " "),
          if options != [] then Some(options) else None)
  }

  /** `_build_preview_for_node`: the preview of the node `id`. A start or
      trigger node with a `next` shows its target instead; `fuel` bounds how
      many nodes the chain may visit before the recursion error. */
  function PreviewNode(flow: Flow, id: string, fuel: nat): Preview
    decreases fuel, 1
  {
    if fuel == 0 then Overflow
    else match Find(flow, id)
      case None => Built(PlainReply(NodeNotFound))
      case Some(node) => PreviewFound(flow, node, fuel)
  }

  /** The preview of a node that exists. */
  function PreviewFound(flow: Flow, node: Node, fuel: nat): Preview
    requires node.Node? && fuel >= 1
    decreases fuel, 0
  {
    if Redirects(node) then PreviewNode(flow, node.next, fuel - 1) else Built(RenderNode(flow, node))
  }

  /** `_build_preview_for_node`, step by step as the source builds it. */
  method BuildPreviewForNode(flow: Flow, id: string, fuel: nat) returns (p: Preview)
    ensures p == PreviewNode(flow, id, fuel)
    decreases fuel, 1
  {
    if fuel == 0 {
      return Overflow;
    }
    var found := Find(flow, id);
    if found.None? {
      return Built(PlainReply(NodeNotFound));
    }
    p := BuildFoundNode(flow, found.value, fuel);
  }

  /** The rest of `_build_preview_for_node` once the node is found: follow
      the redirect, or render the node. */
  method BuildFoundNode(flow: Flow, node: Node, fuel: nat) returns (p: Preview)
    requires node.Node? && fuel >= 1
    ensures p == PreviewFound(flow, node, fuel)
    decreases fuel, 0
  {
    if Redirects(node) {
      p := BuildPreviewForNode(flow, node.next, fuel - 1);
      assert PreviewFound(flow, node, fuel) == PreviewNode(flow, node.next, fuel - 1);
    } else {
      var reply := RenderSteps(flow, node);
      p := Built(reply);
      assert PreviewFound(flow, node, fuel) == Built(RenderNode(flow, node));
    }
  }

  /** The body of `_build_preview_for_node` for a node that does not redirect. */
  method RenderSteps(flow: Flow, node: Node) returns (r: Reply)
    requires node.Node?
    ensures r == RenderNode(flow, node)
  {
    var text := Strip(node.text);
    var parts := RenderParts(text, node.assets);
    if IsAdvisor(node) {
      r := RenderAdvisor(flow, node, text, parts);
      return;
    }
    var options := RenderButtons(Take(node.buttons, 3));
    r := RenderStepReply(node, text, parts, options);
  }

  /** The text and the first five assets, as the parts of the response. */
  method RenderParts(text: string, assets: seq<Asset>) returns (parts: seq<string>)
    ensures parts == TextPart(text) + AssetParts(Take(assets, 5))
  {
    parts := [];
    if text != "" {
      parts := parts + [Replace(text, '\n', "<br>")];
    }
    assert parts == TextPart(text);
    parts := RenderAssets(parts, Take(assets, 5));
  }

  /** The options and the response of a node that is not an advisor. */
  method RenderStepReply(node: Node, text: string, parts: seq<string>, choices: seq<Choice>) returns (r: Reply)
    requires node.Node?
    ensures r == StepReply(node, text, parts, choices)
  {
    var options := choices;
    if options == [] && IsAction(node) && node.next != "" {
      options := options + [Choice(NextTitle, "FLOW:" + node.next)];
      assert options == [Choice(NextTitle, "FLOW:" + node.next)];
    }
    var body := if parts != [] then Html(Join(parts, "<br>")) else Plain(if text != "" then text else " ");
    r := Reply(body, if options != [] then Some(options) else None);
  }

  /** The loop over the first five assets. */
  method RenderAssets(parts0: seq<string>, assets: seq<Asset>) returns (parts: seq<string>)
    ensures parts == parts0 + AssetParts(assets)
  {
    parts := parts0;
    var i := 0;
    while i < |assets|
      invariant 0 <= i <= |assets|
      invariant parts == parts0 + AssetParts(assets[..i])
    {
      assert assets[..i + 1][..i] == assets[..i];
      var asset := assets[i];
      if asset.url == "" {
        i := i + 1;
        continue;
      }
      if IsImage(asset) {
        parts := parts + [ImageTag(asset)];
      } else {
        parts := parts + [FileLink(asset)];
      }
      i := i + 1;
    }
    assert assets[..|assets|] == assets;
  }

  /** The reply of an advisor node: the parts and lines joined, with the
      option back to the main menu. */
  function AdvisorReply(flow: Flow, parts: seq<string>, lines: seq<string>): (r: Reply)
    ensures r.body.Html? && r.options == Some(MenuOption(flow))
  {
    var all := parts + (if lines != [] then [Join(lines, "<br>")] else []);
    Reply(Html(if all != [] then Join(all, "<br>") else AdvisorFallback), Some(MenuOption(flow)))
  }

  /** The advisor branch: its lines, then the response with the menu option. */
  method RenderAdvisor(flow: Flow, node: Node, text: string, parts0: seq<string>) returns (r: Reply)
    requires node.Node?
    ensures r == AdvisorReply(flow, parts0, AdvisorLines(node, text))
  {
    var lines := RenderAdvisorLines(node, text);
    var parts := parts0;
    assert parts0 + [] == parts0;
    if lines != [] {
      parts := parts + [Join(lines, "<br>")];
    }
    var options: seq<Choice> := [];
    if flow.startNode != "" {
      options := options + [Choice(MainMenuTitle, "FLOW:" + flow.startNode)];
    }
    assert options == MenuOption(flow);
    assert parts == parts0 + (if lines != [] then [Join(lines, "<br>")] else []);
    return Reply(Html(if parts != [] then Join(parts, "<br>") else AdvisorFallback), Some(options));
  }

  /** The advisor's lines as the branch collects them. */
  method RenderAdvisorLines(node: Node, text: string) returns (lines: seq<string>)
    requires node.Node?
    ensures lines == AdvisorLines(node, text)
  {
    var digits := PhoneDigits(node);
    var link := if digits != "" then WaMeLink(digits) else "";
    lines := [];
    if text == "" {
      lines := lines + [AdvisorDefault];
    }
    ghost var head := lines;
    assert head == if text == "" then [AdvisorDefault] else [];
    var shown := RenderLinks([], LinkSlots(node.links));
    assert shown == LinkLines(LinkSlots(node.links));
    lines := lines + shown;
    ghost var tail := if link != "" then [ChatLine(link)] else [];
    assert tail == if digits != "" then [ChatLine(WaMeLink(digits))] else [];
    if link != "" {
      lines := lines + [ChatLine(link)];
    }
    assert lines == head + shown + tail;
  }

  /** The loop over the advisor's four links. */
  method RenderLinks(lines0: seq<string>, slots: seq<(string, LinkEntry)>) returns (lines: seq<string>)
    ensures lines == lines0 + LinkLines(slots)
  {
    lines := lines0;
    var j := 0;
    while j < |slots|
      invariant 0 <= j <= |slots|
      invariant lines == lines0 + LinkLines(slots[..j])
    {
      assert slots[..j + 1][..j] == slots[..j];
      var (caption, entry) := slots[j];
      if entry.enabled && Strip(entry.url) != "" {
        lines := lines + [LinkLine(caption, entry)];
      }
      j := j + 1;
    }
    assert slots[..|slots|] == slots;
  }

  /** The loop over the first three buttons. */
  method RenderButtons(buttons: seq<Button>) returns (options: seq<Choice>)
    ensures options == ButtonChoices(buttons)
  {
    options := [];
    var k := 0;
    while k < |buttons|
      invariant 0 <= k <= |buttons|
      invariant options == ButtonChoices(buttons[..k])
    {
      assert buttons[..k + 1][..k] == buttons[..k];
      var b := buttons[k];
      var title := ButtonTitle(b);
      assert ButtonChoices(buttons[..k + 1])
        == options + (if ButtonTarget(b) != "" then [Choice(title, ButtonTarget(b))] else []);
      if b.next != "" {
        options := options + [Choice(title, "FLOW:" + b.next)];
      } else if b.id != "" {
        options := options + [Choice(title, b.id)];
      }
      k := k + 1;
    }
    assert buttons[..|buttons|] == buttons;
  }

  /** An advisor node always answers in HTML with the main-menu option; any
      other node answers in HTML exactly when it has text or a shown asset,
      offers options exactly when it has a usable button or is an action
      node with a `next` (its buttons whenever it has any), and never
      offers an empty list of options. */
  lemma RenderNodeShape(flow: Flow, node: Node)
    requires node.Node?
    ensures IsAdvisor(node) ==>
      RenderNode(flow, node).body.Html? && RenderNode(flow, node).options == Some(MenuOption(flow))
    ensures !IsAdvisor(node) ==>
      && (RenderNode(flow, node).body.Html? <==> Strip(node.text) != "" || AssetParts(Take(node.assets, 5)) != [])
      && (RenderNode(flow, node).options.Some? ==> RenderNode(flow, node).options.value != [])
      && (RenderNode(flow, node).options.Some? <==>
            ButtonChoices(Take(node.buttons, 3)) != [] || (IsAction(node) && node.next != ""))
      && (ButtonChoices(Take(node.buttons, 3)) != [] ==>
            RenderNode(flow, node).options == Some(ButtonChoices(Take(node.buttons, 3))))
  {
  }

  /** An id that names no node (or an empty one) previews as "step not found". */
  lemma PreviewMissing(flow: Flow, id: string, fuel: nat)
    requires fuel >= 1 && Find(flow, id).None?
    ensures PreviewNode(flow, id, fuel) == Built(Reply(Plain(NodeNotFound), None))
  {
  }

  /** A start or trigger node with a `next` shows whatever its target shows. */
  lemma PreviewRedirects(flow: Flow, id: string, node: Node, fuel: nat)
    requires fuel >= 1 && Find(flow, id) == Some(node) && Redirects(node)
    ensures PreviewNode(flow, id, fuel) == PreviewNode(flow, node.next, fuel - 1)
  {
  }

  /** At most five assets and at most three buttons are shown, and every
      option a button gives is titled and leads somewhere. */
  lemma PreviewBounds(node: Node)
    requires node.Node?
    ensures |AssetParts(Take(node.assets, 5))| <= 5
    ensures |ButtonChoices(Take(node.buttons, 3))| <= 3
  {
  }

  /** An action node with a `next` and no usable buttons offers exactly one
      option, '➡️ Siguiente', to its next node; with a usable button it
      offers the buttons instead. */
  lemma ActionOffersNext(flow: Flow, node: Node)
    requires node.Node? && IsAction(node) && node.next != ""
    ensures ButtonChoices(Take(node.buttons, 3)) == [] ==>
      RenderNode(flow, node).options == Some([Choice(NextTitle, "FLOW:" + node.next)])
    ensures ButtonChoices(Take(node.buttons, 3)) != [] ==>
      RenderNode(flow, node).options == Some(ButtonChoices(Take(node.buttons, 3)))
  {
  }

  /** A plain `response` is only ever a single space: a node with text
      always renders that text as HTML, so the `text or ' '` fallback can
      only fall back. */
  lemma PlainIsBlank(flow: Flow, node: Node)
    requires node.Node?
    ensures RenderNode(flow, node).body.Plain? ==> RenderNode(flow, node).body == Plain(" ")
    ensures RenderNode(flow, node).body.Plain? <==>
      !IsAdvisor(node) && Strip(node.text) == "" && AssetParts(Take(node.assets, 5)) == []
  {
  }

  /** Replacing a line break by `<br>` changes any text that has one. */
  lemma {:induction false} ReplaceChanges(s: string)
    requires '\n' in s
    ensures Replace(s, '\n', "<br>") != s
    ensures '\n' !in Replace(s, '\n', "<br>")
    decreases |s|
  {
    if s[0] == '\n' {
      assert Replace(s, '\n', "<br>")[0] == '<';
    } else {
      ReplaceChanges(s[1..]);
      assert Replace(s, '\n', "<br>") == [s[0]] + Replace(s[1..], '\n', "<br>");
      assert s == [s[0]] + s[1..];
    }
  }

  /** A chain that previews within some fuel previews the same with more:
      the fuel bound only decides when the recursion error happens. */
  lemma {:induction false} PreviewFuelMonotone(flow: Flow, id: string, fuel: nat)
    requires PreviewNode(flow, id, fuel) != Overflow
    ensures PreviewNode(flow, id, fuel + 1) == PreviewNode(flow, id, fuel)
    decreases fuel
  {
    match Find(flow, id)
    case None =>
    case Some(node) =>
      if Redirects(node) {
        PreviewFuelMonotone(flow, node.next, fuel - 1);
      }
  }

  /** A request to the preview endpoint: whether it is a POST, and its
      `payload` and `message` form fields ("" when absent). */
  datatype PreviewRequest = PreviewRequest(isPost: bool, payload: string, message: string)

  /** The endpoint's answer: 405 for other methods, a response record, or a
      server error when the recursion error escapes. */
  datatype PreviewResponse = NotAllowed | Respond(reply: Reply) | ServerError

  /** The response record a built preview gives, or the server error the
      recursion error becomes. */
  function Served(p: Preview): (r: PreviewResponse)
    ensures p.Built? ==> r == Respond(p.reply)
    ensures p.Overflow? ==> r == ServerError
    ensures !r.NotAllowed?
  {
    match p
    case Built(reply) => Respond(reply)
    case Overflow => ServerError
  }

  /** `send_message_preview`: a payload is routed like a button press; free
      text runs the trigger matcher and falls back to the start node. */
  function PreviewAnswer(flow: Flow, req: PreviewRequest, fuel: nat): PreviewResponse {
    if !req.isPost then NotAllowed
    else if req.payload != "" then PayloadAnswer(flow, req.payload, fuel)
    else TextAnswer(flow, req.message, fuel)
  }

  /** A payload, routed like a button press. */
  function PayloadAnswer(flow: Flow, payload: string, fuel: nat): (r: PreviewResponse)
    ensures !r.NotAllowed?
  {
    match RoutePayload(payload)
    case GoTo(id) => Served(PreviewNode(flow, id, fuel))
    case MainMenu =>
      if flow.startNode != "" then Served(PreviewNode(flow, flow.startNode, fuel))
      else Respond(PlainReply(" "))
    case Ignore => Respond(PlainReply(" "))
  }

  /** Free text: the first trigger that fires, else the start node. */
  function TextAnswer(flow: Flow, message: string, fuel: nat): (r: PreviewResponse)
    ensures !r.NotAllowed?
  {
    var low := Normalize(message);
    if low == "" then Respond(PlainReply(" "))
    else if flow.enabled && flow.nodes != [] && FirstTrigger(flow.nodes, low).Some? && FirstTrigger(flow.nodes, low).value != "" then
      Served(PreviewNode(flow, FirstTrigger(flow.nodes, low).value, fuel))
    else if flow.enabled && flow.nodes != [] && flow.startNode != "" then
      Served(PreviewNode(flow, flow.startNode, fuel))
    else Respond(PlainReply(NoMatch))
  }

  /** `send_message_preview` as the source runs it, with the trigger scan and
      the node preview as loops. */
  method SendMessagePreview(flow: Flow, req: PreviewRequest, fuel: nat) returns (r: PreviewResponse)
    ensures r == PreviewAnswer(flow, req, fuel)
  {
    if !req.isPost {
      return NotAllowed;
    }
    if req.payload != "" {
      match RoutePayload(req.payload) {
        case GoTo(id) =>
          var p := BuildPreviewForNode(flow, id, fuel);
          return Served(p);
        case MainMenu =>
          if flow.startNode != "" {
            var p := BuildPreviewForNode(flow, flow.startNode, fuel);
            return Served(p);
          }
          return Respond(PlainReply(" "));
        case Ignore =>
          return Respond(PlainReply(" "));
      }
    }
    var low := Normalize(req.message);
    if low == "" {
      return Respond(PlainReply(" "));
    }
    if flow.enabled && flow.nodes != [] {
      var target := MatchTrigger(flow, low);
      if target.Some? && target.value != "" {
        var p := BuildPreviewForNode(flow, target.value, fuel);
        return Served(p);
      }
      if flow.startNode != "" {
        var p := BuildPreviewForNode(flow, flow.startNode, fuel);
        return Served(p);
      }
    }
    return Respond(PlainReply(NoMatch));
  }

  /** Only POST is answered. */
  lemma PreviewNeedsPost(flow: Flow, req: PreviewRequest, fuel: nat)
    ensures PreviewAnswer(flow, req, fuel) == NotAllowed <==> !req.isPost
  {
  }

  /** A payload decides the answer on its own: the message is not looked at,
      a `FLOW:<id>` payload previews the node after the prefix, and a payload
      that is neither that nor the main menu gets a single space. */
  lemma PayloadRouting(flow: Flow, req: PreviewRequest, message: string, fuel: nat)
    requires req.isPost && req.payload != ""
    ensures PreviewAnswer(flow, req, fuel) == PreviewAnswer(flow, req.(message := message), fuel)
    ensures "FLOW:" <= Upper(Strip(req.payload)) ==>
      PreviewAnswer(flow, req, fuel) == Served(PreviewNode(flow, Strip(req.payload)[5..], fuel))
    ensures !("FLOW:" <= Upper(Strip(req.payload))) && Upper(Strip(req.payload)) != "MENU_PRINCIPAL" ==>
      PreviewAnswer(flow, req, fuel) == Respond(Reply(Plain(" "), None))
  {
    if "FLOW:" <= Upper(Strip(req.payload)) {
      RouteTakesSuffix(req.payload);
    }
  }

  /** Free text against a disabled or empty flow finds no match, and blank
      text is answered with a single space. */
  lemma FreeTextFallbacks(flow: Flow, req: PreviewRequest, fuel: nat)
    requires req.isPost && req.payload == ""
    ensures Normalize(req.message) == "" ==> PreviewAnswer(flow, req, fuel) == Respond(Reply(Plain(" "), None))
    ensures Normalize(req.message) != "" && (!flow.enabled || flow.nodes == []) ==>
      PreviewAnswer(flow, req, fuel) == Respond(Reply(Plain(NoMatch), None))
  {
  }
}

=== FILE: services.dfy ===
/**
 * Outbound WhatsApp Cloud API messages: the request bodies for text,
 * reply-button, image and document messages, the endpoint they go to, and
 * the log row each send writes. The HTTP exchange itself is the provider's
 * scripted answer; everything the code does with that answer is modelled.
 */
module Services {
  import opened Wrappers
  import opened Json
  import opened Strings
  import opened Models

  /** The Graph API endpoint for sending as `phoneNumberId`. */
  function WaUrl(graphVersion: string, phoneNumberId: string): string {
    "https://graph.facebook.com/" + graphVersion + "/" + phoneNumberId + "/messages"
  }

  /** The endpoint's path segments are exactly the host, the Graph API version,
      the sender's phone number id and `messages`. */
  lemma WaUrlSegments(graphVersion: string, phoneNumberId: string)
    requires '/' !in graphVersion && '/' !in phoneNumberId
    ensures Split(WaUrl(graphVersion, phoneNumberId), '/')
         == ["https:", "", "graph.facebook.com", graphVersion, phoneNumberId, "messages"]
  {
    var tail := graphVersion + ['/'] + (phoneNumberId + ['/'] + "messages");
    TailSegments(graphVersion, phoneNumberId);
    HostSegments(tail);
    assert WaUrl(graphVersion, phoneNumberId) == "https://graph.facebook.com/" + tail;
  }

  lemma TailSegments(graphVersion: string, phoneNumberId: string)
    requires '/' !in graphVersion && '/' !in phoneNumberId
    ensures Split(graphVersion + ['/'] + (phoneNumberId + ['/'] + "messages"), '/')
         == [graphVersion, phoneNumberId, "messages"]
  {
    SplitWhole("messages", '/');
    SplitAfter(phoneNumberId, '/', "messages");
    SplitAfter(graphVersion, '/', phoneNumberId + ['/'] + "messages");
  }

  /** The fixed front of the endpoint splits into its scheme, the empty
      segment between the two slashes, and the host. */
  lemma HostSegments(rest: string)
    ensures Split("https://graph.facebook.com/" + rest, '/') == ["https:", "", "graph.facebook.com"] + Split(rest, '/')
  {
    var t1 := "graph.facebook.com" + ['/'] + rest;
    var t0 := "" + ['/'] + t1;
    HostSlashFree();
    HostSpelled(rest);
    SplitAfter("graph.facebook.com", '/', rest);
    SplitAfter("", '/', t1);
    SplitAfter("https:", '/', t0);
  }

  lemma HostSlashFree()
    ensures '/' !in "https:" && '/' !in "graph.facebook.com"
  {
  }

  lemma HostSpelled(rest: string)
    ensures "https://graph.facebook.com/" + rest == "https:" + ['/'] + ("" + ['/'] + ("graph.facebook.com" + ['/'] + rest))
  {
    assert "https://graph.facebook.com/" == "https:" + ['/'] + ['/'] + "graph.facebook.com" + ['/'];
  }

  /** A button as callers hand it over: `{'id': ..., 'title': ...}`, with ""
      standing for a missing or empty entry. */
  datatype ButtonSpec = ButtonSpec(id: string, title: string)

  /** Only buttons with both an id and a title are sent. */
  predicate Usable(b: ButtonSpec) {
    b.id != "" && b.title != ""
  }

  /** The usable buttons, in order, with titles cut to the provider's 20 characters. */
  function KeepUsable(bs: seq<ButtonSpec>): (r: seq<ButtonSpec>)
    ensures |r| <= |bs|
    ensures forall k :: 0 <= k < |r| ==> Usable(r[k]) && |r[k].title| <= 20
    decreases |bs|
  {
    if bs == [] then []
    else (if Usable(bs[0]) then [ButtonSpec(bs[0].id, Take(bs[0].title, 20))] else [])
         + KeepUsable(bs[1..])
  }

  /** Filtering distributes over concatenation: the buttons kept from a list
      are those kept from its front followed by those kept from its back,
      so the kept buttons stay in their original order. */
  lemma {:induction false} KeepUsableAppend(a: seq<ButtonSpec>, b: seq<ButtonSpec>)
    ensures KeepUsable(a + b) == KeepUsable(a) + KeepUsable(b)
    decreases |a|
  {
    if a == [] {
      assert a + b == b;
    } else {
      assert (a + b)[1..] == a[1..] + b;
      KeepUsableAppend(a[1..], b);
    }
  }

  /** The buttons of an interactive message: the usable ones among the first three. */
  function ReplyButtons(buttons: seq<ButtonSpec>): (r: seq<ButtonSpec>)
    ensures |r| <= 3 && |r| <= |buttons|
    ensures forall k :: 0 <= k < |r| ==> r[k].id != "" && r[k].title != "" && |r[k].title| <= 20
  {
    KeepUsable(Take(buttons, 3))
  }

  /** When the first three buttons are all usable they are all sent, in order,
      each with its id and its title cut to 20 characters. */
  lemma {:induction false} ReplyButtonsKeepsUsable(buttons: seq<ButtonSpec>)
    requires forall k :: 0 <= k < |buttons| && k < 3 ==> Usable(buttons[k])
    ensures |ReplyButtons(buttons)| == |Take(buttons, 3)|
    ensures forall k :: 0 <= k < |ReplyButtons(buttons)| ==>
      ReplyButtons(buttons)[k] == ButtonSpec(buttons[k].id, Take(buttons[k].title, 20))
  {
    AllUsableKept(Take(buttons, 3));
  }

  lemma {:induction false} AllUsableKept(bs: seq<ButtonSpec>)
    requires forall k :: 0 <= k < |bs| ==> Usable(bs[k])
    ensures |KeepUsable(bs)| == |bs|
    ensures forall k :: 0 <= k < |bs| ==> KeepUsable(bs)[k] == ButtonSpec(bs[k].id, Take(bs[k].title, 20))
    decreases |bs|
  {
    if bs != [] {
      AllUsableKept(bs[1..]);
      var r := KeepUsable(bs);
      forall k | 0 < k < |bs|
        ensures r[k] == ButtonSpec(bs[k].id, Take(bs[k].title, 20))
      {
        assert r[k] == KeepUsable(bs[1..])[k - 1];
        assert bs[1..][k - 1] == bs[k];
      }
    }
  }

  /** `{'type': 'reply', 'reply': {'id': ..., 'title': ...}}` */
  function ReplyButtonJson(b: ButtonSpec): Json {
    JObj([("type", JStr("reply")), ("reply", JObj([("id", JStr(b.id)), ("title", JStr(b.title))]))])
  }

  /** One request to the messages endpoint: who it goes to, the message type
      written to the log, and the JSON body posted. */
  datatype Outbound = Outbound(to: string, messageType: string, payload: Json)

  /** The fields every message body starts with, then the type-specific part. */
  function Envelope(to: string, messageType: string, content: Json): Json {
    JObj([("messaging_product", JStr("whatsapp")), ("to", JStr(to)), ("type", JStr(messageType)),
          (messageType, content)])
  }

  /** A message body is addressed to its recipient, is a WhatsApp message and
      names its own type, whose content sits under the key of that type. */
  predicate WellAddressed(m: Outbound) {
    && At(m.payload, ["messaging_product"]) == Some(JStr("whatsapp"))
    && At(m.payload, ["to"]) == Some(JStr(m.to))
    && At(m.payload, ["type"]) == Some(JStr(m.messageType))
    && Has(m.payload, m.messageType)
  }

  /** The envelope's own keys differ from each other and from the message types. */
  lemma EnvelopeKeys()
    ensures "messaging_product" != "to" && "messaging_product" != "type" && "to" != "type"
    ensures EnvelopeFree("text") && EnvelopeFree("interactive") && EnvelopeFree("image") && EnvelopeFree("document")
  {
    assert |"messaging_product"| == 17 && |"to"| == 2 && |"type"| == 4;
    assert "text"[1] != "type"[1];
    assert |"interactive"| == 11 && |"image"| == 5 && |"document"| == 8;
  }

  /** A message type that does not clash with the envelope's keys. */
  predicate EnvelopeFree(messageType: string) {
    messageType != "messaging_product" && messageType != "to" && messageType != "type"
  }

  /** The keys of the type-specific parts differ where they share a dictionary. */
  lemma ContentKeys()
    ensures "preview_url" != "body"
    ensures "type" != "body" && "type" != "action" && "body" != "action"
    ensures "link" != "caption" && "id" != "caption" && "filename" != "caption"
    ensures "link" != "filename" && "id" != "filename"
  {
    assert |"preview_url"| == 11 && |"body"| == 4 && |"action"| == 6;
    assert "type"[0] != "body"[0];
    assert |"link"| == 4 && |"id"| == 2 && |"filename"| == 8 && |"caption"| == 7;
  }

  lemma EnvelopeAddressed(to: string, messageType: string, content: Json)
    requires EnvelopeFree(messageType)
    ensures WellAddressed(Outbound(to, messageType, Envelope(to, messageType, content)))
    ensures Get(Envelope(to, messageType, content), messageType) == Some(content)
  {
    var env := Envelope(to, messageType, content);
    EnvelopeKeys();
    LookupAt(env.fields, "messaging_product", 0);
    AtOne(env, "messaging_product", JStr("whatsapp"));
    LookupAt(env.fields, "to", 1);
    AtOne(env, "to", JStr(to));
    LookupAt(env.fields, "type", 2);
    AtOne(env, "type", JStr(messageType));
    LookupAt(env.fields, messageType, 3);
  }

  /** A field of the type-specific part, read through the envelope. */
  lemma ContentAt(to: string, messageType: string, content: Json, i: nat)
    requires EnvelopeFree(messageType) && content.JObj? && i < |content.fields|
    requires forall j :: 0 <= j < i ==> content.fields[j].0 != content.fields[i].0
    ensures At(Envelope(to, messageType, content), [messageType, content.fields[i].0]) == Some(content.fields[i].1)
  {
    EnvelopeAddressed(to, messageType, content);
    LookupAt(content.fields, content.fields[i].0, i);
    AtTwo(Envelope(to, messageType, content), messageType, content.fields[i].0, content, content.fields[i].1);
  }

  /** The first field of a dictionary nested in the type-specific part. */
  lemma ContentAtFirst(to: string, messageType: string, content: Json, i: nat)
    requires EnvelopeFree(messageType) && content.JObj? && i < |content.fields|
    requires forall j :: 0 <= j < i ==> content.fields[j].0 != content.fields[i].0
    requires content.fields[i].1.JObj? && content.fields[i].1.fields != []
    ensures var inner := content.fields[i].1;
            At(Envelope(to, messageType, content), [messageType, content.fields[i].0, inner.fields[0].0])
              == Some(inner.fields[0].1)
  {
    var inner := content.fields[i].1;
    EnvelopeAddressed(to, messageType, content);
    LookupAt(content.fields, content.fields[i].0, i);
    LookupAt(inner.fields, inner.fields[0].0, 0);
    AtThree(Envelope(to, messageType, content), messageType, content.fields[i].0, inner.fields[0].0,
            content, inner, inner.fields[0].1);
  }

  /** `send_whatsapp_text`: the body goes out verbatim, without a link preview. */
  function TextMessage(to: string, text: string): (m: Outbound)
    ensures WellAddressed(m) && m.to == to && m.messageType == "text"
    ensures At(m.payload, ["text", "body"]) == Some(JStr(text))
    ensures At(m.payload, ["text", "preview_url"]) == Some(JBool(false))
  {
    EnvelopeKeys();
    EnvelopeAddressed(to, "text", TextContent(text));
    TextFields(to, text);
    Outbound(to, "text", Envelope(to, "text", TextContent(text)))
  }

  /** The text part of a text message. */
  function TextContent(text: string): Json {
    JObj([("preview_url", JBool(false)), ("body", JStr(text))])
  }

  lemma TextFields(to: string, text: string)
    ensures At(Envelope(to, "text", TextContent(text)), ["text", "body"]) == Some(JStr(text))
    ensures At(Envelope(to, "text", TextContent(text)), ["text", "preview_url"]) == Some(JBool(false))
  {
    EnvelopeKeys();
    ContentKeys();
    ContentAt(to, "text", TextContent(text), 0);
    ContentAt(to, "text", TextContent(text), 1);
  }

  /** The JSON list of reply buttons, one entry per button, in order. */
  function ButtonsJson(bs: seq<ButtonSpec>): (items: seq<Json>)
    ensures |items| == |bs|
    ensures forall k :: 0 <= k < |bs| ==> items[k] == ReplyButtonJson(bs[k])
  {
    seq(|bs|, k requires 0 <= k < |bs| => ReplyButtonJson(bs[k]))
  }

  /** `send_whatsapp_interactive_buttons`: a reply-button message whose buttons
      are the normalised `buttons`. */
  function ButtonsMessage(to: string, body: string, buttons: seq<ButtonSpec>): (m: Outbound)
    ensures WellAddressed(m) && m.to == to && m.messageType == "interactive"
    ensures At(m.payload, ["interactive", "type"]) == Some(JStr("button"))
    ensures At(m.payload, ["interactive", "body", "text"]) == Some(JStr(body))
    ensures At(m.payload, ["interactive", "action", "buttons"]) == Some(JArr(ButtonsJson(ReplyButtons(buttons))))
  {
    EnvelopeKeys();
    EnvelopeAddressed(to, "interactive", ButtonsContent(body, buttons));
    ButtonsTypeField(to, body, buttons);
    ButtonsBodyField(to, body, buttons);
    ButtonsActionField(to, body, buttons);
    Outbound(to, "interactive", Envelope(to, "interactive", ButtonsContent(body, buttons)))
  }

  /** The interactive part of a reply-button message. */
  function ButtonsContent(body: string, buttons: seq<ButtonSpec>): Json {
    JObj([("type", JStr("button")),
          ("body", JObj([("text", JStr(body))])),
          ("action", JObj([("buttons", JArr(ButtonsJson(ReplyButtons(buttons))))]))])
  }

  lemma ButtonsTypeField(to: string, body: string, buttons: seq<ButtonSpec>)
    ensures At(Envelope(to, "interactive", ButtonsContent(body, buttons)), ["interactive", "type"]) == Some(JStr("button"))
  {
    EnvelopeKeys();
    ContentAt(to, "interactive", ButtonsContent(body, buttons), 0);
  }

  lemma ButtonsBodyField(to: string, body: string, buttons: seq<ButtonSpec>)
    ensures At(Envelope(to, "interactive", ButtonsContent(body, buttons)), ["interactive", "body", "text"]) == Some(JStr(body))
  {
    EnvelopeKeys();
    ContentKeys();
    ContentAtFirst(to, "interactive", ButtonsContent(body, buttons), 1);
  }

  lemma ButtonsActionField(to: string, body: string, buttons: seq<ButtonSpec>)
    ensures At(Envelope(to, "interactive", ButtonsContent(body, buttons)), ["interactive", "action", "buttons"])
         == Some(JArr(ButtonsJson(ReplyButtons(buttons))))
  {
    EnvelopeKeys();
    ContentKeys();
    ContentAtFirst(to, "interactive", ButtonsContent(body, buttons), 2);
  }

  /** `send_whatsapp_image`: the link, and a caption only when one is given
      (`caption` is "" for Python's None or an empty caption). */
  function ImageMessage(to: string, link: string, caption: string): (m: Outbound)
    ensures WellAddressed(m) && m.to == to && m.messageType == "image"
    ensures At(m.payload, ["image", "link"]) == Some(JStr(link))
    ensures At(m.payload, ["image", "caption"]).Some? <==> caption != ""
    ensures caption != "" ==> At(m.payload, ["image", "caption"]) == Some(JStr(caption))
  {
    var content := JObj([("link", JStr(link))] + CaptionPart(caption));
    EnvelopeKeys();
    ContentKeys();
    EnvelopeAddressed(to, "image", content);
    ContentAt(to, "image", content, 0);
    CaptionField(Envelope(to, "image", content), "image", [("link", JStr(link))], caption);
    Outbound(to, "image", Envelope(to, "image", content))
  }

  /** Where a document comes from: a public link, or a media id uploaded before. */
  datatype DocumentSource = ByLink(url: string) | ByMediaId(mediaId: string) {
    /** The key and value that name the file in the request. */
    function Field(): (f: (string, Json))
      ensures f.0 == "link" || f.0 == "id"
    {
      match this
      case ByLink(url) => ("link", JStr(url))
      case ByMediaId(id) => ("id", JStr(id))
    }
  }

  /** `send_whatsapp_document` / `send_whatsapp_document_id`: the link or the
      media id, the file name, and a caption only when one is given. */
  function DocumentMessage(to: string, source: DocumentSource, filename: string, caption: string): (m: Outbound)
    ensures WellAddressed(m) && m.to == to && m.messageType == "document"
    ensures source.ByLink? ==> At(m.payload, ["document", "link"]) == Some(JStr(source.url))
    ensures source.ByMediaId? ==> At(m.payload, ["document", "id"]) == Some(JStr(source.mediaId))
    ensures At(m.payload, ["document", "filename"]) == Some(JStr(filename))
    ensures At(m.payload, ["document", "caption"]).Some? <==> caption != ""
    ensures caption != "" ==> At(m.payload, ["document", "caption"]) == Some(JStr(caption))
  {
    EnvelopeKeys();
    EnvelopeAddressed(to, "document", DocumentContent(source, filename, caption));
    DocumentFields(to, source, filename, caption);
    DocumentCaption(to, source, filename, caption);
    Outbound(to, "document", Envelope(to, "document", DocumentContent(source, filename, caption)))
  }

  /** The document part of a document message. */
  function DocumentContent(source: DocumentSource, filename: string, caption: string): Json {
    JObj([source.Field(), ("filename", JStr(filename))] + CaptionPart(caption))
  }

  lemma DocumentFields(to: string, source: DocumentSource, filename: string, caption: string)
    ensures var env := Envelope(to, "document", DocumentContent(source, filename, caption));
            && (source.ByLink? ==> At(env, ["document", "link"]) == Some(JStr(source.url)))
            && (source.ByMediaId? ==> At(env, ["document", "id"]) == Some(JStr(source.mediaId)))
            && At(env, ["document", "filename"]) == Some(JStr(filename))
  {
    EnvelopeKeys();
    ContentKeys();
    ContentAt(to, "document", DocumentContent(source, filename, caption), 0);
    ContentAt(to, "document", DocumentContent(source, filename, caption), 1);
  }

  lemma DocumentCaption(to: string, source: DocumentSource, filename: string, caption: string)
    ensures var env := Envelope(to, "document", DocumentContent(source, filename, caption));
            && (At(env, ["document", "caption"]).Some? <==> caption != "")
            && (caption != "" ==> At(env, ["document", "caption"]) == Some(JStr(caption)))
  {
    var front := [source.Field(), ("filename", JStr(filename))];
    EnvelopeKeys();
    ContentKeys();
    EnvelopeAddressed(to, "document", DocumentContent(source, filename, caption));
    CaptionField(Envelope(to, "document", DocumentContent(source, filename, caption)), "document", front, caption);
  }

  /** The caption field, present only when a caption is given. */
  function CaptionPart(caption: string): seq<(string, Json)> {
    if caption != "" then [("caption", JStr(caption))] else []
  }

  /** The caption key is present exactly when a caption was given. */
  lemma CaptionField(env: Json, messageType: string, front: seq<(string, Json)>, caption: string)
    requires Get(env, messageType) == Some(JObj(front + CaptionPart(caption)))
    requires forall k :: 0 <= k < |front| ==> front[k].0 != "caption"
    ensures At(env, [messageType, "caption"]).Some? <==> caption != ""
    ensures caption != "" ==> At(env, [messageType, "caption"]) == Some(JStr(caption))
  {
    var fields := front + CaptionPart(caption);
    assert [messageType, "caption"][1..] == ["caption"];
    assert ["caption"][1..] == [];
    if caption != "" {
      assert forall k :: 0 <= k < |front| ==> fields[k] == front[k];
      LookupAt(fields, "caption", |front|);
    } else {
      assert fields == front;
    }
  }

  /** What the provider answered: an HTTP response (whether it was 2xx, and
      its decoded body, or `{'text': ...}` when that was not JSON), or no
      response at all because `requests.post` raised. */
  datatype Response = Answered(ok: bool, data: Json) | Unreachable

  /** Python's `repr` of a decoded JSON value (quotes inside strings are not escaped). */
  function PyRepr(j: Json): (r: string)
    ensures r != ""
    decreases j
  {
    match j
    case JNull => "None"
    case JBool(b) => if b then "True" else "False"
    case JInt(i) => if i < 0 then "-" + NatToString(-i) else NatToString(i)
    case JStr(s) => "'" + s + "'"
    case JArr(items) =>
      "[" + Join(seq(|items|, k requires 0 <= k < |items| => PyRepr(items[k])), ", ") + "]"
    case JObj(fields) =>
      "{" + Join(seq(|fields|, k requires 0 <= k < |fields| => "'" + fields[k].0 + "': " + PyRepr(fields[k].1)), ", ") + "}"
  }

  /** Python's `str(data)`: a string is itself, anything else its `repr`. */
  function PyStr(j: Json): (r: string)
    ensures r == "" <==> j == JStr("")
  {
    if j.JStr? then j.s else PyRepr(j)
  }

  /** The log row a send writes once the provider has answered. */
  function OutLog(bot: Bot, m: Outbound, ok: bool, data: Json, at: int): (row: MessageLog)
    ensures row.direction == Out && row.bot == bot.id
    ensures row.waFrom == bot.phoneNumberId && row.waTo == m.to
    ensures row.messageType == m.messageType
    ensures row.status == (if ok then "sent" else "error")
    ensures row.error == "" <==> (ok || data == JStr(""))
    ensures At(row.payload, ["request"]) == Some(m.payload)
    ensures At(row.payload, ["response"]) == Some(data)
    ensures row.createdAt == at
  {
    var payload := JObj([("request", m.payload), ("response", data)]);
    LookupAt(payload.fields, "request", 0);
    LookupAt(payload.fields, "response", 1);
    MessageLog(bot.id, Out, bot.phoneNumberId, m.to, m.messageType,
               payload,
               if ok then "sent" else "error",
               if ok then "" else PyStr(data), at)
  }

  /** What a `send_whatsapp_*` call hands back: the decoded body, or an
      exception (the connection failed, or `raise_for_status` fired). */
  datatype SendOutcome = Delivered(data: Json) | Raised

  /** One send: the log gains a row whenever the provider answered (before
      `raise_for_status` is consulted), and the call raises unless the answer
      was a 2xx. */
  function Deliver(rows: seq<MessageLog>, bot: Bot, m: Outbound, resp: Response, at: int): (r: (seq<MessageLog>, SendOutcome))
    ensures resp.Answered? ==> r.0 == rows + [OutLog(bot, m, resp.ok, resp.data, at)]
    ensures resp.Unreachable? ==> r.0 == rows
    ensures r.1.Raised? <==> (resp.Unreachable? || !resp.ok)
    ensures r.1.Delivered? ==> r.1.data == resp.data
  {
    match resp
    case Unreachable => (rows, Raised)
    case Answered(ok, data) =>
      (rows + [OutLog(bot, m, ok, data, at)], if ok then Delivered(data) else Raised)
  }

  /** The message log table together with the provider it sends through.
      `provider(n)` is the answer to the n-th request; `calls` counts requests. */
  class MessageTable {
    var rows: seq<MessageLog>
    var calls: nat
    const provider: nat -> Response

    constructor (provider: nat -> Response)
      ensures rows == [] && calls == 0 && this.provider == provider
    {
      rows := [];
      calls := 0;
      this.provider := provider;
    }

    /** Writes a row without contacting the provider (an inbound message). */
    method Record(row: MessageLog)
      modifies this
      ensures rows == old(rows) + [row] && calls == old(calls)
    {
      rows := rows + [row];
    }

    /** Posts one message, logs the exchange and reports the outcome. */
    method Post(bot: Bot, m: Outbound, at: int) returns (outcome: SendOutcome)
      modifies this
      ensures calls == old(calls) + 1
      ensures (rows, outcome) == Deliver(old(rows), bot, m, provider(old(calls)), at)
    {
      var resp := provider(calls);
      calls := calls + 1;
      match resp {
        case Unreachable =>
          outcome := Raised;
        case Answered(ok, data) =>
          rows := rows + [OutLog(bot, m, ok, data, at)];
          outcome := if ok then Delivered(data) else Raised;
      }
    }

    method SendText(bot: Bot, to: string, text: string, at: int) returns (outcome: SendOutcome)
      modifies this
      ensures calls == old(calls) + 1
      ensures (rows, outcome) == Deliver(old(rows), bot, TextMessage(to, text), provider(old(calls)), at)
    {
      outcome := Post(bot, TextMessage(to, text), at);
    }

    method SendInteractiveButtons(bot: Bot, to: string, body: string, buttons: seq<ButtonSpec>, at: int)
      returns (outcome: SendOutcome)
      modifies this
      ensures calls == old(calls) + 1
      ensures (rows, outcome) == Deliver(old(rows), bot, ButtonsMessage(to, body, buttons), provider(old(calls)), at)
    {
      outcome := Post(bot, ButtonsMessage(to, body, buttons), at);
    }

    method SendImage(bot: Bot, to: string, link: string, caption: string, at: int) returns (outcome: SendOutcome)
      modifies this
      ensures calls == old(calls) + 1
      ensures (rows, outcome) == Deliver(old(rows), bot, ImageMessage(to, link, caption), provider(old(calls)), at)
    {
      outcome := Post(bot, ImageMessage(to, link, caption), at);
    }

    method SendDocument(bot: Bot, to: string, link: string, filename: string, caption: string, at: int)
      returns (outcome: SendOutcome)
      modifies this
      ensures calls == old(calls) + 1
      ensures (rows, outcome) == Deliver(old(rows), bot, DocumentMessage(to, ByLink(link), filename, caption), provider(old(calls)), at)
    {
      outcome := Post(bot, DocumentMessage(to, ByLink(link), filename, caption), at);
    }

    method SendDocumentId(bot: Bot, to: string, mediaId: string, filename: string, caption: string, at: int)
      returns (outcome: SendOutcome)
      modifies this
      ensures calls == old(calls) + 1
      ensures (rows, outcome) == Deliver(old(rows), bot, DocumentMessage(to, ByMediaId(mediaId), filename, caption), provider(old(calls)), at)
    {
      outcome := Post(bot, DocumentMessage(to, ByMediaId(mediaId), filename, caption), at);
    }
  }
}

=== FILE: strings.dfy ===
/**
 * The string operations the Python back end and the JavaScript bridge rely
 * on: whitespace stripping, case mapping, splitting and joining, substring
 * search, character replacement and decimal number parsing.
 *
 * Case mapping covers ASCII and the Latin-1 letters that map one to one
 * (enough for the Spanish text the bot handles); whitespace is the exact set
 * each language strips.
 */
module Strings {
  import opened Wrappers

  /** Which language's notion of whitespace a trim uses. */
  datatype Charset = Py | Js

  /** Python's `str.isspace()` (what `str.strip()` removes) or ECMAScript's
      WhiteSpace and LineTerminator (what `String.prototype.trim` removes). */
  predicate IsSpace(cs: Charset, c: char) {
    || c == ' ' || ('\t' <= c <= '\r') || c == '\U{A0}' || c == '\U{1680}'
    || ('\U{2000}' <= c <= '\U{200A}') || c == '\U{2028}' || c == '\U{2029}'
    || c == '\U{202F}' || c == '\U{205F}' || c == '\U{3000}'
    || (cs == Py && (('\U{1C}' <= c <= '\U{1F}') || c == '\U{85}'))
    || (cs == Js && c == '\U{FEFF}')
  }

  /** Drops leading whitespace. */
  function TrimStart(cs: Charset, s: string): (r: string)
    ensures |r| <= |s| && r == s[|s| - |r|..]
    ensures r == [] || !IsSpace(cs, r[0])
  {
    if s != [] && IsSpace(cs, s[0]) then TrimStart(cs, s[1..]) else s
  }

  /** Everything `TrimStart` drops is whitespace. */
  lemma {:induction false} TrimStartDropsSpace(cs: Charset, s: string)
    ensures forall i :: 0 <= i < |s| - |TrimStart(cs, s)| ==> IsSpace(cs, s[i])
    decreases |s|
  {
    if s != [] && IsSpace(cs, s[0]) {
      TrimStartDropsSpace(cs, s[1..]);
      assert forall i :: 1 <= i < |s| ==> s[i] == s[1..][i - 1];
    }
  }

  /** Drops trailing whitespace. */
  function TrimEnd(cs: Charset, s: string): (r: string)
    ensures |r| <= |s| && r == s[..|r|]
    ensures r == [] || !IsSpace(cs, r[|r| - 1])
  {
    if s != [] && IsSpace(cs, s[|s| - 1]) then TrimEnd(cs, s[..|s| - 1]) else s
  }

  /** Everything `TrimEnd` drops is whitespace. */
  lemma {:induction false} TrimEndDropsSpace(cs: Charset, s: string)
    ensures forall i :: |TrimEnd(cs, s)| <= i < |s| ==> IsSpace(cs, s[i])
    decreases |s|
  {
    if s != [] && IsSpace(cs, s[|s| - 1]) {
      TrimEndDropsSpace(cs, s[..|s| - 1]);
    }
  }

  /** Python's `str.strip()`. */
  function Strip(s: string): string {
    TrimEnd(Py, TrimStart(Py, s))
  }

  /** JavaScript's `String.prototype.trim()`. */
  function Trim(s: string): string {
    TrimEnd(Js, TrimStart(Js, s))
  }

  /** Stripping twice strips nothing more. */
  lemma {:induction false} StripIdempotent(s: string)
    ensures Strip(Strip(s)) == Strip(s)
  {
    var t := TrimStart(Py, s);
    var r := TrimEnd(Py, t);
    if r != [] {
      assert r[0] == t[0];
      assert TrimStart(Py, r) == r;
      assert TrimEnd(Py, r) == r;
    }
  }

  /** Trimming twice trims nothing more. */
  lemma {:induction false} TrimIdempotent(s: string)
    ensures Trim(Trim(s)) == Trim(s)
  {
    var t := TrimStart(Js, s);
    var r := TrimEnd(Js, t);
    if r != [] {
      assert r[0] == t[0];
      assert TrimStart(Js, r) == r;
      assert TrimEnd(Js, r) == r;
    }
  }

  /** One character through Python's `str.lower()` / JavaScript's `toLowerCase()`. */
  function LowerChar(c: char): char {
    if 'A' <= c <= 'Z' || ('\U{C0}' <= c <= '\U{DE}' && c != '\U{D7}') then (c as int + 32) as char else c
  }

  /** One character through Python's `str.upper()`. */
  function UpperChar(c: char): char {
    if 'a' <= c <= 'z' || ('\U{E0}' <= c <= '\U{FE}' && c != '\U{F7}') then (c as int - 32) as char else c
  }

  function Lower(s: string): string {
    seq(|s|, i requires 0 <= i < |s| => LowerChar(s[i]))
  }

  function Upper(s: string): string {
    seq(|s|, i requires 0 <= i < |s| => UpperChar(s[i]))
  }

  /** Lower-casing is idempotent: a lowered string is its own lower case. */
  lemma LowerIdempotent(s: string)
    ensures Lower(Lower(s)) == Lower(s)
  {
    assert forall i :: 0 <= i < |s| ==> LowerChar(LowerChar(s[i])) == LowerChar(s[i]);
  }

  /** Case mapping never turns a non-space into a space or back. */
  lemma LowerKeepsSpaces(cs: Charset, c: char)
    ensures IsSpace(cs, LowerChar(c)) == IsSpace(cs, c)
  {
  }

  /** Python's `str.split(sep)` for a one-character separator. */
  function Split(s: string, sep: char): (parts: seq<string>)
    ensures |parts| >= 1
    ensures forall k :: 0 <= k < |parts| ==> sep !in parts[k]
    decreases |s|
  {
    if s == [] then [""]
    else
      var rest := Split(s[1..], sep);
      if s[0] == sep then [""] + rest
      else [[s[0]] + rest[0]] + rest[1..]
  }

  /** Python's `sep.join(parts)`. */
  function Join(parts: seq<string>, sep: string): string
    decreases |parts|
  {
    if |parts| == 0 then ""
    else if |parts| == 1 then parts[0]
    else parts[0] + sep + Join(parts[1..], sep)
  }

  /** Splitting on a character and joining the pieces back with it gives the input back. */
  lemma {:induction false} JoinSplit(s: string, sep: char)
    ensures Join(Split(s, sep), [sep]) == s
    decreases |s|
  {
    if s != [] {
      JoinSplit(s[1..], sep);
      var rest := Split(s[1..], sep);
      if s[0] == sep {
        assert Split(s, sep) == [""] + rest;
        assert s == [sep] + s[1..];
      } else {
        var parts := Split(s, sep);
        assert parts == [[s[0]] + rest[0]] + rest[1..];
        if |rest| == 1 {
          assert Join(rest, [sep]) == rest[0];
        } else {
          assert Join(rest, [sep]) == rest[0] + [sep] + Join(rest[1..], [sep]);
          assert parts[1..] == rest[1..];
        }
      }
    }
  }

  /** `needle` occurs in `hay` starting at index `i`. */
  predicate OccursAt(hay: string, needle: string, i: int) {
    0 <= i && i + |needle| <= |hay| && hay[i..i + |needle|] == needle
  }

  /** Splitting a piece free of the separator off the front of a string. */
  lemma {:induction false} SplitAfter(a: string, sep: char, b: string)
    requires sep !in a
    ensures Split(a + [sep] + b, sep) == [a] + Split(b, sep)
    decreases |a|
  {
    if a == [] {
      assert a + [sep] + b == [sep] + b;
      assert ([sep] + b)[1..] == b;
    } else {
      assert (a + [sep] + b)[1..] == a[1..] + [sep] + b;
      SplitAfter(a[1..], sep, b);
      assert [a[0]] + a[1..] == a;
    }
  }

  /** A string free of the separator splits into itself alone. */
  lemma {:induction false} SplitWhole(a: string, sep: char)
    requires sep !in a
    ensures Split(a, sep) == [a]
    decreases |a|
  {
    if a != [] {
      SplitWhole(a[1..], sep);
      assert [a[0]] + a[1..] == a;
    }
  }

  /** Python's `needle in hay` for strings. */
  predicate Contains(hay: string, needle: string) {
    exists i | 0 <= i <= |hay| - |needle| :: OccursAt(hay, needle, i)
  }

  /** Python's `s.replace(c, repl)` for a one-character pattern. */
  function Replace(s: string, c: char, repl: string): (r: string)
    ensures c !in repl ==> c !in r
    ensures (forall k :: 0 <= k < |s| ==> s[k] != c) ==> r == s
    decreases |s|
  {
    if s == [] then ""
    else (if s[0] == c then repl else [s[0]]) + Replace(s[1..], c, repl)
  }

  /** Joining pieces with `[c]` and then replacing `c` by `repl` is joining with `repl`,
      when the pieces contain no `c`. */
  lemma {:induction false} ReplaceJoin(parts: seq<string>, c: char, repl: string)
    requires forall k :: 0 <= k < |parts| ==> c !in parts[k]
    ensures Replace(Join(parts, [c]), c, repl) == Join(parts, repl)
    decreases |parts|
  {
    if |parts| > 1 {
      ReplaceJoin(parts[1..], c, repl);
      ReplaceJoinStep(parts, c, repl);
    } else if |parts| == 1 {
      ReplaceFree(parts[0], c, repl);
    }
  }

  /** The step of `ReplaceJoin`: a first piece without `c` in front of pieces that already agree. */
  lemma ReplaceJoinStep(parts: seq<string>, c: char, repl: string)
    requires |parts| > 1 && c !in parts[0]
    requires Replace(Join(parts[1..], [c]), c, repl) == Join(parts[1..], repl)
    ensures Replace(Join(parts, [c]), c, repl) == Join(parts, repl)
  {
    var first, rest := parts[0], Join(parts[1..], [c]);
    assert Join(parts, [c]) == (first + [c]) + rest;
    ReplaceAppend(first + [c], rest, c, repl);
    ReplaceAppend(first, [c], c, repl);
    assert Replace([c], c, repl) == repl + Replace([], c, repl);
    ReplaceFree(first, c, repl);
  }

  /** A string without `c` is left alone. */
  lemma ReplaceFree(s: string, c: char, repl: string)
    requires c !in s
    ensures Replace(s, c, repl) == s
  {
    assert forall k :: 0 <= k < |s| ==> s[k] != c;
  }

  /** Replacement works piece by piece. */
  lemma {:induction false} ReplaceAppend(a: string, b: string, c: char, repl: string)
    ensures Replace(a + b, c, repl) == Replace(a, c, repl) + Replace(b, c, repl)
    decreases |a|
  {
    if a != [] {
      var head := if a[0] == c then repl else [a[0]];
      assert (a + b)[0] == a[0] && (a + b)[1..] == a[1..] + b;
      ReplaceAppend(a[1..], b, c, repl);
      assert Replace(a + b, c, repl) == head + Replace(a[1..] + b, c, repl);
      assert Replace(a, c, repl) == head + Replace(a[1..], c, repl);
    } else {
      assert a + b == b;
    }
  }

  /** The part of `p` after its last `/` (Python's `os.path.basename`). */
  function Basename(p: string): (r: string)
    ensures '/' !in r
    ensures |r| <= |p|
    ensures p[|p| - |r|..] == r
    ensures |r| < |p| ==> p[|p| - |r| - 1] == '/'
    decreases |p|
  {
    if p == [] || p[|p| - 1] == '/' then ""
    else Basename(p[..|p| - 1]) + [p[|p| - 1]]
  }

  predicate IsDigit(c: char) {
    '0' <= c <= '9'
  }

  predicate AllDigits(s: string) {
    forall k :: 0 <= k < |s| ==> IsDigit(s[k])
  }

  /** The characters of a phone number kept by `ch.isdigit() or ch == '+'`,
      with `isdigit` read as the ASCII digits: only digits and plus signs
      remain, every one of them does, and a number made of nothing else is
      kept whole. */
  function PhoneChars(s: string): (r: string)
    ensures forall k :: 0 <= k < |r| ==> IsDigit(r[k]) || r[k] == '+'
    ensures forall c :: IsDigit(c) || c == '+' ==> multiset(r)[c] == multiset(s)[c]
    ensures (forall k :: 0 <= k < |s| ==> IsDigit(s[k]) || s[k] == '+') ==> r == s
    ensures |r| <= |s|
    decreases |s|
  {
    if s == [] then ""
    else
      assert s == [s[0]] + s[1..];
      (if IsDigit(s[0]) || s[0] == '+' then [s[0]] else "") + PhoneChars(s[1..])
  }

  /** Filtering keeps the order: the kept characters of a concatenation are
      those of its first part followed by those of its second. */
  lemma {:induction false} PhoneCharsAppend(a: string, b: string)
    ensures PhoneChars(a + b) == PhoneChars(a) + PhoneChars(b)
    decreases |a|
  {
    if a == [] {
      assert a + b == b;
    } else {
      assert (a + b)[1..] == a[1..] + b;
      PhoneCharsAppend(a[1..], b);
    }
  }

  /** Python's `s.lstrip(c)`. */
  function LStripChar(s: string, c: char): (r: string)
    ensures |r| <= |s| && r == s[|s| - |r|..]
    ensures r == [] || r[0] != c
    ensures forall k :: 0 <= k < |s| - |r| ==> s[k] == c
    decreases |s|
  {
    if s != [] && s[0] == c then
      var r := LStripChar(s[1..], c);
      assert forall k :: 1 <= k < |s| - |r| ==> s[k] == s[1..][k - 1];
      r
    else s
  }

  /** The value of a run of decimal digits. */
  function DigitsValue(ds: string): nat
    requires AllDigits(ds)
    decreases |ds|
  {
    if ds == [] then 0
    else DigitsValue(ds[..|ds| - 1]) * 10 + (ds[|ds| - 1] as int - '0' as int)
  }

  /** The decimal spelling of `n`, without leading zeros (JavaScript's `${n}`). */
  function NatToString(n: nat): (s: string)
    ensures s != [] && AllDigits(s)
    ensures n > 0 ==> s[0] != '0'
    decreases n
  {
    if n < 10 then [('0' as int + n) as char]
    else NatToString(n / 10) + [('0' as int + n % 10) as char]
  }

  /** Reading back a spelled-out number gives the number. */
  lemma {:induction false} NatToStringValue(n: nat)
    ensures DigitsValue(NatToString(n)) == n
    decreases n
  {
    if n >= 10 {
      NatToStringValue(n / 10);
      var s := NatToString(n);
      assert s[..|s| - 1] == NatToString(n / 10);
    }
  }

  /** The sign and the digits of a string, as Python's `int()` reads it
      once surrounding whitespace is stripped. */
  function PyInt(s: string): (r: Option<int>)
    ensures r.Some? ==> Strip(s) != []
  {
    var t := Strip(s);
    var neg := t != [] && t[0] == '-';
    var body := if t != [] && (t[0] == '-' || t[0] == '+') then t[1..] else t;
    if body != [] && AllDigits(body) then
      var v: int := DigitsValue(body);
      Some(if neg then -v else v)
    else None
  }

  /** `int()` of a spelled-out number is that number. */
  lemma PyIntOfNumber(n: nat)
    ensures PyInt(NatToString(n)) == Some(n)
  {
    var s := NatToString(n);
    StripDigits(s);
    assert s[0] != '-' && s[0] != '+';
    NatToStringValue(n);
  }

  lemma StripDigits(s: string)
    requires s != [] && AllDigits(s)
    ensures Strip(s) == s
  {
    assert IsDigit(s[0]) && !IsSpace(Py, s[0]);
    assert TrimStart(Py, s) == s;
    assert IsDigit(s[|s| - 1]) && !IsSpace(Py, s[|s| - 1]);
  }

  /** The longest run of digits `s` starts with. */
  function LeadingDigits(s: string): (ds: string)
    ensures ds <= s && AllDigits(ds)
    ensures |ds| < |s| ==> !IsDigit(s[|ds|])
    decreases |s|
  {
    if s != [] && IsDigit(s[0]) then [s[0]] + LeadingDigits(s[1..]) else ""
  }

  /** JavaScript's `parseInt(s, 10)`: leading whitespace, an optional sign and
      the longest run of digits; `None` stands for `NaN`. */
  function ParseIntJs(s: string): Option<int> {
    var t := TrimStart(Js, s);
    var neg := t != [] && t[0] == '-';
    var body := if t != [] && (t[0] == '-' || t[0] == '+') then t[1..] else t;
    var ds := LeadingDigits(body);
    if ds == [] then None
    else
      var v: int := DigitsValue(ds);
      Some(if neg then -v else v)
  }

  /** `parseInt` reads a spelled-out number back even when other text follows
      it, as long as that text does not start with a digit. */
  lemma ParseIntJsOfNumber(n: nat, rest: string)
    requires rest == [] || !IsDigit(rest[0])
    ensures ParseIntJs(NatToString(n) + rest) == Some(n)
  {
    var s := NatToString(n);
    var t := s + rest;
    assert !IsSpace(Js, t[0]);
    assert TrimStart(Js, t) == t;
    LeadingDigitsOf(s, rest);
    NatToStringValue(n);
  }

  lemma {:induction false} LeadingDigitsOf(ds: string, rest: string)
    requires AllDigits(ds)
    requires rest == [] || !IsDigit(rest[0])
    ensures LeadingDigits(ds + rest) == ds
    decreases |ds|
  {
    if ds != [] {
      assert (ds + rest)[1..] == ds[1..] + rest;
      LeadingDigitsOf(ds[1..], rest);
    } else {
      assert ds + rest == rest;
    }
  }
}

=== FILE: triggers.dfy ===
/**
 * Trigger matching: which node free text starts. Trigger nodes are tried in
 * the node map's order; a `keywords` trigger fires when one of its
 * comma-separated keywords occurs in the text, a `deeplink` trigger when the
 * text equals one of its lines, and `ai` triggers never fire here. The same
 * matcher serves the webhook and the preview.
 */
module Triggers {
  import opened Wrappers
  import opened Strings
  import opened FlowDef

  /** `[p.strip().lower() for p in pieces if p.strip()]` */
  function Tokens(pieces: seq<string>): (r: seq<string>)
    ensures |r| <= |pieces|
    ensures forall k :: 0 <= k < |r| ==> r[k] != ""
    decreases |pieces|
  {
    if pieces == [] then []
    else (if Strip(pieces[0]) != "" then [Lower(Strip(pieces[0]))] else []) + Tokens(pieces[1..])
  }

  /** `piece` is not blank and `t` is its stripped, lower-cased form. */
  predicate Yields(piece: string, t: string) {
    Strip(piece) != "" && t == Lower(Strip(piece))
  }

  /** Some piece yields `t`. */
  predicate SomeYields(pieces: seq<string>, t: string) {
    exists k :: 0 <= k < |pieces| && Yields(pieces[k], t)
  }

  /** A token is exactly the stripped, lower-cased form of a non-blank piece. */
  lemma {:induction false} TokensMembers(pieces: seq<string>, t: string)
    ensures t in Tokens(pieces) <==> SomeYields(pieces, t)
    decreases |pieces|
  {
    if pieces != [] {
      TokensMembers(pieces[1..], t);
      var head := if Strip(pieces[0]) != "" then [Lower(Strip(pieces[0]))] else [];
      assert Tokens(pieces) == head + Tokens(pieces[1..]);
      assert t in head <==> Yields(pieces[0], t);
      if exists k :: 0 <= k < |pieces[1..]| && Yields(pieces[1..][k], t) {
        var k :| 0 <= k < |pieces[1..]| && Yields(pieces[1..][k], t);
        assert pieces[k + 1] == pieces[1..][k];
      }
      if exists k :: 0 <= k < |pieces| && Yields(pieces[k], t) {
        var k :| 0 <= k < |pieces| && Yields(pieces[k], t);
        if k > 0 {
          assert pieces[1..][k - 1] == pieces[k];
        }
      }
    }
  }

  /** The keywords of a `keywords` trigger: its patterns split on commas. */
  function Keywords(patterns: string): seq<string> {
    Tokens(Split(Strip(patterns), ','))
  }

  /** The lines of a `deeplink` trigger: its patterns split on newlines. */
  function DeeplinkLines(patterns: string): seq<string> {
    Tokens(Split(Strip(patterns), '\n'))
  }

  /** `(node.get('trigger_type') or 'keywords').lower()` */
  function TriggerType(node: Node): string
    requires node.Node?
  {
    Lower(if node.triggerType != "" then node.triggerType else "keywords")
  }

  /** A node that takes part in matching: of type trigger (in any case), not
      explicitly disabled, and with patterns that are not blank. */
  predicate Armed(node: Node) {
    && node.Node?
    && Lower(node.kind) == "trigger"
    && node.enabled != Some(false)
    && Strip(node.patterns) != ""
  }

  /** Some keyword occurs in the text. */
  predicate AnyKeywordIn(text: string, keywords: seq<string>) {
    exists k | 0 <= k < |keywords| :: Contains(text, keywords[k])
  }

  /** An armed trigger node matches the (normalised) text. */
  predicate Fires(node: Node, text: string) {
    && Armed(node)
    && (|| (TriggerType(node) == "keywords" && AnyKeywordIn(text, Keywords(node.patterns)))
        || (TriggerType(node) == "deeplink" && text in DeeplinkLines(node.patterns)))
  }

  /** Where a fired trigger leads: its `next`, or else its own id. */
  function TargetOf(entry: (string, Node)): (t: string)
    requires entry.1.Node?
    ensures entry.1.next != "" ==> t == entry.1.next
    ensures entry.1.next == "" ==> t == entry.0
  {
    if entry.1.next != "" then entry.1.next else entry.0
  }

  /** The target of the first node that fires, in map order. */
  function FirstTrigger(nodes: seq<(string, Node)>, text: string): (r: Option<string>)
    ensures r.None? <==> forall i :: 0 <= i < |nodes| ==> !Fires(nodes[i].1, text)
    ensures forall i :: 0 <= i < |nodes| && Fires(nodes[i].1, text) && (forall j :: 0 <= j < i ==> !Fires(nodes[j].1, text))
              ==> r == Some(TargetOf(nodes[i]))
    decreases |nodes|
  {
    if nodes == [] then None
    else if Fires(nodes[0].1, text) then Some(TargetOf(nodes[0]))
    else
      var r := FirstTrigger(nodes[1..], text);
      FirstAfterHead(nodes, text, r);
      r
  }

  /** When the head does not fire, the first match of the whole list is the
      first match of its tail. */
  lemma FirstAfterHead(nodes: seq<(string, Node)>, text: string, r: Option<string>)
    requires nodes != [] && !Fires(nodes[0].1, text)
    requires r.None? <==> forall i :: 0 <= i < |nodes[1..]| ==> !Fires(nodes[1..][i].1, text)
    requires forall i :: 0 <= i < |nodes[1..]| && Fires(nodes[1..][i].1, text) && (forall j :: 0 <= j < i ==> !Fires(nodes[1..][j].1, text))
               ==> r == Some(TargetOf(nodes[1..][i]))
    ensures r.None? <==> forall i :: 0 <= i < |nodes| ==> !Fires(nodes[i].1, text)
    ensures forall i :: 0 <= i < |nodes| && Fires(nodes[i].1, text) && (forall j :: 0 <= j < i ==> !Fires(nodes[j].1, text))
              ==> r == Some(TargetOf(nodes[i]))
  {
    NoneAfterHead(nodes, text, r);
    forall i | 0 <= i < |nodes| && Fires(nodes[i].1, text) && (forall j :: 0 <= j < i ==> !Fires(nodes[j].1, text))
      ensures r == Some(TargetOf(nodes[i]))
    {
      SomeAfterHead(nodes, text, r, i);
    }
  }

  lemma NoneAfterHead(nodes: seq<(string, Node)>, text: string, r: Option<string>)
    requires nodes != [] && !Fires(nodes[0].1, text)
    requires r.None? <==> forall i :: 0 <= i < |nodes[1..]| ==> !Fires(nodes[1..][i].1, text)
    ensures r.None? <==> forall i :: 0 <= i < |nodes| ==> !Fires(nodes[i].1, text)
  {
    var tail := nodes[1..];
    assert forall i :: 0 < i < |nodes| ==> nodes[i] == tail[i - 1];
  }

  lemma SomeAfterHead(nodes: seq<(string, Node)>, text: string, r: Option<string>, i: int)
    requires nodes != [] && !Fires(nodes[0].1, text)
    requires forall i :: 0 <= i < |nodes[1..]| && Fires(nodes[1..][i].1, text) && (forall j :: 0 <= j < i ==> !Fires(nodes[1..][j].1, text))
               ==> r == Some(TargetOf(nodes[1..][i]))
    requires 0 <= i < |nodes| && Fires(nodes[i].1, text) && (forall j :: 0 <= j < i ==> !Fires(nodes[j].1, text))
    ensures r == Some(TargetOf(nodes[i]))
  {
    var tail := nodes[1..];
    var k := i - 1;
    assert k >= 0;
    assert tail[k] == nodes[i];
    assert forall j :: 0 <= j < k ==> !Fires(tail[j].1, text) by {
      forall j | 0 <= j < k ensures !Fires(tail[j].1, text) {
        assert tail[j] == nodes[j + 1];
      }
    }
    assert 0 <= k < |tail| && Fires(tail[k].1, text) && (forall j :: 0 <= j < k ==> !Fires(tail[j].1, text));
  }

  /** One step of the scan: the match from position `i` on is the node at
      `i` if it fires, else the match from `i + 1` on. */
  lemma FirstTriggerStep(nodes: seq<(string, Node)>, i: nat, text: string)
    requires i < |nodes|
    ensures FirstTrigger(nodes[i..], text)
         == if Fires(nodes[i].1, text) then Some(TargetOf(nodes[i])) else FirstTrigger(nodes[i + 1..], text)
  {
    assert nodes[i..][0] == nodes[i];
    assert nodes[i..][1..] == nodes[i + 1..];
  }

  /** `_match_trigger`: scans the node map in order and returns the target of
      the first trigger that fires, if any. */
  method MatchTrigger(flow: Flow, textLow: string) returns (target: Option<string>)
    ensures target == FirstTrigger(flow.nodes, textLow)
  {
    var nodes := flow.nodes;
    var i := 0;
    while i < |nodes|
      invariant 0 <= i <= |nodes|
      invariant FirstTrigger(nodes, textLow) == FirstTrigger(nodes[i..], textLow)
    {
      FirstTriggerStep(nodes, i, textLow);
      var (nid, node) := nodes[i];
      if node.Blank? || Lower(node.kind) != "trigger" {
        i := i + 1;
        continue;
      }
      if node.enabled == Some(false) {
        i := i + 1;
        continue;
      }
      var ttype := TriggerType(node);
      var pats := Strip(node.patterns);
      if pats == "" {
        i := i + 1;
        continue;
      }
      assert Armed(node);
      if ttype == "keywords" {
        var keywords := Keywords(node.patterns);
        if AnyKeywordIn(textLow, keywords) {
          assert Fires(node, textLow);
          return if node.next != "" then Some(node.next) else Some(nid);
        }
      } else if ttype == "deeplink" {
        var lines := DeeplinkLines(node.patterns);
        if textLow in lines {
          assert Fires(node, textLow);
          return if node.next != "" then Some(node.next) else Some(nid);
        }
      }
      assert !Fires(node, textLow);
      i := i + 1;
    }
    return None;
  }

  /** Only trigger nodes that are armed can fire: `ai` triggers, any other
      trigger type, disabled nodes and nodes without patterns never do. */
  lemma NeverFires(node: Node, text: string)
    requires node.Node?
    requires || Lower(node.kind) != "trigger" || node.enabled == Some(false) || Strip(node.patterns) == ""
             || (TriggerType(node) != "keywords" && TriggerType(node) != "deeplink")
    ensures !Fires(node, text)
  {
  }

  /** An armed node fires according to its trigger type alone. */
  lemma FiresByType(node: Node, text: string)
    requires Armed(node)
    ensures TriggerType(node) == "keywords" ==> (Fires(node, text) <==> AnyKeywordIn(text, Keywords(node.patterns)))
    ensures TriggerType(node) == "deeplink" ==> (Fires(node, text) <==> text in DeeplinkLines(node.patterns))
  {
    assert "deeplink" != "keywords";
  }

  /** A keyword trigger fires exactly when the text contains one of its
      non-blank comma-separated patterns, stripped and lower-cased. */
  lemma KeywordFires(node: Node, text: string)
    requires Armed(node) && TriggerType(node) == "keywords"
    ensures Fires(node, text) <==> SomeYieldsContained(Split(Strip(node.patterns), ','), text)
  {
    FiresByType(node, text);
    KeywordsContained(Split(Strip(node.patterns), ','), text);
  }

  /** Some piece yields a token the text contains. */
  predicate SomeYieldsContained(pieces: seq<string>, text: string) {
    exists j :: 0 <= j < |pieces| && Strip(pieces[j]) != "" && Contains(text, Lower(Strip(pieces[j])))
  }

  lemma KeywordsContained(pieces: seq<string>, text: string)
    ensures AnyKeywordIn(text, Tokens(pieces)) <==> SomeYieldsContained(pieces, text)
  {
    var kws := Tokens(pieces);
    if AnyKeywordIn(text, kws) {
      var k :| 0 <= k < |kws| && Contains(text, kws[k]);
      assert kws[k] in kws;
      TokensMembers(pieces, kws[k]);
    }
    if SomeYieldsContained(pieces, text) {
      var j :| 0 <= j < |pieces| && Strip(pieces[j]) != "" && Contains(text, Lower(Strip(pieces[j])));
      var t := Lower(Strip(pieces[j]));
      assert Yields(pieces[j], t);
      TokensMembers(pieces, t);
      var k :| 0 <= k < |kws| && kws[k] == t;
    }
  }

  /** A deep-link trigger fires exactly when the text equals one of its
      non-blank lines, stripped and lower-cased. */
  lemma DeeplinkFires(node: Node, text: string)
    requires Armed(node) && TriggerType(node) == "deeplink"
    ensures Fires(node, text) <==> SomeYields(Split(Strip(node.patterns), '\n'), text)
  {
    FiresByType(node, text);
    TokensMembers(Split(Strip(node.patterns), '\n'), text);
  }

  /** A node that does not fire is passed over: it changes nothing about the match. */
  lemma {:induction false} NonFiringSkipped(nid: string, node: Node, rest: seq<(string, Node)>, text: string)
    requires !Fires(node, text)
    ensures FirstTrigger([(nid, node)] + rest, text) == FirstTrigger(rest, text)
  {
    assert ([(nid, node)] + rest)[1..] == rest;
  }
}

=== FILE: wrappers.dfy ===
/** Optional values: Python's `None` and JavaScript's `null` on one side, a value on the other. */
module Wrappers {

  datatype Option<+T> = None | Some(value: T) {

    /** The value, or `default` when there is none. */
    function GetOr(default: T): T {
      if Some? then value else default
    }
  }

  /** The first `n` elements of `s` (Python's `s[:n]` for `n >= 0`). */
  function Take<T>(s: seq<T>, n: nat): (r: seq<T>)
    ensures |r| <= n && |r| <= |s|
    ensures r <= s
    ensures |s| <= n ==> r == s
  {
    if |s| <= n then s else s[..n]
  }
}
